=== FILE: README.md ===
# gcaudiosync in Dafny

gcaudiosync synchronises the sound of a CNC milling machine with the G-code
program the machine runs. This project models the discrete, deterministic
part of it and proves properties of that model. The model has three parts.

- **The G-code front end** (`gcanalyser`):
  - line normalisation and tokenising: the `StringFunctions` and `LineExtractor` modules;
  - the machine-parameter file: `CncParameter`;
  - the modal machine state: `CncStatus`;
  - the per-line interpreter: `GCodeLine`.
- **The expected timeline**:
  - the movement list with its pauses, tool changes, start times, line lookups and time stamps: `MovementManager`;
  - the small state machines that cut the program into spindle-frequency and cooling segments: `SyncInfoManager`, `FrequencyManager`, `CoolingManager`;
  - the snapshot detection: `Snapshot`, `SnapshotManager`;
  - the bisection root finder: `NumericalMethods`.
- **The audio side** (`audioanalyser` and `sound.py`):
  - the ramp/plateau form functions: `Piecewise`;
  - value-to-index conversion: `Util`;
  - index windows and slicers: `Slicer`;
  - time shifting, envelopes and the band mask: `Mask`;
  - candidate generation and argmax selection of the reference-point optimiser: `Optimize`;
  - sample-buffer splitting: `Sound`.

Shared modules:
- `Wrappers` holds `Option` and `Result`. Every `raise` of the source is an `Err`.
- `PyNum` models the Python number semantics the source relies on:
  - `float()` and `int()` on the strings the tokenizer can produce, with exact rationals in place of IEEE doubles;
  - `int()` truncation;
  - slice-bound normalisation.
- `Axes` holds the plain position records.

The managers are immutable records that the update functions thread through. The interpreter does not call the managers directly. Instead it appends to a log of manager calls (`GCodeLine.Event`), so each manager can be checked on its own.

The timeline is the prefix-sum bookkeeping of `movementmanager.py`. The matching is the mask-score optimiser of `optimize.py`.

## Model

| member | source | states |
|---|---|---|
| StringFunctions.StripNewlines | gcaudiosync/gcanalyser/stringfunctions.py:13 | the result is an infix of the line, and only '\n' characters were removed at either end |
| StringFunctions.Without | gcaudiosync/gcanalyser/stringfunctions.py:14-15 | the character no longer occurs; nothing else is added; a line without it is unchanged; exactly its occurrences are removed (the length drops by their count) |
| StringFunctions.WithoutAppend | gcaudiosync/gcanalyser/stringfunctions.py:14-15 | str.replace(c, "") distributes over concatenation and keeps or drops a single character, so the remaining characters keep their order |
| StringFunctions.BeforeSemicolon | gcaudiosync/gcanalyser/stringfunctions.py:20 | the result is the longest ';'-free prefix, and the line continues with ';' if it is longer |
| StringFunctions.RemoveCommentsInBrackets | gcaudiosync/gcanalyser/stringfunctions.py:25-49 | fails exactly when '(' and ')' occur different numbers of times; otherwise the result is exactly the level-0 text (every non-bracket character preceded by as many '(' as ')'), holds no bracket, and a bracket-free line is kept unchanged |
| StringFunctions.BracketScanIsLevel0 | gcaudiosync/gcanalyser/stringfunctions.py:35-44 | the running-level loop keeps exactly the characters that the counting definition of level 0 keeps |
| StringFunctions.BracketScanFacts | gcaudiosync/gcanalyser/stringfunctions.py:35-44 | the final comment level is count('(') − count(')'); the kept text holds no bracket and only input characters |
| StringFunctions.ClosingFirstKeepsNothing | gcaudiosync/gcanalyser/stringfunctions.py:38-49 | ")x(" is accepted and yields "": a leading ')' makes the level negative, so 'x' is dropped |
| StringFunctions.PrepareLine | gcaudiosync/gcanalyser/stringfunctions.py:2-23 | a line that, once cleaned, starts with '/' gives ""; otherwise it fails exactly when the brackets before the first ';' are unbalanced, and the result is the upper-cased level-0 text before the first ';' of the cleaned line; every result holds no space, '=', bracket, ';' or lower-case letter |
| StringFunctions.FindAlphaCombo | gcaudiosync/gcanalyser/stringfunctions.py:52-78 | fails exactly on an empty line or one not starting with a letter; otherwise name + rest == line, the name is a non-empty maximal run of letters and '_' |
| StringFunctions.FindNumber | gcaudiosync/gcanalyser/stringfunctions.py:81-109 | fails exactly on an empty line or one not starting with a character of "0123456789+-."; otherwise number + rest == line and the number is a non-empty maximal run over that alphabet |
| LineExtractor.Tokenize | gcaudiosync/gcanalyser/lineextractor.py:19-27 | an empty prepared line gives no pairs; one starting with a non-letter fails |
| LineExtractor.Extract | gcaudiosync/gcanalyser/lineextractor.py:13-29 | a preparation error is an error; a line that prepares to "" gives [] |
| LineExtractor.TokenizeSpells | gcaudiosync/gcanalyser/lineextractor.py:19-27 | the pairs, concatenated name + number left to right, spell the prepared line back |
| LineExtractor.TokenizeValid | gcaudiosync/gcanalyser/lineextractor.py:22-26 | every name is a non-empty run of letters/'_' starting with a letter, and every number a non-empty run over "0123456789+-." |
| LineExtractor.TokenizeComplete | gcaudiosync/gcanalyser/lineextractor.py:19-27 | every list of well-formed pairs is recovered exactly from the text it spells, so each number is maximal and tokenising is the inverse of spelling |
| LineExtractor.ExtractEmptyIff | gcaudiosync/gcanalyser/lineextractor.py:16-20 | extract returns no pairs exactly when the prepared line is empty |
| LineExtractor.NameWithoutNumberFails | gcaudiosync/gcanalyser/lineextractor.py:22-24 | a letter group followed by neither a name character nor a number character is refused |
| LineExtractor.FirstIndex | gcaudiosync/gcanalyser/gcodeline.py:600-607 | the position of the first token of that name, or none when no token has it |
| LineExtractor.RemoveAt | gcaudiosync/gcanalyser/gcodeline.py:612 | list.pop(i): the tokens before i stay in place, the ones after move down one |
| CncParameter.SetNumber | gcaudiosync/gcanalyser/cncparameter.py:124-125 | the named numeric attribute becomes the value; every other attribute is unchanged |
| CncParameter.SetCoordinate | gcaudiosync/gcanalyser/cncparameter.py:112-123 | exactly that start or tool-change coordinate is set; every other parameter is unchanged |
| CncParameter.ApplyPair | gcaudiosync/gcanalyser/cncparameter.py:104-127 | S_IS_ABSOLUTE is cleared only by the value "0"; a position name sets that coordinate to float(value), and fails once its axes object was replaced by an int; a numeric name and each of the three axes-object names is set to int(value); an unknown name changes nothing; a value the conversion refuses is an error |
| CncParameter.ReplacedObjectRefusesCoordinates | gcaudiosync/gcanalyser/cncparameter.py:112-125 | START_POSITION_LINEAR_AXES refuses "1.5", accepts "5", and after that START_POSITION_X fails |
| CncParameter.ApplyLine | gcaudiosync/gcanalyser/cncparameter.py:99-105 | only the first pair of a line is used; a line without pairs changes nothing |
| CncParameter.ApplyLines | gcaudiosync/gcanalyser/cncparameter.py:97-127 | no lines change nothing; once relative S mode is chosen no later line restores absolute mode |
| CncParameter.Load | gcaudiosync/gcanalyser/cncparameter.py:38-63 | with no lines the parameters are the defaults: F_MAX 20000, S_MAX 18000, TOOL_CHANGE_TIME 8000, absolute S, start and tool-change positions (100, 100, 100), M codes 0, 1, 2, 3, 4, 5, 6, 8, 9, 30 |
| CncParameter.ApplyLinesAppend | gcaudiosync/gcanalyser/cncparameter.py:97 | reading a file in two parts equals reading the first part, then the second from the resulting parameters |
| CncParameter.BlankLinesChangeNothing | gcaudiosync/gcanalyser/cncparameter.py:82-83 | a file whose lines carry no pair leaves the parameters as they were |
| CncStatus.NewStatus | gcaudiosync/gcanalyser/cncstatus.py:71-116 | every default field (movement type 0, plane 17, absolute positions, compensation 40, spindle off "CW", flags off); the axes are at the start position exactly when asked |
| CncStatus.CopyForNextLine | gcaudiosync/gcanalyser/cncstatus.py:128-148 | exact stop becomes the G61 flag and every other field is kept; the copy is a fixed point exactly when the two flags already agree, so copying twice changes nothing |
| GCodeLine.Drop | gcaudiosync/gcanalyser/gcodeline.py:427-469 | the tokens left after a consuming loop are the input tokens without the consumed names |
| GCodeLine.HandleF | gcaudiosync/gcanalyser/gcodeline.py:332-359 | fails exactly on a negative F; otherwise F_value is min(F, F_MAX) and nothing else changes |
| GCodeLine.HandleS | gcaudiosync/gcanalyser/gcodeline.py:361-406 | fails exactly on a negative S or on a relative S above 100; absolute S is capped at S_MAX; relative S is S_MAX·S/100; the value is reported with one new-S call |
| GCodeLine.SetAxis | gcaudiosync/gcanalyser/gcodeline.py:436-466 | one axis word sets the axis (absolute) or adds to it (relative); every other axis and field is unchanged |
| GCodeLine.LinearConsume | gcaudiosync/gcanalyser/gcodeline.py:422-469 | consumes exactly the X, Y, Z, A, B, C words, keeps every other token in order, changes only the positions, and fails only on an unconvertible number |
| GCodeLine.LinearAbsolute | gcaudiosync/gcanalyser/gcodeline.py:436-466 | in absolute mode an axis ends at the value of its last word, or stays when it has none |
| GCodeLine.LinearRelative | gcaudiosync/gcanalyser/gcodeline.py:436-466 | in relative mode an axis moves by the sum of its words |
| GCodeLine.AppliedArcWords | gcaudiosync/gcanalyser/gcodeline.py:547-567 | the arc words evaluated in a plane include every axis word and R |
| GCodeLine.SetArcWord | gcaudiosync/gcanalyser/gcodeline.py:516-567 | an arc word changes only positions and arc data, never the arc direction |
| GCodeLine.ArcConsume | gcaudiosync/gcanalyser/gcodeline.py:503-569 | consumes exactly the X…C, I, J, K, R words; reports whether an R word was present; keeps the arc direction |
| GCodeLine.LinearMovement | gcaudiosync/gcanalyser/gcodeline.py:408-472 | consumes the axis words, changes only the position, and reports exactly one linear movement from the last-line status to the new one |
| GCodeLine.ArcMovement | gcaudiosync/gcanalyser/gcodeline.py:474-580 | fails exactly in planes 18 and 19, on an unconvertible arc word, or when an R word is present (the radius branch calls a method the arc record does not have, gcodeline.py:878); otherwise the arc words are consumed and exactly one arc movement, from the last-line to the new status, is appended |
| GCodeLine.Dwell | gcaudiosync/gcanalyser/gcodeline.py:582-621 | fails exactly when there is no P word or float() refuses the first one; otherwise that P word is removed and a dwell of 1000·P ms is reported to both managers |
| GCodeLine.TScan | gcaudiosync/gcanalyser/gcodeline.py:735-741 | under pop-during-enumerate, the T words seen and the tokens kept split the line; no T word is seen exactly when the line has none |
| GCodeLine.ToolScan | gcaudiosync/gcanalyser/gcodeline.py:735-741 | fails exactly when a seen T word has no integer number; otherwise the line left is the kept tokens and the tool is the number of the last T word seen (or the one already found) |
| GCodeLine.ToolScanStep | gcaudiosync/gcanalyser/gcodeline.py:736-741 | a non-T token is passed over and the scan continues at the next index |
| GCodeLine.ToolScanPop | gcaudiosync/gcanalyser/gcodeline.py:738-741 | popping the T word at i and resuming at i + 1 of the shorter line resumes two words further on in the original line: the next word is kept unseen, and the popped word's number counts |
| GCodeLine.ToolScanSkipsNext | gcaudiosync/gcanalyser/gcodeline.py:735-741 | with two T words in a row, popping during enumeration skips the second: it stays and the first gives the tool |
| GCodeLine.ToolChange | gcaudiosync/gcanalyser/gcodeline.py:714-757 | fails exactly without a seen T word or on a non-integer one; otherwise the active tool is the number of the last T word seen, the kept tokens remain, both managers are told, and the axes move to the tool-change position |
| GCodeLine.Pause | gcaudiosync/gcanalyser/gcodeline.py:623-687 | abort, quit and program abort leave the status and log one pause of that kind and one open-ended (−1) movement pause |
| GCodeLine.Spindle | gcaudiosync/gcanalyser/gcodeline.py:689-712 | the spindle is on exactly when the command is not "off"; on, the direction is the command; one spindle call is logged |
| GCodeLine.Cooling | gcaudiosync/gcanalyser/gcodeline.py:759-779 | cooling is on exactly when the command is not "off"; one cooling call is logged |
| GCodeLine.EndOfProgram | gcaudiosync/gcanalyser/gcodeline.py:781-804 | the spindle stops, the end flag is set, and a spindle-off call and an end-of-program call are logged |
| GCodeLine.ModalG | gcaudiosync/gcanalyser/gcodeline.py:224-248 | G20 is the only error; G9, G17/18/19, G40–42.1, G61, G64, G90/91 and G90.1/91.1 each set their one setting; any other code changes nothing |
| GCodeLine.LinearG | gcaudiosync/gcanalyser/gcodeline.py:200-211 | G0/G1 set movement type 0/1 and the feed rate F_MAX/60000 or F/60000, then report one linear movement |
| GCodeLine.ArcG | gcaudiosync/gcanalyser/gcodeline.py:212-218 | G2/G3 set movement type and arc direction 2/3 and the feed rate F/60000, then append exactly one arc movement; they fail as ArcMovement does, including on any R word |
| GCodeLine.HandleG | gcaudiosync/gcanalyser/gcodeline.py:177-248 | G0–G3 move, G4 dwells, every other code is ModalG and reads no words |
| GCodeLine.MCommandOf | gcaudiosync/gcanalyser/gcodeline.py:274-306 | the M number selects the command of the first of the ten parameter codes it equals, in the order of the match statement, and no command exactly when it equals none |
| GCodeLine.HandleM | gcaudiosync/gcanalyser/gcodeline.py:250-306 | abort, quit and program abort pause with kind 0, 1, 2; the spindle codes call Spindle with "CW", "CCW", "off"; the cooling codes call Cooling with "on", "off"; M30 ends the program; the tool-change code is ToolChange; an unknown M does nothing; only a tool change reads words or can fail |
| GCodeLine.PriorityScan | gcaudiosync/gcanalyser/gcodeline.py:86-134 | finds the leftmost priority token (F, S, G9/17/18/19, M3/4/5) or reports that there is none; it fails only on a malformed G or M number |
| GCodeLine.HandlePriority | gcaudiosync/gcanalyser/gcodeline.py:94-131 | a priority token never consumes any other token |
| GCodeLine.PriorityPhase | gcaudiosync/gcanalyser/gcodeline.py:83-134 | after the priority loop no priority token is left, and the log only grows by events of this line |
| GCodeLine.MainStep | gcaudiosync/gcanalyser/gcodeline.py:139-170 | one turn of the main loop: the line gets shorter; an inert word is dropped; a bad G/M number fails; I, J, K or R in linear mode fails; G, M and axis words go to HandleG, HandleM, LinearMovement or ArcMovement by the movement type |
| GCodeLine.MainLoop | gcaudiosync/gcanalyser/gcodeline.py:136-170 | an empty line leaves the state; a failing step fails the loop; the log only grows by events of this line |
| GCodeLine.Interpret | gcaudiosync/gcanalyser/gcodeline.py:38-172 | a tokenising error is an error; the last-line status is the incoming status unchanged; an empty line only copies the status for the next line; with well-formed G/M numbers the line is the priority fold over the priority tokens followed by the main loop over the rest; every event carries the line index |
| GCodeLine.Keep | gcaudiosync/gcanalyser/gcodeline.py:86-134 | the filtered tokens all are, or all are not, priority tokens |
| GCodeLine.PriorityIgnoresRest | gcaudiosync/gcanalyser/gcodeline.py:94-131 | handling a priority token does not depend on the rest of the line |
| GCodeLine.KeepSplit | gcaudiosync/gcanalyser/gcodeline.py:96-123 | removing the leftmost priority token splits the priority and non-priority filters |
| GCodeLine.PriorityPhaseIsFold | gcaudiosync/gcanalyser/gcodeline.py:78-170 | with well-formed G/M numbers the priority loop handles exactly the priority tokens, leftmost first, and leaves exactly the others, in order |
| GCodeLine.InertWordsChangeNothing | gcaudiosync/gcanalyser/gcodeline.py:146-170 | N, T, P and unknown words are dropped by the main loop without effect |
| GCodeLine.ExactStopModes | gcaudiosync/gcanalyser/gcodeline.py:224-238 | G9 gives exact stop in its own line only; G61 keeps it in following lines; G64 clears it for following lines |
| MovementManager.NewManager | gcaudiosync/gcanalyser/movementmanager.py:22-39 | one entry: line −1, type −1, time 0, standing at the first status's position |
| MovementManager.AddLinear | gcaudiosync/gcanalyser/movementmanager.py:45-68 | after the end nothing changes; otherwise exactly one entry from the last-line to the current position, with the current feed rate, exact stop as in the status, and no arc |
| MovementManager.AddArc | gcaudiosync/gcanalyser/movementmanager.py:71-94 | as AddLinear, but the entry carries the current arc information |
| MovementManager.AddPauseAsWritten | gcaudiosync/gcanalyser/movementmanager.py:129-155 | as written, the pause's start rotation is the previous end linear position |
| MovementManager.PauseAsWrittenMovesRotation | gcaudiosync/gcanalyser/movementmanager.py:138-145 | a concrete pause whose start and end rotation differ, although the machine stands still |
| MovementManager.AddPause | gcaudiosync/gcanalyser/movementmanager.py:129-155 | the previous last entry gets exact stop; one stationary entry (feed 0) is appended at the previous end with time 10000 ms for −1, else the given time; nothing else changes |
| MovementManager.AddToolChange | gcaudiosync/gcanalyser/movementmanager.py:97-126 | after the end nothing changes; otherwise a rapid move at F_MAX with exact stop to the tool-change position, then the corrected pause of TOOL_CHANGE_TIME standing still there (position and rotation kept, feed 0); params, end flag and total time unchanged |
| MovementManager.AddEndOfProgram | gcaudiosync/gcanalyser/movementmanager.py:158-162 | the end flag is set and otherwise it is the corrected add_pause(line, 0): earlier entries kept, the previous last entry gets exact stop, one stationary 0 ms pause at the previous end position and rotation, params and total time unchanged |
| MovementManager.EndedManagerIgnoresMoves | gcaudiosync/gcanalyser/movementmanager.py:51-52 | after the end of the program, linear, arc and tool-change additions leave the manager unchanged |
| MovementManager.ExpectedTime | gcaudiosync/gcanalyser/movementmanager.py:165-179 | a line after the last entry's line has expected time 0 |
| MovementManager.ExpectedTimeIsSumLine | gcaudiosync/gcanalyser/movementmanager.py:165-179 | on a timeline sorted by line, the early-stopping backward scan equals the sum of the times of all entries of the line |
| MovementManager.Indices | gcaudiosync/gcanalyser/movementmanager.py:181-194 | every index returned belongs to the line, and the indices strictly descend |
| MovementManager.IndicesComplete | gcaudiosync/gcanalyser/movementmanager.py:181-194 | on a sorted timeline every entry of the line is found |
| MovementManager.AllLinesAnalysed | gcaudiosync/gcanalyser/movementmanager.py:246-257 | each entry keeps its data and gets its own duration; its start time is the sum of all earlier times; the total time is the sum of all times |
| MovementManager.FirstCovering | gcaudiosync/gcanalyser/movementmanager.py:204-211 | the first entry whose window start ≤ t < start + time holds the moment, or none |
| MovementManager.ToolPathInformation | gcaudiosync/gcanalyser/movementmanager.py:196-230 | fails exactly when no entry covers the moment; otherwise reports the line and type of the first covering entry and a non-negative time into it |
| MovementManager.ToolPathDefinedUntilTotal | gcaudiosync/gcanalyser/movementmanager.py:204-215 | on an analysed timeline with non-negative times every moment in [0, end of the last entry) is covered |
| MovementManager.ChangePoints | gcaudiosync/gcanalyser/movementmanager.py:355-369 | every stamp is [line, start time] of an entry after entry 0 |
| MovementManager.TimeStamps | gcaudiosync/gcanalyser/movementmanager.py:355-369 | the loop emits exactly the change points of the whole timeline |
| MovementManager.ChangePointsAlternate | gcaudiosync/gcanalyser/movementmanager.py:361-367 | consecutive stamps belong to different lines, and the last stamp's line is the tracked line |
| SyncInfoManager.New | gcaudiosync/gcanalyser/syncinfomanager.py:17-80 | fails exactly when the snapshot frequency fails; holds the filtered snapshot, one all-zero frequency segment, status 0, f 0 and empty lists |
| SyncInfoManager.CheckStartOfSnapshot | gcaudiosync/gcanalyser/syncinfomanager.py:84-115 | answers true exactly when every snapshot line matches the program line without its first N word, and only then records the line index |
| SyncInfoManager.NewTool | gcaudiosync/gcanalyser/syncinfomanager.py:119-126 | appends the line index to the tool changes and changes nothing else |
| SyncInfoManager.NewS | gcaudiosync/gcanalyser/syncinfomanager.py:131-170 | f becomes ⌊S/60⌋ and the current line the given one; with the spindle on and a new frequency, a new line closes the last segment at line−1 and opens [line, line, f, status], and the same line overwrites the last frequency; otherwise the segments are unchanged |
| SyncInfoManager.StatusOf | gcaudiosync/gcanalyser/syncinfomanager.py:186-194 | "CW" is 3, "CCW" is 4, and every other command is 0 |
| SyncInfoManager.NewSpindleOperation | gcaudiosync/gcanalyser/syncinfomanager.py:172-231 | an unchanged status changes nothing; otherwise the last segment closes at line−1 and a segment with frequency 0 (off) or f opens |
| SyncInfoManager.NewDwell | gcaudiosync/gcanalyser/syncinfomanager.py:236-244 | appends [line, 4, 0, time] to the pauses as a float record |
| SyncInfoManager.NewPause | gcaudiosync/gcanalyser/syncinfomanager.py:246-257 | appends [line, kind, 0, −1] to the pauses as an integer record |
| SyncInfoManager.Seek | gcaudiosync/gcanalyser/syncinfomanager.py:272-276 | the first stamp at or after the cursor whose line is ≥ the target, or the cursor itself when there is none |
| SyncInfoManager.PlaceSegment | gcaudiosync/gcanalyser/syncinfomanager.py:268-284 | the segment starts at the stamp of its start line and lasts until the stamp of its end line, searched from there |
| SyncInfoManager.PlaceSegments | gcaudiosync/gcanalyser/syncinfomanager.py:264-285 | the cursor never moves back; every segment keeps its lines, frequency and status |
| SyncInfoManager.Stored | gcaudiosync/gcanalyser/syncinfomanager.py:297 | storing a float into an integer record truncates it toward zero (a whole number within 1 of it, on its side of zero); a float record keeps it |
| SyncInfoManager.PlacePause | gcaudiosync/gcanalyser/syncinfomanager.py:288-297 | only the time stamp changes; it is the start time of the first stamp whose line is at least the pause's line, or of the first stamp when there is none, stored in the record's type |
| SyncInfoManager.PauseStampTruncated | gcaudiosync/gcanalyser/syncinfomanager.py:257-297 | a kind-0 pause on a line stamped at 0.5 ms is placed at 0, while a dwell there keeps 0.5 |
| SyncInfoManager.Update | gcaudiosync/gcanalyser/syncinfomanager.py:262-296 | fails only when there are no stamps but something to place; only times change; with stamps, the frequencies are the segments placed one after another from the first stamp |
| SyncInfoManager.PlaceSegmentsAt | gcaudiosync/gcanalyser/syncinfomanager.py:268-284 | segment k is placed by searching from the stamp where segment k − 1 ended, so the cursor only moves forward |
| SyncInfoManager.PlacedDurationsNonNegative | gcaudiosync/gcanalyser/syncinfomanager.py:264-285 | with sorted stamps every duration is non-negative and no segment starts before the cursor |
| Snapshot.Filter | gcaudiosync/gcanalyser/snapshotmanager.py:119-126 | the kept lines are non-empty and do not start with ';' |
| Snapshot.FilterKeepsClean | gcaudiosync/gcanalyser/snapshotmanager.py:119-126 | a list without empty or ';' lines is kept as it is |
| Snapshot.FilterIsSubset | gcaudiosync/gcanalyser/snapshotmanager.py:119-126 | every kept line comes from the input |
| Snapshot.DropSkipped | gcaudiosync/gcanalyser/snapshotmanager.py:119-126 | the in-place pop loop computes the filter |
| Snapshot.NormalizeAll | gcaudiosync/gcanalyser/snapshotmanager.py:113-116 | each line is stripped of '\n' at both ends and upper-cased |
| Snapshot.GetSnapshot | gcaudiosync/gcanalyser/snapshotmanager.py:109-128 | get_snapshot is normalising, then filtering, in order |
| Snapshot.SFrequency | gcaudiosync/gcanalyser/snapshotmanager.py:40-55 | absolute S above S_MAX and relative S above 100 fail; otherwise the frequency is ⌊rpm/60⌋ of S or of S_MAX·S/100 |
| Snapshot.FirstDecisive | gcaudiosync/gcanalyser/snapshotmanager.py:39-40 | the first S word that decides the frequency (positive, or not a number), or none when the line has no such word |
| Snapshot.TokensFrequency | gcaudiosync/gcanalyser/snapshotmanager.py:39-57 | a line without a deciding S word gives none; otherwise the first deciding word must be a positive S, and it gives the frequency |
| Snapshot.Frequency | gcaudiosync/gcanalyser/snapshotmanager.py:36-57 | fails exactly when some line fails; lines without a positive S leave the value unchanged |
| Snapshot.SnapshotFrequency | gcaudiosync/gcanalyser/snapshotmanager.py:35-57 | fails exactly when some snapshot line fails |
| Snapshot.LastPositiveSWins | gcaudiosync/gcanalyser/snapshotmanager.py:36-57 | the frequency is the one of the last line with a positive S, or the initial value when there is none |
| Snapshot.WithoutLineNumber | gcaudiosync/gcanalyser/snapshotmanager.py:72-75 | only the first N token is removed; a line without N is unchanged |
| Snapshot.LineMatches | gcaudiosync/gcanalyser/snapshotmanager.py:68-89 | two lines match exactly when the snapshot tokens equal the program tokens without their first N |
| Snapshot.FirstFalse | gcaudiosync/gcanalyser/snapshotmanager.py:67-93 | the loop answers true exactly when all comparisons succeed, and false at the first failing one |
| Snapshot.StartsSnapshot | gcaudiosync/gcanalyser/snapshotmanager.py:62-93 | true exactly when the program is long enough and every snapshot line matches its program line |
| Snapshot.NumberedLineMatches | gcaudiosync/gcanalyser/snapshotmanager.py:72-89 | a program line that is the snapshot line with a leading N word matches |
| SnapshotManager.New | gcaudiosync/gcanalyser/snapshotmanager.py:18-57 | the snapshot is the normalised and filtered list; its length is the length of that list; the frequency is the derived one, and it fails exactly when that fails |
| SnapshotManager.CheckStart | gcaudiosync/gcanalyser/snapshotmanager.py:62-93 | answers true exactly when the snapshot starts here and then records the index; on false nothing changes |
| SnapshotManager.Update | gcaudiosync/gcanalyser/snapshotmanager.py:96-98 | update changes nothing |
| FrequencyManager.New | gcaudiosync/gcanalyser/frequencymanager.py:8-11 | status 0, f 50, index 0 and the single record [0, 0, 0, 0, 0] |
| FrequencyManager.Hz | gcaudiosync/gcanalyser/frequencymanager.py:21 | for non-negative S, the frequency f satisfies 60·f ≤ S < 60·f + 60 |
| FrequencyManager.NewS | gcaudiosync/gcanalyser/frequencymanager.py:16-33 | f becomes ⌊S/60⌋ and index the line; records change only with the spindle on and a new frequency: a new record on a new line, an overwritten frequency on the same line |
| FrequencyManager.StatusOf | gcaudiosync/gcanalyser/frequencymanager.py:41-47 | only "off", "CW" and "CCW" are accepted, as 0, 3 and 4 |
| FrequencyManager.NewSpindleOperation | gcaudiosync/gcanalyser/frequencymanager.py:35-62 | any other command fails; an unchanged status changes nothing; otherwise the last record closes at index−1 and one with frequency 0 (off) or f is appended |
| CoolingManager.New | gcaudiosync/gcanalyser/coolingmanager.py:6 | the single record [0, 0, 0] |
| CoolingManager.Flag | gcaudiosync/gcanalyser/coolingmanager.py:17-20 | "on" means on; any other string means off |
| CoolingManager.NewOperationAsWritten | gcaudiosync/gcanalyser/coolingmanager.py:22-26 | as written: no change leaves the records alone; on a change the previous record's flag slot, not its end, becomes index−1, and [index, index, flag] is appended |
| CoolingManager.AsWrittenLosesFlag | gcaudiosync/gcanalyser/coolingmanager.py:24 | turning cooling on at line 5 turns the first record into [0, 0, 4] |
| CoolingManager.NewOperation | gcaudiosync/gcanalyser/coolingmanager.py:11-26 | an unchanged state changes nothing; otherwise the last record is closed at index−1 and exactly one record [index, index, flag] is appended |
| CoolingManager.NewOperationKeepsWellFormed | gcaudiosync/gcanalyser/coolingmanager.py:22-26 | the corrected update keeps the records well formed: flags 0 or 1, consecutive flags differ, and each closed record ends on the line before the next one starts |
| CoolingManager.AsWrittenBreaksWellFormed | gcaudiosync/gcanalyser/coolingmanager.py:24 | the update as written breaks that invariant on its first change |
| NumericalMethods.Bisection | gcaudiosync/gcanalyser/numericalmethods.py:4-29 | fails exactly when x0 ≥ x1 or f(x0)·f(x1) ≥ 0; otherwise returns a point strictly between x0 and x1 that is the midpoint of a sign-changing bracket no wider than tol, or a zero of f |
| NumericalMethods.SignChange | gcaudiosync/gcanalyser/numericalmethods.py:21-26 | when the left half has no sign change, the right half has one |
| Piecewise.ConditionHalfOpen | gcaudiosync/audioanalyser/piecewise.py:24-34 | a bounded function holds on start ≤ t < end, and never on an empty interval |
| Piecewise.EvalNoHit | gcaudiosync/audioanalyser/piecewise.py:151-166 | where no condition holds, the piecewise function is 0 |
| Piecewise.EvalLastHit | gcaudiosync/audioanalyser/piecewise.py:151-166 | where several conditions hold, the last one decides |
| Piecewise.EvalConcat | gcaudiosync/audioanalyser/piecewise.py:151-166 | evaluating a concatenation: the later list decides wherever it covers the time |
| Piecewise.LinearSegment | gcaudiosync/audioanalyser/piecewise.py:66-73 | zero duration gives []; otherwise one segment on [t0, t1) running from freq0 at t0 to freq1 at t1 |
| Piecewise.LinearBetween | gcaudiosync/audioanalyser/piecewise.py:69-73 | inside the segment a rising ramp stays between freq0 and freq1 |
| Piecewise.LinearValue | gcaudiosync/audioanalyser/piecewise.py:69-73 | inside the segment the value is freq0 + (freq1 − freq0)/(t1 − t0)·(t − t0) |
| Piecewise.PlateauSegment | gcaudiosync/audioanalyser/piecewise.py:82-88 | zero duration gives []; otherwise one segment on [t0, t1) with constant value freq1 |
| Piecewise.NewBended | gcaudiosync/audioanalyser/piecewise.py:96-114 | the builder exists exactly when the up slope is ≥ 0 and the down slope ≤ 0 |
| Piecewise.BendedSegment | gcaudiosync/audioanalyser/piecewise.py:116-135 | zero duration gives []; otherwise the segments start at t0, chain without gaps and end at t1 at level freq1 |
| Piecewise.BendedFlat | gcaudiosync/audioanalyser/piecewise.py:124-128 | equal frequencies give exactly one plateau at that frequency |
| Piecewise.BendedZeroSlope | gcaudiosync/audioanalyser/piecewise.py:124-128 | a zero slope gives exactly one plateau at freq1 |
| Piecewise.BendedRise | gcaudiosync/audioanalyser/piecewise.py:131-135 | a rise with a positive slope gives a ramp on [t0, t_mid) and a plateau on [t_mid, t1), t_mid = t0 + (freq1 − freq0)/slope |
| Piecewise.BendedCovers | gcaudiosync/audioanalyser/piecewise.py:116-135 | the bended segments cover every time in [t0, t1) |
| Piecewise.BuildShape | gcaudiosync/audioanalyser/piecewise.py:60-135 | every builder: [] exactly for zero duration, else segments from t0, chained, ending at t1 with freq1 |
| Piecewise.NewFormFunc | gcaudiosync/audioanalyser/piecewise.py:177-194 | accepted exactly when the first and last frequency are 0; the reference points start as zeros |
| Piecewise.SetRefPoints | gcaudiosync/audioanalyser/piecewise.py:196-211 | accepted exactly when the first point is 0 and the length matches the frequencies; only the points change |
| Piecewise.GetParametrized | gcaudiosync/audioanalyser/piecewise.py:213-243 | the list is framed by 0 on (−∞, ref[0]) and on [ref[−1], ∞) |
| Piecewise.ZeroFromLastRef | gcaudiosync/audioanalyser/piecewise.py:237-242 | the form function is 0 from the last reference point on |
| Piecewise.ZeroBeforeFirstRef | gcaudiosync/audioanalyser/piecewise.py:237-242 | with non-negative reference points the form function is 0 before time 0 |
| Piecewise.SegmentDecides | gcaudiosync/audioanalyser/piecewise.py:228-235 | between ref[k] and ref[k+1] the k-th builder call decides the value, applied to (freq[k−1], freq[k], ref[k], ref[k+1]) |
| Piecewise.LinearInterpolates | gcaudiosync/audioanalyser/piecewise.py:213-243 | with the linear builder the form function interpolates freq[k−1] → freq[k] between ref[k] and ref[k+1] |
| Util.ConvertToIdx | gcaudiosync/audioanalyser/util.py:23-30 | fails exactly on division by zero: n_x = 0 or x_max = 0 |
| Util.ConvertBracket | gcaudiosync/audioanalyser/util.py:28 | the index i is the floor: i·w ≤ x < (i+1)·w with w = x_max/n_x |
| Util.ConvertAllToIdx | gcaudiosync/audioanalyser/util.py:28-31 | an array is converted elementwise, with the same length |
| Util.ConvertMonotone | gcaudiosync/audioanalyser/util.py:28 | for positive x_max and n_x the index is non-decreasing in x |
| Util.ConvertEnds | gcaudiosync/audioanalyser/util.py:28 | 0 maps to 0, x_max maps to n_x, and a negative x to a negative index |
| Slicer.NewIndexConfig | gcaudiosync/audioanalyser/slicer.py:20-36 | refused exactly when from ≥ to on an axis with both bounds |
| Slicer.NewValueConfig | gcaudiosync/audioanalyser/slicer.py:20-45 | refused exactly when from ≥ to on an axis with both bounds |
| Slicer.ConvertBound | gcaudiosync/audioanalyser/slicer.py:55-62 | None stays None; a value is converted with convert_to_idx |
| Slicer.ConvertToIdxConfig | gcaudiosync/audioanalyser/slicer.py:47-69 | each bound is converted independently and the result is validated again |
| Slicer.ConvertErrors | gcaudiosync/audioanalyser/slicer.py:47-69 | for positive sizes the conversion fails exactly when the converted bounds are out of order |
| Slicer.SameBinRefused | gcaudiosync/audioanalyser/slicer.py:20-27 | a valid value window whose bounds fall into one bin is refused once converted |
| Slicer.ConvertKeepsOrder | gcaudiosync/audioanalyser/slicer.py:47-69 | ordered values give ordered indices |
| Slicer.Parse | gcaudiosync/audioanalyser/slicer.py:144-171 | no config is the empty index config; an index config is kept; a value config is converted |
| Slicer.Build | gcaudiosync/audioanalyser/slicer.py:173-208 | each window is the intersection of the global and local windows, with an absent or zero upper bound meaning the full axis |
| Slicer.BuildFull | gcaudiosync/audioanalyser/slicer.py:181-208 | no configs give the full window [0, n_x) × [0, n_y) |
| Slicer.ZeroUpperIgnored | gcaudiosync/audioanalyser/slicer.py:187-190 | an upper bound of 0 falls back to n_x because of `or` |
| Slicer.DisjointNotRefused | gcaudiosync/audioanalyser/slicer.py:199-208 | disjoint configs give from > to without an error |
| Slicer.XSliceWidth | gcaudiosync/audioanalyser/slicer.py:84-101 | the x slice of a vector has the width of the normalised window |
| Slicer.MatrixSlice | gcaudiosync/audioanalyser/slicer.py:92-115 | the matrix slice is a matrix of the y-slice height and the x-slice width |
| Slicer.MatrixSliceAt | gcaudiosync/audioanalyser/slicer.py:92-115 | entry (i, j) of the slice is entry (from_y + i, from_x + j) of the matrix |
| Slicer.Call | gcaudiosync/audioanalyser/slicer.py:96-132 | anything but exactly one argument fails; each handler fails exactly on a wrong shape and returns the [from, to) slice |
| Slicer.MatrixWindow | gcaudiosync/audioanalyser/slicer.py:110-115 | an in-range window cuts exactly the rows from_y..to_y and columns from_x..to_x |
| Slicer.RowWindow | gcaudiosync/audioanalyser/slicer.py:96-101 | an in-range window cuts x[from_x:to_x] |
| Mask.PosShift | gcaudiosync/audioanalyser/mask.py:27-31 | an empty signal is an error; the length is preserved |
| Mask.PosShiftMoves | gcaudiosync/audioanalyser/mask.py:27-31 | entries before the shift are x[0]; entry i ≥ shift is x[i − shift] |
| Mask.NegShiftAsWritten | gcaudiosync/audioanalyser/mask.py:19-25 | as written: an empty signal is an error; the length is preserved |
| Mask.NegShiftZeroFlattens | gcaudiosync/audioanalyser/mask.py:23-24 | as written, a zero shift turns [0, 1] into [1, 1], while the positive shift keeps it |
| Mask.NegShiftAsWrittenNotMirror | gcaudiosync/audioanalyser/mask.py:19-31 | as written, neg is not the mirror image of pos |
| Mask.NegShift | gcaudiosync/audioanalyser/mask.py:19-25 | agrees with the code for every non-zero shift and preserves the length |
| Mask.NegShiftMoves | gcaudiosync/audioanalyser/mask.py:19-25 | entry i < n − shift is x[i + shift], the tail is x[−1], and a zero shift is the identity |
| Mask.NegShiftMirrorsPos | gcaudiosync/audioanalyser/mask.py:19-31 | the corrected neg is pos applied to the reversed signal, reversed back |
| Mask.InterpAtSample | gcaudiosync/audioanalyser/mask.py:50-54 | linear interpolation at a sample point gives the sample |
| Mask.UpsampleAsWritten | gcaudiosync/audioanalyser/mask.py:48-54 | as written: an empty signal or a negative factor is an error; otherwise len·factor samples, taken on the grid linspace(0, len − 1, len·factor, endpoint=False) |
| Mask.UpsampleAsWrittenDrifts | gcaudiosync/audioanalyser/mask.py:48-54 | as written, downsampling (the `[::factor]` of mask.py lines 139-140) the upsampled [0, 10] by 2 gives [0, 5], not the signal |
| Mask.Upsample | gcaudiosync/audioanalyser/mask.py:48-54 | len·factor samples; an empty signal or a negative factor is an error |
| Mask.UpsampleAt | gcaudiosync/audioanalyser/mask.py:48-54 | the corrected upsampling hits sample t at position t·factor |
| Mask.Downsample | gcaudiosync/audioanalyser/mask.py:139-140 | [::factor] keeps ⌈len/factor⌉ entries, entry j being e[j·factor] |
| Mask.DownUp | gcaudiosync/audioanalyser/mask.py:48-54 | downsampling (`[::factor]`) the corrected upsampled signal gives the signal back |
| Mask.DownsampleLe | gcaudiosync/audioanalyser/mask.py:139-140 | downsampling keeps a pointwise order |
| Mask.MinAt | gcaudiosync/audioanalyser/mask.py:135 | the column minimum is below every row and is attained |
| Mask.MaxAt | gcaudiosync/audioanalyser/mask.py:136 | the column maximum is above every row and is attained |
| Mask.NegShiftAsWrittenZero | gcaudiosync/audioanalyser/mask.py:23-24 | as written, a zero left shift replaces every entry by the last one |
| Mask.NegShiftOf | gcaudiosync/audioanalyser/mask.py:19-25 | either variant of the left shift fails exactly on an empty signal and keeps the length |
| Mask.UpsampleOf | gcaudiosync/audioanalyser/mask.py:48-54 | either variant of the upsampling fails exactly on an empty signal or a negative factor and gives len·factor samples |
| Mask.Buffer | gcaudiosync/audioanalyser/mask.py:121-132 | eight rows of the signal length: rows 0, 2, 6 are pos of the plus, minus and index rows, rows 1, 3, 7 their neg in the chosen variant, rows 4 and 5 the plus and minus rows |
| Mask.Envelopes | gcaudiosync/audioanalyser/mask.py:134-136 | lower ≤ every row ≤ upper, pointwise, and both envelopes are attained by some row |
| Mask.Band | gcaudiosync/audioanalyser/mask.py:142-146 | to_y − from_y rows; entry [r][t] is true exactly when lower[t] ≤ from_y + r ≤ upper[t] |
| Mask.SlicedSignal | gcaudiosync/audioanalyser/mask.py:70-77 | a signal of the time length is x-sliced; one of the slicer width is kept; any other length is an error |
| Mask.AddAll | gcaudiosync/audioanalyser/mask.py:90-99 | the signal moved up or down by the half frequency window |
| Mask.Rows3 | gcaudiosync/audioanalyser/mask.py:79-108 | fails exactly when a conversion divides by zero; the upsampled signal is the chosen variant's upsampling, with len·factor samples, and the time shift is convert_to_idx(time_window/2)·factor |
| Mask.Rows3Bins | gcaudiosync/audioanalyser/mask.py:83-99 | the three index rows are the bins of the signal and of the signal ± freq_window/2 |
| Mask.RowsOrdered | gcaudiosync/audioanalyser/mask.py:83-99 | with a non-negative window, minus ≤ index ≤ plus at every sample |
| Mask.Columns | gcaudiosync/audioanalyser/mask.py:121-140 | one lower and one upper bound per sliced sample, lower ≤ upper |
| Mask.ColumnAt | gcaudiosync/audioanalyser/mask.py:121-140 | column t is the least and the greatest of the eight rows at upsampled point t·factor, each attained by a row; so it brackets the minus and plus rows there |
| Mask.MaskOf | gcaudiosync/audioanalyser/mask.py:56-146 | fails exactly when slicing or a conversion fails; to_y − from_y rows of one entry per sliced sample; entry [k][t] is true exactly when column t's bounds enclose bin from_y + k |
| Mask.BuildBinaryMask | gcaudiosync/audioanalyser/mask.py:56-146 | build_binary_mask as written (the code's neg and _upsample): the error cases, the shape of the mask, and that entry (k, t) is true exactly when bin fromY + k lies between the lower and upper envelope at sample t |
| Mask.BuildBinaryMaskCorrected | gcaudiosync/audioanalyser/mask.py:56-146 | with the two helpers corrected: the same error cases and shape as build_binary_mask, and the same band rule on the corrected envelopes |
| Mask.CorrectedLikeAsWritten | gcaudiosync/audioanalyser/mask.py:56-146 | the corrected mask exists exactly when the as-written one does, with the same shape |
| Mask.UpsampleAsWrittenExample | gcaudiosync/audioanalyser/mask.py:48-54 | as written, [0, 10] upsampled by 2 is [0, 2.5, 5, 7.5] |
| Mask.AsWrittenStageExample | gcaudiosync/audioanalyser/mask.py:79-108 | as written, for [0, 10], ten bins up to 10, no windows and factor 2, the time shift is 0 and points 2 and 3 lie in bins 5 and 7 |
| Mask.AsWrittenSecondColumn | gcaudiosync/audioanalyser/mask.py:121-140 | as written with shift 0, the second of two columns spans the bins of points 2 and 3 |
| Mask.AsWrittenColumnMissesSignal | gcaudiosync/audioanalyser/mask.py:56-146 | as written, on that input column 1 spans bins 5 to 7 while its sample lies in bin 10, so the mask misses the signal |
| Mask.BinOfTen | gcaudiosync/audioanalyser/util.py:23-30 | with ten bins up to 10 the value 10 lies in bin 10 |
| Mask.ColumnsCoverSignal | gcaudiosync/audioanalyser/mask.py:121-140 | with the corrected helpers, the bounds of each column bracket the bin of the signal there |
| Mask.MaskCoversSignal | gcaudiosync/audioanalyser/mask.py:56-146 | with the corrected helpers, the mask is true at the signal's own bin in every column, for a non-negative window |
| Optimize.Linspace | gcaudiosync/audioanalyser/optimize.py:110 | n points starting at lb |
| Optimize.LinspaceLast | gcaudiosync/audioanalyser/optimize.py:110 | with n ≥ 2 the last point is ub |
| Optimize.LinspaceEven | gcaudiosync/audioanalyser/optimize.py:110 | consecutive points are (ub − lb)/(n − 1) apart |
| Optimize.LinspaceBetween | gcaudiosync/audioanalyser/optimize.py:110 | every point lies in [lb, ub] |
| Optimize.CandidateCount | gcaudiosync/audioanalyser/optimize.py:107 | a zero step fails; otherwise n is int((ub − lb)/dx·resolution), truncated toward zero |
| Optimize.Tile | gcaudiosync/audioanalyser/optimize.py:109-111 | n copies of the vector |
| Optimize.ProposeAt | gcaudiosync/audioanalyser/optimize.py:109-110 | row j equals the vector except at the index, where it is the j-th linspace point; a bad index fails |
| Optimize.AllXCandidates | gcaudiosync/audioanalyser/optimize.py:154-160 | fewer than two points fail; row j keeps both ends and moves each inner x[i] along linspace(x[i], x[i] + d, n) |
| Optimize.AllXEnds | gcaudiosync/audioanalyser/optimize.py:158 | the first candidate is x, and the last shifts every inner point by d = x[−1] − x[−2] |
| Optimize.FirstMaxUnique | gcaudiosync/audioanalyser/optimize.py:95 | the first maximal position is unique |
| Optimize.Argmax | gcaudiosync/audioanalyser/optimize.py:95 | np.argmax: empty fails; otherwise the first position of a maximal score |
| Optimize.Optimize | gcaudiosync/audioanalyser/optimize.py:77-95 | no proposals fail; otherwise the proposal pair at the first maximal score |
| Optimize.XSlicer | gcaudiosync/audioanalyser/optimize.py:113 | the x-restricted slicer exists only for lb < ub |
| Optimize.YSlicer | gcaudiosync/audioanalyser/optimize.py:138 | the y-restricted slicer exists only for lb < ub |
| Optimize.XSlicerWindow | gcaudiosync/audioanalyser/optimize.py:113 | the y window is the unrestricted one; the x window is the global one intersected with the bins of [lb, ub) |
| Optimize.YSlicerWindow | gcaudiosync/audioanalyser/optimize.py:138 | the x window is the unrestricted one; the y window is the global one intersected with the bins of [lb, ub) |
| Optimize.OptimizeXi | gcaudiosync/audioanalyser/optimize.py:97-120 | the winner is the first best candidate: x changed only at the index, within [lb, ub], and y unchanged |
| Optimize.OptimizeYi | gcaudiosync/audioanalyser/optimize.py:122-145 | the winner is the first best candidate: y changed only at the index, within [lb, ub], and x unchanged |
| Optimize.OptimizeAllX | gcaudiosync/audioanalyser/optimize.py:147-171 | the winner is the first best shifted x, with both ends kept, y unchanged, and the unrestricted slicer |
| Optimize.Double | gcaudiosync/audioanalyser/optimize.py:61 | 2·form, pointwise |
| Optimize.MaskOr | gcaudiosync/audioanalyser/optimize.py:62 | the pointwise or of two masks of one shape |
| Optimize.DoubledMaskShape | gcaudiosync/audioanalyser/optimize.py:58-62 | the doubled form's mask exists exactly when the form's does, with the same shape |
| Optimize.BuildMask | gcaudiosync/audioanalyser/optimize.py:52-62 | the form mask (built with the corrected shift and upsampling), or'ed with the doubled-form mask of the same shape when the first harmonic is used |
| Optimize.MaskedSum | gcaudiosync/audioanalyser/optimize.py:75 | S[mask].sum() needs equal shapes |
| Optimize.GridSumMono | gcaudiosync/audioanalyser/optimize.py:75 | on a non-negative spectrogram a larger mask never scores less |
| Optimize.DetermineScore | gcaudiosync/audioanalyser/optimize.py:64-75 | the score is the sum of the sliced spectrogram under the mask |
| Optimize.HarmonicNeverLowers | gcaudiosync/audioanalyser/optimize.py:59-62 | on a non-negative spectrogram, adding the first harmonic never lowers a score |
| Sound.NSamples | gcaudiosync/sound.py:16-17 | the length of the first axis |
| Sound.NChannels | gcaudiosync/sound.py:20-21 | 1 for 1-D data, otherwise the second dimension |
| Sound.Duration | gcaudiosync/sound.py:12-13 | duration·samplerate = nsamples; a zero samplerate is an error |
| Sound.Bounds | gcaudiosync/sound.py:26 | [0, *indices, nsamples] |
| Sound.SplitSeq | gcaudiosync/sound.py:23-27 | len(indices) + 1 parts, part k = data[b_k : b_{k+1}] with Python slice semantics |
| Sound.SplitAtIndices | gcaudiosync/sound.py:23-27 | len(indices) + 1 parts, each with the original samplerate and the k-th slice of the data |
| Sound.SplitConcat | gcaudiosync/sound.py:23-27 | for non-decreasing indices within [0, nsamples] the parts concatenate back to the data |

## Left out

- File reading: every file is given as its list of lines. Printing, plots, the CLI, audio I/O, the spectrogram, tqdm progress bars and the optimiser's callback are out of scope.
- Arc centre and radius (gcodeline.py:806-910): these use square roots and vector geometry, so neither is computed.
  - An arc with an R word fails as the code has it: the radius branch ends in `set_arc_center_with_array` (gcodeline.py:878), a method `ArcInformation` does not define (arcinformation.py has only `get_arc_center_as_array`, `set_arc_center` and `print`).
  - An arc given by I, J, K records the offsets; the radius that `compute_radius` derives from them is not computed.
- The movement record: the manager is modelled against the movement record it evidently intends, not the class in gcaudiosync/gcanalyser/movement.py. `Movement.__init__` (movement.py:13-20) takes line_index, movement, start/end_point_linear, start/end_point_rotation and info_arc. The manager's five constructor calls (movementmanager.py:28, 55, 81, 112, 138) pass movement_type=, start_position_linear_axes=, end_position_linear_axes=, start_position_rotation_axes=, end_position_rotation_axes=, arc_information= and feed_rate=, which Python rejects with a TypeError. movement.py also defines no `do_exact_stop` (called at movementmanager.py:66, 92, 121, 153), no `compute_expected_time` (253) and no `adjust_start_and_total_time` (274). The datatype `MovementManager.Movement` carries the fields these calls name, and exact stop is a flag set on the previous entry.
- Movement timing internals: the time a movement takes and the position inside a movement are not part of the model, because the methods that would compute them do not exist in movement.py. `MovementManager.AllLinesAnalysed` takes the duration as a function parameter. `ToolPathInformation` reports the time into the movement, not the interpolated position.
- `set_start_time_and_total_time` and `adjust_start_time_of_g_code_line` (movementmanager.py:259-352): these are float rescalings of the timeline.
- Cross-module wiring: the interpreter logs its manager calls rather than calling the managers. In the source, several of those calls do not match their callee:
  - Five calls pass the keyword `g_code_line_index=` to a `MovementManager` method whose parameter is `line_index`, which raises a TypeError. The model logs each of them as a successful event:
    - `add_linear_movement` (gcodeline.py:470);
    - `add_arc_movement` (gcodeline.py:578);
    - `add_tool_change` (gcodeline.py:754);
    - `add_pause` from abort, quit and program abort (gcodeline.py:642, 664, 686).
  - The cooling handler calls `SyncInfoManager.new_cooling_operation` (gcodeline.py:779), a method the class does not define.
  - The positional calls of the dwell (gcodeline.py:613-616) and of the end of the program (gcodeline.py:804) match their callees, as do all keyword calls to `SyncInfoManager`.
- Class-level lists shared between instances (movementmanager.py:18, frequencymanager.py:11, coolingmanager.py:6) are not reproduced. Every manager value is independent.
- Class-level position records of `CNC_Parameter` (cncparameter.py:38-40) are shared by every instance, and `set_position` changes them in place (cncparameter.py:113-123). Here each parameter value owns its positions.
- CncParameter.ApplyPair: after an axes-object name replaces a position record by an int, only later coordinate lines of that record fail. The interpreter still reads the last position record, where the source would fail at its first use.
- `get_as_array`/`set_with_array` of the axis records are not modelled.
- GCodeLine.MainLoop: an I, J, K or R word met in linear mode is never consumed, so the source loops forever. Here it is an error.
- Numbers are exact rationals, not IEEE doubles. `float()` and `int()` accept exactly the decimal strings the tokenizer can produce, so exponents, "inf" and "nan" are not modelled.
- Letters, upper-casing and `isalpha` are ASCII only.
- NumericalMethods.Bisection: requires tol > 0. With tol ≤ 0 and no exact zero the source loop does not end in exact arithmetic.
- The optimiser's score is a parameter of `Optimize.Optimize`, `OptimizeXi`, `OptimizeYi` and `OptimizeAllX`.
  - `_build_mask` calls `set_ref_points(x, y)` with two arguments (optimize.py:56), but `ParametrisableFormFunc.set_ref_points` takes one (piecewise.py:196).
  - So the evaluation of the form on the time samples (optimize.py:56-57) is not modelled.
  - `Optimize.BuildMask` and `Optimize.DetermineScore` take the evaluated form as input.
- The piecewise form function is evaluated pointwise (`Piecewise.Eval`) rather than on arrays.
- Util.ConvertAllToIdx: with n_x = 0 the conversion fails even for an empty array, as `x_max / n_x` does. With x_max = 0 an empty array gives `Ok([])`. A non-empty one gives an error here, where numpy divides by zero into inf or nan and casts that to an undefined int64.
- MovementManager.AddToolChange: built on the corrected `MovementManager.AddPause`, so its pause keeps the previous end rotation. The code as written (movementmanager.py:123 calls add_pause, line 142) starts that pause's rotation at the tool-change linear position; see Findings.
- MovementManager.AddEndOfProgram: built on the corrected `MovementManager.AddPause`, so its pause keeps the previous end rotation. The code as written (movementmanager.py:162 calls add_pause, line 142) starts that pause's rotation at the previous end linear position; see Findings.
- Mask: the envelope and band logic is modelled on the exact bins of the upsampled signal. np.interp is modelled by its exact linear interpolation. The optimiser builds its masks with the corrected `neg` and `_upsample` (see Findings); `Mask.BuildBinaryMask` keeps the code as written.
- Axes: the axis-name helpers of the position records are not modelled.

## Findings

| source | as written | input that shows it | evidently intended | confidence | as-written member | corrected member |
|---|---|---|---|---|---|---|
| gcaudiosync/gcanalyser/movementmanager.py:142 | a pause's start rotation is copied from the previous movement's end linear position | a pause after a move ending at X=Y=Z=100 with no rotation starts at rotation (100, 100, 100) and ends at (0, 0, 0) | start rotation = previous end rotation, so a pause stands still | high, not executed | MovementManager.AddPauseAsWritten (MovementManager.PauseAsWrittenMovesRotation) | MovementManager.AddPause (MovementManager.AddToolChange, MovementManager.AddEndOfProgram) |
| gcaudiosync/gcanalyser/coolingmanager.py:24 | on a change, `cooling[-1][2] = index-1` overwrites the previous record's flag slot | turning cooling on at line 5 makes the first record [0, 0, 4] | close the previous record by setting its end index, slot 1 | high, not executed | CoolingManager.NewOperationAsWritten (CoolingManager.AsWrittenLosesFlag, CoolingManager.AsWrittenBreaksWellFormed) | CoolingManager.NewOperation (CoolingManager.NewOperationKeepsWellFormed) |
| gcaudiosync/audioanalyser/mask.py:24 | `p[-self.shift:] = x[-1]` with shift 0 selects the whole array | neg([0, 1]) with shift 0 gives [1, 1] | a zero shift leaves the signal unchanged, as pos does | high, not executed | Mask.NegShiftAsWritten (Mask.NegShiftZeroFlattens, Mask.NegShiftAsWrittenNotMirror, Mask.NegShiftAsWrittenZero, Mask.AsWrittenSecondColumn) | Mask.NegShift (Mask.NegShiftMoves, Mask.NegShiftMirrorsPos, Mask.BuildBinaryMaskCorrected) |
| gcaudiosync/audioanalyser/mask.py:51 | the upsampling grid is linspace(0, len − 1, len·factor, endpoint=False), whose step is (len − 1)/(len·factor), not 1/factor | upsampling [0, 10] by 2 and keeping every 2nd sample gives [0, 5] | sample t of the signal sits at t·factor, so `[::factor]` (mask.py:139-140) restores one column per sample | medium, not executed | Mask.UpsampleAsWritten (Mask.UpsampleAsWrittenDrifts, Mask.BuildBinaryMask, Mask.AsWrittenColumnMissesSignal) | Mask.Upsample (Mask.DownUp, Mask.BuildBinaryMaskCorrected, Mask.MaskCoversSignal) |

=== FILE: axes.dfy ===
/** Plain coordinate records shared by the G-code analyser
    (gcanalyser/linearaxes.py, rotationaxes.py, arcinformation.py). */
module Axes {
  /** Positions of the X, Y and Z axes in mm. */
  datatype LinearAxes = LinearAxes(x: real, y: real, z: real)

  /** Positions of the A, B and C axes in degrees. */
  datatype RotationAxes = RotationAxes(a: real, b: real, c: real)

  /** Arc data of a G2/G3 move: direction 2 (CW) or 3 (CCW), centre
      offsets I, J, K and the radius. */
  datatype ArcInformation = ArcInformation(direction: int, i: real, j: real, k: real, radius: real)

  const Origin := LinearAxes(0.0, 0.0, 0.0)
  const NoRotation := RotationAxes(0.0, 0.0, 0.0)
}

=== FILE: cncparameter.dfy ===
/** Machine limits and M-code numbers, and the fold of a parameter file
    into them (gcanalyser/cncparameter.py). The file is given as its list
    of lines. */
module CncParameter {
  import opened Wrappers
  import opened PyNum
  import opened Axes
  import opened LineExtractor

  /** The M-code numbers the interpreter reacts to. */
  datatype MCodes = MCodes(
    abort: real, quit: real, progAbort: real,
    spindleCw: real, spindleCcw: real, spindleOff: real,
    toolChange: real, coolingOn: real, coolingOff: real,
    endOfProgram: real)

  datatype Params = Params(
    startLinear: LinearAxes,
    startRotation: RotationAxes,
    toolChangeLinear: LinearAxes,
    sIsAbsolute: bool,
    fMax: real,           // mm/min
    sMax: real,           // rpm
    maxAX: real, maxAY: real, maxAZ: real,
    toolChangeTime: real, // ms
    codes: MCodes,
    replaced: map<AxesObject, int>)

  function Defaults(): Params {
    Params(
      LinearAxes(100.0, 100.0, 100.0),
      NoRotation,
      LinearAxes(100.0, 100.0, 100.0),
      true,
      20000.0, 18000.0,
      40.0, 40.0, 40.0,
      8000.0,
      MCodes(0.0, 1.0, 2.0, 3.0, 4.0, 5.0, 6.0, 8.0, 9.0, 30.0),
      map[])
  }

  /** The three position objects of the parameter record. A parameter line
      naming one of them replaces the object by an integer (`replaced`);
      after that the object has no X, Y or Z to set. */
  datatype AxesObject = StartLinearObject | StartRotationObject | ToolChangeLinearObject

  /** The object a position parameter writes into. */
  function ObjectOf(k: PositionKey): AxesObject {
    if k in {StartX, StartY, StartZ} then StartLinearObject else ToolChangeLinearObject
  }

  /** The numeric attributes of the parameter record. */
  datatype NumberKey =
    | FMax | SMax | MaxAX | MaxAY | MaxAZ | ToolChangeTime
    | Abort | Quit | ProgAbort | SpindleCw | SpindleCcw | SpindleOff
    | ToolChange | CoolingOn | CoolingOff | EndOfProgram

  /** The six position parameters the file may set. */
  datatype PositionKey = StartX | StartY | StartZ | ToolChangeX | ToolChangeY | ToolChangeZ

  /** What a parameter name refers to. */
  datatype ParamName =
    | SIsAbsoluteName
    | PositionName(pk: PositionKey)
    | NumberName(nk: NumberKey)
    | AxesObjectName(ao: AxesObject)
    | UnknownName

  /** Classifies a parameter name: the absolute-S flag, one of the six
      position coordinates, a numeric attribute, one of the three position
      objects (also attributes, so `hasattr` accepts them) or an unknown
      name. */
  function Classify(name: string): ParamName {
    match name
    case "S_IS_ABSOLUTE" => SIsAbsoluteName
    case "START_POSITION_X" => PositionName(StartX)
    case "START_POSITION_Y" => PositionName(StartY)
    case "START_POSITION_Z" => PositionName(StartZ)
    case "TOOL_CHANGE_POSITION_X" => PositionName(ToolChangeX)
    case "TOOL_CHANGE_POSITION_Y" => PositionName(ToolChangeY)
    case "TOOL_CHANGE_POSITION_Z" => PositionName(ToolChangeZ)
    case "F_MAX" => NumberName(FMax)
    case "S_MAX" => NumberName(SMax)
    case "MAX_A_X" => NumberName(MaxAX)
    case "MAX_A_Y" => NumberName(MaxAY)
    case "MAX_A_Z" => NumberName(MaxAZ)
    case "TOOL_CHANGE_TIME" => NumberName(ToolChangeTime)
    case "COMMAND_ABORT" => NumberName(Abort)
    case "COMMAND_QUIT" => NumberName(Quit)
    case "COMMAND_PROGABORT" => NumberName(ProgAbort)
    case "COMMAND_SPINDLE_START_CW" => NumberName(SpindleCw)
    case "COMMAND_SPINDLE_START_CCW" => NumberName(SpindleCcw)
    case "COMMAND_SPINDLE_OFF" => NumberName(SpindleOff)
    case "COMMAND_TOOL_CHANGE" => NumberName(ToolChange)
    case "COMMAND_COOLING_ON" => NumberName(CoolingOn)
    case "COMMAND_COOLING_OFF" => NumberName(CoolingOff)
    case "COMMAND_END_OF_PROGRAM" => NumberName(EndOfProgram)
    case "START_POSITION_LINEAR_AXES" => AxesObjectName(StartLinearObject)
    case "START_POSITION_ROTATION_AXES" => AxesObjectName(StartRotationObject)
    case "TOOL_CHANGE_POSITION_LINEAR_AXES" => AxesObjectName(ToolChangeLinearObject)
    case _ => UnknownName
  }

  function Number(p: Params, k: NumberKey): real {
    match k
    case FMax => p.fMax
    case SMax => p.sMax
    case MaxAX => p.maxAX
    case MaxAY => p.maxAY
    case MaxAZ => p.maxAZ
    case ToolChangeTime => p.toolChangeTime
    case Abort => p.codes.abort
    case Quit => p.codes.quit
    case ProgAbort => p.codes.progAbort
    case SpindleCw => p.codes.spindleCw
    case SpindleCcw => p.codes.spindleCcw
    case SpindleOff => p.codes.spindleOff
    case ToolChange => p.codes.toolChange
    case CoolingOn => p.codes.coolingOn
    case CoolingOff => p.codes.coolingOff
    case EndOfProgram => p.codes.endOfProgram
  }

  function Coordinate(p: Params, k: PositionKey): real {
    match k
    case StartX => p.startLinear.x
    case StartY => p.startLinear.y
    case StartZ => p.startLinear.z
    case ToolChangeX => p.toolChangeLinear.x
    case ToolChangeY => p.toolChangeLinear.y
    case ToolChangeZ => p.toolChangeLinear.z
  }

  /** `setattr(self, name, v)` for a numeric attribute: that attribute
      becomes `v` and nothing else changes. */
  function SetNumber(p: Params, k: NumberKey, v: real): (r: Params)
    ensures forall j :: Number(r, j) == if j == k then v else Number(p, j)
    ensures r.startLinear == p.startLinear && r.toolChangeLinear == p.toolChangeLinear
    ensures r.startRotation == p.startRotation && r.sIsAbsolute == p.sIsAbsolute
    ensures r.replaced == p.replaced
  {
    match k
    case FMax => p.(fMax := v)
    case SMax => p.(sMax := v)
    case MaxAX => p.(maxAX := v)
    case MaxAY => p.(maxAY := v)
    case MaxAZ => p.(maxAZ := v)
    case ToolChangeTime => p.(toolChangeTime := v)
    case Abort => p.(codes := p.codes.(abort := v))
    case Quit => p.(codes := p.codes.(quit := v))
    case ProgAbort => p.(codes := p.codes.(progAbort := v))
    case SpindleCw => p.(codes := p.codes.(spindleCw := v))
    case SpindleCcw => p.(codes := p.codes.(spindleCcw := v))
    case SpindleOff => p.(codes := p.codes.(spindleOff := v))
    case ToolChange => p.(codes := p.codes.(toolChange := v))
    case CoolingOn => p.(codes := p.codes.(coolingOn := v))
    case CoolingOff => p.(codes := p.codes.(coolingOff := v))
    case EndOfProgram => p.(codes := p.codes.(endOfProgram := v))
  }

  /** Setting one coordinate of a start or tool-change position changes
      that coordinate only. */
  function SetCoordinate(p: Params, k: PositionKey, v: real): (r: Params)
    ensures forall j :: Coordinate(r, j) == if j == k then v else Coordinate(p, j)
    ensures forall j :: Number(r, j) == Number(p, j)
    ensures r.startRotation == p.startRotation && r.sIsAbsolute == p.sIsAbsolute
    ensures r.replaced == p.replaced
  {
    match k
    case StartX => p.(startLinear := p.startLinear.(x := v))
    case StartY => p.(startLinear := p.startLinear.(y := v))
    case StartZ => p.(startLinear := p.startLinear.(z := v))
    case ToolChangeX => p.(toolChangeLinear := p.toolChangeLinear.(x := v))
    case ToolChangeY => p.(toolChangeLinear := p.toolChangeLinear.(y := v))
    case ToolChangeZ => p.(toolChangeLinear := p.toolChangeLinear.(z := v))
  }

  /** One (name, value) pair of the parameter file. A coordinate of a
      position object that an earlier line replaced by an integer cannot be
      set. */
  function ApplyPair(p: Params, t: Token): (r: Result<Params>)
    ensures r.Err? <==> ((Classify(t.name).NumberName? || Classify(t.name).AxesObjectName?)
                         && ParseInt(t.number).None?)
                        || (Classify(t.name).PositionName?
                            && (ObjectOf(Classify(t.name).pk) in p.replaced || ParseFloat(t.number).None?))
    ensures r.Ok? ==> r.value.replaced == if Classify(t.name).AxesObjectName?
                                          then p.replaced[Classify(t.name).ao := ParseInt(t.number).value]
                                          else p.replaced
    ensures r.Ok? ==> r.value.startLinear == p.startLinear || Classify(t.name).PositionName?
    ensures r.Ok? ==> r.value.toolChangeLinear == p.toolChangeLinear || Classify(t.name).PositionName?
    ensures r.Ok? ==> r.value.sIsAbsolute == (p.sIsAbsolute && !(Classify(t.name).SIsAbsoluteName? && t.number == "0"))
    ensures r.Ok? ==> r.value.startRotation == p.startRotation
    ensures r.Ok? ==> forall j :: Number(r.value, j) ==
                        (if Classify(t.name) == NumberName(j) then ParseInt(t.number).value as real else Number(p, j))
    ensures r.Ok? ==> forall j :: Coordinate(r.value, j) ==
                        (if Classify(t.name) == PositionName(j) then ParseFloat(t.number).value else Coordinate(p, j))
    ensures Classify(t.name).UnknownName? ==> r == Ok(p)
  {
    match Classify(t.name)
    case SIsAbsoluteName =>
      if t.number == "0" then Ok(p.(sIsAbsolute := false)) else Ok(p)
    case PositionName(k) =>
      if ObjectOf(k) in p.replaced then Err("'int' object has no attribute")
      else
        var v :- Need(ParseFloat(t.number), "could not convert string to float");
        Ok(SetCoordinate(p, k, v))
    case NumberName(k) =>
      var v :- Need(ParseInt(t.number), "invalid literal for int()");
      Ok(SetNumber(p, k, v as real))
    case AxesObjectName(o) =>
      var v :- Need(ParseInt(t.number), "invalid literal for int()");
      Ok(p.(replaced := p.replaced[o := v]))
    case UnknownName => Ok(p)
  }

  /** Naming a position object: a value int() refuses is an error; an
      integer replaces the object, and the object's coordinates can no
      longer be set. */
  lemma ReplacedObjectRefusesCoordinates()
    ensures ApplyPair(Defaults(), Token("START_POSITION_LINEAR_AXES", "1.5")).Err?
    ensures ApplyPair(Defaults(), Token("START_POSITION_LINEAR_AXES", "5")).Ok?
    ensures ApplyPair(ApplyPair(Defaults(), Token("START_POSITION_LINEAR_AXES", "5")).value,
                      Token("START_POSITION_X", "1")).Err?
  {
    assert !IsDigit("1.5"[1]);
    assert ParseInt("5") == Some(5) by { ParseFormatInt(5); assert FormatInt(5) == "5"; }
  }

  /** One line of the parameter file: only its first pair is used. */
  function ApplyLine(p: Params, line: string): (r: Result<Params>)
    ensures Extract(line).Err? ==> r.Err?
    ensures Extract(line) == Ok([]) ==> r == Ok(p)
    ensures Extract(line).Ok? && |Extract(line).value| > 0 ==> r == ApplyPair(p, Extract(line).value[0])
  {
    var pairs :- Extract(line);
    if |pairs| == 0 then Ok(p) else ApplyPair(p, pairs[0])
  }

  /** The parameter record after reading every line of the file in order. */
  function ApplyLines(p: Params, lines: seq<string>): (r: Result<Params>)
    ensures |lines| == 0 ==> r == Ok(p)
    ensures r.Ok? && !p.sIsAbsolute ==> !r.value.sIsAbsolute
    decreases |lines|
  {
    if |lines| == 0 then Ok(p)
    else
      var q :- ApplyLine(p, lines[0]);
      ApplyLines(q, lines[1..])
  }

  /** The constructor: the defaults updated by every parameter line. */
  function Load(lines: seq<string>): (r: Result<Params>)
    ensures |lines| == 0 ==> r == Ok(Defaults())
    ensures |lines| == 0 ==> r.Ok? && r.value.fMax == 20000.0 && r.value.sMax == 18000.0
                             && r.value.toolChangeTime == 8000.0 && r.value.sIsAbsolute
                             && r.value.startLinear == LinearAxes(100.0, 100.0, 100.0)
                             && r.value.toolChangeLinear == LinearAxes(100.0, 100.0, 100.0)
                             && r.value.codes == MCodes(0.0, 1.0, 2.0, 3.0, 4.0, 5.0, 6.0, 8.0, 9.0, 30.0)
                             && r.value.replaced == map[]
  {
    ApplyLines(Defaults(), lines)
  }

  /** Reading a file in two parts is reading the first part and then the
      second from where the first left off. */
  lemma {:induction false} ApplyLinesAppend(p: Params, a: seq<string>, b: seq<string>)
    ensures ApplyLines(p, a).Err? ==> ApplyLines(p, a + b).Err?
    ensures ApplyLines(p, a).Ok? ==> ApplyLines(p, a + b) == ApplyLines(ApplyLines(p, a).value, b)
    decreases |a|
  {
    if |a| > 0 {
      assert (a + b)[0] == a[0];
      assert (a + b)[1..] == a[1..] + b;
      var first := ApplyLine(p, a[0]);
      if first.Ok? {
        assert ApplyLines(p, a) == ApplyLines(first.value, a[1..]);
        assert ApplyLines(p, a + b) == ApplyLines(first.value, a[1..] + b);
        ApplyLinesAppend(first.value, a[1..], b);
      } else {
        assert ApplyLines(p, a + b).Err?;
      }
    } else {
      assert a + b == b;
    }
  }

  /** Lines without any pair (empty, comment-only or block-deleted lines)
      never change the parameters. */
  lemma {:induction false} BlankLinesChangeNothing(p: Params, lines: seq<string>)
    requires forall i :: 0 <= i < |lines| ==> Extract(lines[i]) == Ok([])
    ensures ApplyLines(p, lines) == Ok(p)
    decreases |lines|
  {
    if |lines| > 0 {
      assert Extract(lines[0]) == Ok([]);
      BlankLinesChangeNothing(p, lines[1..]);
    }
  }
}

=== FILE: cncstatus.dfy ===
/** The modal machine state carried from one G-code line to the next
    (gcanalyser/cncstatus.py). */
module CncStatus {
  import opened Axes
  import opened CncParameter

  datatype Status = Status(
    movementType: int,         // 0 rapid linear, 1 linear, 2 arc CW, 3 arc CCW
    activeTool: int,
    position: LinearAxes,
    rotation: RotationAxes,
    arc: ArcInformation,
    plane: int,                // 17 XY, 18 XZ, 19 YZ
    absolutePosition: bool,
    absoluteArcCenter: bool,
    cutterCompensation: real,  // 40, 41, 41.1, 42 or 42.1
    fValue: real,
    sValue: real,
    feedRate: real,            // mm/ms
    spindleSpeed: real,
    spindleDirection: string,  // "CW" or "CCW"
    spindleOn: bool,
    coolingOn: bool,
    exactStop: bool,
    g61Active: bool,
    programEndReached: bool)

  /** The power-on state; with `startPosition` the axes sit at the
      parameter start position instead of the origin. */
  function NewStatus(startPosition: bool, p: Params): (s: Status)
    ensures s.movementType == 0 && s.activeTool == 0 && s.plane == 17
    ensures s.absolutePosition && !s.absoluteArcCenter && s.cutterCompensation == 40.0
    ensures !s.spindleOn && s.spindleDirection == "CW" && !s.coolingOn
    ensures !s.exactStop && !s.g61Active && !s.programEndReached
    ensures s.fValue == 0.0 && s.sValue == 0.0 && s.feedRate == 0.0 && s.spindleSpeed == 0.0
    ensures s.arc == ArcInformation(2, 0.0, 0.0, 0.0, 0.0)
    ensures startPosition ==> s.position == p.startLinear && s.rotation == p.startRotation
    ensures !startPosition ==> s.position == Origin && s.rotation == NoRotation
  {
    Status(
      0, 0,
      if startPosition then p.startLinear else Origin,
      if startPosition then p.startRotation else NoRotation,
      ArcInformation(2, 0.0, 0.0, 0.0, 0.0),
      17, true, false, 40.0,
      0.0, 0.0, 0.0, 0.0, "CW", false, false,
      false, false, false)
  }

  /** copy_CNC_Status: the status a new line starts from. Exact stop is a
      one-line setting, so it is re-derived from the modal G61 flag. */
  function CopyForNextLine(s: Status): (r: Status)
    ensures r.exactStop == r.g61Active
    ensures r.(exactStop := s.exactStop) == s
    ensures r == s <==> s.exactStop == s.g61Active  // so copying a copy changes nothing
  {
    s.(exactStop := s.g61Active)
  }
}

=== FILE: cooling.dfy ===
/** The cooling segments of a program (gcanalyser/coolingmanager.py):
    records [start line, end line, cooling on], the last one open. */
module CoolingManager {
  /** A record; `on` is 1 or 0, as the boolean is stored in an integer
      array. */
  datatype Record = Record(start: int, end: int, on: int)

  function New(): (r: seq<Record>)
    ensures r == [Record(0, 0, 0)]
  {
    [Record(0, 0, 0)]
  }

  function Flag(operation: string): (b: int)
    ensures b == 1 <==> operation == "on"
    ensures b == 0 <==> operation != "on"
  {
    if operation == "on" then 1 else 0
  }

  /** new_cooling_operation as written: on a change the previous record's
      flag slot, not its end slot, receives `index − 1`. */
  function NewOperationAsWritten(rs: seq<Record>, index: int, operation: string): (r: seq<Record>)
    requires |rs| > 0
    ensures rs[|rs| - 1].on == Flag(operation) ==> r == rs
    ensures rs[|rs| - 1].on != Flag(operation) ==>
              |r| == |rs| + 1 && r[..|rs| - 1] == rs[..|rs| - 1]
              && r[|rs| - 1] == rs[|rs| - 1].(on := index - 1)
              && r[|rs|] == Record(index, index, Flag(operation))
  {
    var on := Flag(operation);
    var last := rs[|rs| - 1];
    if last.on == on then rs
    else rs[..|rs| - 1] + [last.(on := index - 1), Record(index, index, on)]
  }

  /** Switching cooling on in line 5: the first record becomes [0, 0, 4]:
      it loses its flag and its end is never set. */
  lemma AsWrittenLosesFlag()
    ensures NewOperationAsWritten(New(), 5, "on") == [Record(0, 0, 4), Record(5, 5, 1)]
  {
  }

  /** new_cooling_operation: "on" switches cooling on, anything else off; a
      change closes the open record at `index − 1` and opens one at `index`,
      no change leaves the records as they are. */
  function NewOperation(rs: seq<Record>, index: int, operation: string): (r: seq<Record>)
    requires |rs| > 0
    ensures rs[|rs| - 1].on == Flag(operation) ==> r == rs
    ensures rs[|rs| - 1].on != Flag(operation) ==>
              |r| == |rs| + 1 && r[..|rs| - 1] == rs[..|rs| - 1]
              && r[|rs| - 1] == rs[|rs| - 1].(end := index - 1)
              && r[|rs|] == Record(index, index, Flag(operation))
  {
    var on := Flag(operation);
    var last := rs[|rs| - 1];
    if last.on == on then rs
    else rs[..|rs| - 1] + [last.(end := index - 1), Record(index, index, on)]
  }

  /** The records are well formed: flags are 0 or 1, consecutive records
      have different flags, and every closed record ends on the line before
      the next one starts. */
  predicate WellFormed(rs: seq<Record>) {
    |rs| > 0
    && (forall k :: 0 <= k < |rs| ==> rs[k].on == 0 || rs[k].on == 1)
    && (forall k :: 0 < k < |rs| ==> rs[k].on != rs[k - 1].on && rs[k - 1].end == rs[k].start - 1)
  }

  lemma NewIsWellFormed()
    ensures WellFormed(New())
  {
  }

  /** Every operation keeps the records well formed. */
  lemma NewOperationKeepsWellFormed(rs: seq<Record>, index: int, operation: string)
    requires WellFormed(rs)
    ensures WellFormed(NewOperation(rs, index, operation))
  {
    var r := NewOperation(rs, index, operation);
    if rs[|rs| - 1].on != Flag(operation) {
      forall k | 0 < k < |r|
        ensures r[k].on != r[k - 1].on && r[k - 1].end == r[k].start - 1
      {
        if k < |rs| - 1 {
          assert r[k] == rs[k] && r[k - 1] == rs[k - 1];
        } else if k == |rs| - 1 {
          assert r[k - 1] == rs[k - 1];
        }
      }
    }
  }

  /** The records as written are not well formed after one change. */
  lemma AsWrittenBreaksWellFormed()
    ensures WellFormed(New()) && !WellFormed(NewOperationAsWritten(New(), 5, "on"))
  {
    AsWrittenLosesFlag();
    var r := NewOperationAsWritten(New(), 5, "on");
    assert !(r[0].on == 0 || r[0].on == 1);
  }
}

=== FILE: frequencymanager.dfy ===
/** The early spindle-frequency bookkeeping (gcanalyser/frequencymanager.py):
    records [start line, end line, duration, frequency, spindle status],
    the last one open. Spindle status 0 is off, 3 clockwise, 4
    counter-clockwise. */
module FrequencyManager {
  import opened Wrappers
  import opened PyNum

  datatype Record = Record(start: int, end: int, duration: int, frequency: int, status: int)

  datatype Manager = Manager(lastStatus: int, f: int, index: int, records: seq<Record>)

  /** The open record always carries the spindle's current frequency: 0
      while the spindle is off, `f` while it turns. */
  predicate Valid(m: Manager) {
    |m.records| > 0
    && m.records[|m.records| - 1].status == m.lastStatus
    && m.records[|m.records| - 1].frequency == (if m.lastStatus == 0 then 0 else m.f)
  }

  /** The initial state: spindle off, 50 Hz, one empty record. */
  function New(): (m: Manager)
    ensures Valid(m)
    ensures m.lastStatus == 0 && m.f == 50 && m.index == 0 && m.records == [Record(0, 0, 0, 0, 0)]
  {
    Manager(0, 50, 0, [Record(0, 0, 0, 0, 0)])
  }

  /** The frequency in Hz of a spindle speed in rpm, truncated. */
  function Hz(s: real): (f: int)
    ensures s >= 0.0 ==> 0 <= f && f as real * 60.0 <= s < f as real * 60.0 + 60.0
  {
    Trunc(s / 60.0)
  }

  /** new_S: with the spindle turning and a new frequency, a new line
      closes the open record at `index − 1` and opens one at `index`, while
      the same line only overwrites the open record's frequency. The
      frequency and line are remembered in every case. */
  function NewS(m: Manager, index: int, s: real): (r: Manager)
    requires Valid(m)
    ensures Valid(r)
    ensures r.f == Hz(s) && r.index == index && r.lastStatus == m.lastStatus
    ensures m.lastStatus == 0 || Hz(s) == m.f ==> r.records == m.records
    ensures m.lastStatus != 0 && Hz(s) != m.f && m.index != index ==>
              var n := |m.records|;
              r.records == m.records[..n - 1] + [m.records[n - 1].(end := index - 1),
                                                 Record(index, index, 0, Hz(s), m.lastStatus)]
    ensures m.lastStatus != 0 && Hz(s) != m.f && m.index == index ==>
              var n := |m.records|;
              r.records == m.records[..n - 1] + [m.records[n - 1].(frequency := Hz(s))]
  {
    var f := Hz(s);
    var n := |m.records|;
    var records :=
      if m.lastStatus != 0 && f != m.f then
        if m.index != index then
          m.records[..n - 1] + [m.records[n - 1].(end := index - 1), Record(index, index, 0, f, m.lastStatus)]
        else m.records[..n - 1] + [m.records[n - 1].(frequency := f)]
      else m.records;
    m.(records := records, f := f, index := index)
  }

  /** The status a spindle command stands for; any other command leaves
      the status unbound, which fails. */
  function StatusOf(command: string): (r: Result<int>)
    ensures r.Ok? <==> command in {"off", "CW", "CCW"}
    ensures r.Ok? ==> (r.value == 0 <==> command == "off") && (r.value == 3 <==> command == "CW")
                      && (r.value == 4 <==> command == "CCW")
  {
    match command
    case "off" => Ok(0)
    case "CW" => Ok(3)
    case "CCW" => Ok(4)
    case _ => Err("local variable 'new_spindle_status' referenced before assignment")
  }

  /** new_Spindle_Operation: an unchanged status changes nothing; otherwise
      the open record is closed at `index − 1` and a record with frequency 0
      (off) or `f` (on, or turning the other way) is opened. */
  function NewSpindleOperation(m: Manager, index: int, command: string): (r: Result<Manager>)
    requires Valid(m)
    ensures r.Err? <==> StatusOf(command).Err?
    ensures r.Ok? ==> Valid(r.value) && r.value.f == m.f
    ensures r.Ok? && StatusOf(command).value == m.lastStatus ==> r.value == m
    ensures r.Ok? && StatusOf(command).value != m.lastStatus ==>
              var n := |m.records|; var s := StatusOf(command).value;
              r.value.lastStatus == s && r.value.index == index
              && r.value.records == m.records[..n - 1]
                                    + [m.records[n - 1].(end := index - 1),
                                       Record(index, index, 0, if s == 0 then 0 else m.f, s)]
  {
    var s :- StatusOf(command);
    if m.lastStatus == s then Ok(m)
    else
      var n := |m.records|;
      var next := if s == 0 then Record(index, index, 0, 0, s)
                    else if m.lastStatus == 0 then Record(index, index, 0, m.f, s)
                    else Record(index, index, 0, m.f, s);
      Ok(m.(records := m.records[..n - 1] + [m.records[n - 1].(end := index - 1), next],
            lastStatus := s, index := index))
  }
}

=== FILE: gcodeline.dfy ===
/** The interpreter of one G-code line (gcanalyser/gcodeline.py). It turns
    the status left by the previous line and the text of this line into the
    status after it. Instead of calling the synchronisation and movement
    managers, it emits the calls it would make, in order, as events. */
module GCodeLine {
  import opened Wrappers
  import opened PyNum
  import opened Axes
  import opened LineExtractor
  import opened CncParameter
  import opened CncStatus

  /** One call into the synchronisation manager (Sync…) or the movement
      manager (Move…). `last` and `cur` are the line's status before the
      line and at the moment of the call. */
  datatype Event =
    | SyncNewS(line: int, s: real)
    | SyncSpindle(line: int, command: string)
    | SyncDwell(line: int, time: real)
    | SyncPause(line: int, kind: int)
    | SyncNewTool(line: int)
    | SyncCooling(line: int, command: string)
    | MoveLinear(line: int, last: Status, cur: Status)
    | MoveArc(line: int, last: Status, cur: Status)
    | MovePause(line: int, time: real)
    | MoveToolChange(line: int)
    | MoveEndOfProgram(line: int)

  /** What stays fixed while one line is interpreted. */
  datatype Ctx = Ctx(line: int, params: Params, last: Status)

  /** The current-line status and the calls made so far. */
  datatype LineState = LineState(cur: Status, events: seq<Event>)

  /** `b` keeps every call already in `a` and adds only calls for this line. */
  predicate Appends(ctx: Ctx, a: LineState, b: LineState) {
    |a.events| <= |b.events| && b.events[..|a.events|] == a.events
    && forall k :: |a.events| <= k < |b.events| ==> b.events[k].line == ctx.line
  }

  lemma AppendsTrans(ctx: Ctx, a: LineState, b: LineState, c: LineState)
    requires Appends(ctx, a, b) && Appends(ctx, b, c)
    ensures Appends(ctx, a, c)
  {
    assert c.events[..|a.events|] == c.events[..|b.events|][..|a.events|];
    forall k | |a.events| <= k < |c.events|
      ensures c.events[k].line == ctx.line
    {
      if k < |b.events| { assert c.events[k] == b.events[k]; }
    }
  }

  const LinearWords: set<string> := {"X", "Y", "Z", "A", "B", "C"}
  const ArcWords: set<string> := LinearWords + {"I", "J", "K", "R"}

  /** The tokens whose name is not in `names`, in their original order. */
  function Drop(ts: seq<Token>, names: set<string>): (r: seq<Token>)
    ensures |r| <= |ts|
    ensures forall k :: 0 <= k < |r| ==> r[k].name !in names
    ensures forall k :: 0 <= k < |ts| && ts[k].name !in names ==> ts[k] in r
    ensures forall t :: t in r ==> t in ts
    ensures |ts| > 0 && ts[0].name in names ==> |r| < |ts|
  {
    if |ts| == 0 then []
    else (if ts[0].name in names then [] else [ts[0]]) + Drop(ts[1..], names)
  }

  // ---------------------------------------------------------------- F and S

  /** handle_F: a negative feed is an error, a feed above F_MAX is capped. */
  function HandleF(ctx: Ctx, st: LineState, f: real): (r: Result<LineState>)
    ensures r.Err? <==> f < 0.0
    ensures r.Ok? ==> r.value == st.(cur := st.cur.(fValue := r.value.cur.fValue))
    ensures r.Ok? ==> var v := r.value.cur.fValue;
                      v <= f && v <= ctx.params.fMax && (v == f || v == ctx.params.fMax)
  {
    if f < 0.0 then Err("Number for F value must be nonnegative.")
    else if f <= ctx.params.fMax then Ok(st.(cur := st.cur.(fValue := f)))
    else Ok(st.(cur := st.cur.(fValue := ctx.params.fMax)))
  }

  /** handle_S: a negative S is an error; an absolute S is capped at S_MAX;
      a relative S is a percentage of S_MAX and must not exceed 100. The
      new value is reported to the synchronisation manager. */
  function HandleS(ctx: Ctx, st: LineState, s: real): (r: Result<LineState>)
    ensures r.Err? <==> s < 0.0 || (!ctx.params.sIsAbsolute && s > 100.0)
    ensures r.Ok? ==> var v := r.value.cur.sValue;
                      r.value == LineState(st.cur.(sValue := v), st.events + [SyncNewS(ctx.line, v)])
    ensures r.Ok? && ctx.params.sIsAbsolute ==> var v := r.value.cur.sValue;
                      v <= s && v <= ctx.params.sMax && (v == s || v == ctx.params.sMax)
    ensures r.Ok? && !ctx.params.sIsAbsolute ==> r.value.cur.sValue * 100.0 == ctx.params.sMax * s
    ensures r.Ok? && ctx.params.sMax >= 0.0 ==> 0.0 <= r.value.cur.sValue <= ctx.params.sMax
  {
    var sMax := ctx.params.sMax;
    if s < 0.0 then Err("Number for S value must be nonnegative.")
    else if !ctx.params.sIsAbsolute && s > 100.0 then Err("Relative S value > 100")
    else
      var v := if ctx.params.sIsAbsolute then (if s <= sMax then s else sMax)
               else sMax * s / 100.0;
      assert !ctx.params.sIsAbsolute && sMax >= 0.0 ==> 0.0 <= v <= sMax by {
        if !ctx.params.sIsAbsolute && sMax >= 0.0 { PercentBounds(sMax, s); }
      }
      Ok(LineState(st.cur.(sValue := v), st.events + [SyncNewS(ctx.line, v)]))
  }

  /** A percentage of at most 100 of a non-negative maximum lies between
      0 and that maximum. */
  lemma PercentBounds(m: real, p: real)
    requires m >= 0.0 && 0.0 <= p <= 100.0
    ensures 0.0 <= m * p / 100.0 <= m
  {
    assert m * p <= m * 100.0;
  }

  // ---------------------------------------------------------------- axes

  /** The position of one of the six axes X, Y, Z, A, B, C. */
  function Axis(s: Status, name: string): real
    requires name in LinearWords
  {
    match name
    case "X" => s.position.x
    case "Y" => s.position.y
    case "Z" => s.position.z
    case "A" => s.rotation.a
    case "B" => s.rotation.b
    case _ => s.rotation.c
  }

  /** One axis word: in absolute mode the axis moves to `v`, in relative
      mode by `v`; every other axis and every other field stays. */
  function SetAxis(s: Status, name: string, v: real): (r: Status)
    requires name in LinearWords
    ensures Axis(r, name) == if s.absolutePosition then v else Axis(s, name) + v
    ensures forall a :: a in LinearWords && a != name ==> Axis(r, a) == Axis(s, a)
    ensures r == s.(position := r.position, rotation := r.rotation)
  {
    var w := if s.absolutePosition then v else Axis(s, name) + v;
    match name
    case "X" => s.(position := s.position.(x := w))
    case "Y" => s.(position := s.position.(y := w))
    case "Z" => s.(position := s.position.(z := w))
    case "A" => s.(rotation := s.rotation.(a := w))
    case "B" => s.(rotation := s.rotation.(b := w))
    case _ => s.(rotation := s.rotation.(c := w))
  }

  /** The number held by the last token called `name`; None if there is
      no such token. */
  function LastNumber(ts: seq<Token>, name: string): Option<real> {
    if |ts| == 0 then None
    else
      var tail := LastNumber(ts[1..], name);
      if tail.Some? then tail else if ts[0].name == name then ParseFloat(ts[0].number) else None
  }

  /** The sum of the values of all tokens called `name`; None if one of
      them is not a number. */
  function SumValues(ts: seq<Token>, name: string): Option<real> {
    if |ts| == 0 then Some(0.0)
    else
      var tail := SumValues(ts[1..], name);
      if ts[0].name != name then tail
      else if ParseFloat(ts[0].number).None? || tail.None? then None
      else Some(ParseFloat(ts[0].number).value + tail.value)
  }

  /** True when some token named in `names` does not hold a number. */
  predicate SomeBadNumber(ts: seq<Token>, names: set<string>) {
    exists k :: 0 <= k < |ts| && ts[k].name in names && ParseFloat(ts[k].number).None?
  }

  /** The consuming loop of handle_linear_movement: every X, Y, Z, A, B, C
      word is removed and applied; the other tokens stay, in order. */
  function LinearConsume(s: Status, ts: seq<Token>): (r: Result<(Status, seq<Token>)>)
    ensures r.Err? <==> SomeBadNumber(ts, LinearWords)
    ensures r.Ok? ==> r.value.1 == Drop(ts, LinearWords)
    ensures r.Ok? ==> r.value.0 == s.(position := r.value.0.position, rotation := r.value.0.rotation)
    decreases |ts|
  {
    if |ts| == 0 then Ok((s, []))
    else if ts[0].name in LinearWords then
      var v := ParseFloat(ts[0].number);
      if v.None? then Err("could not convert string to float")
      else
        BadNumberTail(ts, LinearWords);
        LinearConsume(SetAxis(s, ts[0].name, v.value), ts[1..])
    else
      var rest := LinearConsume(s, ts[1..]);
      BadNumberTail(ts, LinearWords);
      if rest.Err? then Err(rest.msg) else Ok((rest.value.0, [ts[0]] + rest.value.1))
  }

  /** A head token outside `names`, or holding a number, does not affect
      SomeBadNumber. */
  lemma BadNumberTail(ts: seq<Token>, names: set<string>)
    requires |ts| > 0 && (ts[0].name !in names || ParseFloat(ts[0].number).Some?)
    ensures SomeBadNumber(ts, names) <==> SomeBadNumber(ts[1..], names)
  {
    if SomeBadNumber(ts, names) {
      var k :| 0 <= k < |ts| && ts[k].name in names && ParseFloat(ts[k].number).None?;
      assert ts[1..][k - 1] == ts[k];
    }
    if SomeBadNumber(ts[1..], names) {
      var k :| 0 <= k < |ts[1..]| && ts[1..][k].name in names && ParseFloat(ts[1..][k].number).None?;
      assert ts[k + 1] == ts[1..][k];
    }
  }

  /** In absolute mode each axis ends at the value of its last word in the
      line, or stays where it was when the line has no word for it. */
  lemma {:induction false} LinearAbsolute(s: Status, ts: seq<Token>, a: string)
    requires s.absolutePosition && a in LinearWords
    requires LinearConsume(s, ts).Ok?
    ensures Axis(LinearConsume(s, ts).value.0, a) ==
            if LastNumber(ts, a).Some? then LastNumber(ts, a).value else Axis(s, a)
    decreases |ts|
  {
    if |ts| > 0 {
      if ts[0].name in LinearWords {
        var v := ParseFloat(ts[0].number).value;
        LinearAbsolute(SetAxis(s, ts[0].name, v), ts[1..], a);
      } else {
        LinearAbsolute(s, ts[1..], a);
      }
    }
  }

  /** In relative mode each axis moves by the sum of its words in the line. */
  lemma {:induction false} LinearRelative(s: Status, ts: seq<Token>, a: string)
    requires !s.absolutePosition && a in LinearWords
    requires LinearConsume(s, ts).Ok?
    ensures SumValues(ts, a).Some?
    ensures Axis(LinearConsume(s, ts).value.0, a) == Axis(s, a) + SumValues(ts, a).value
    decreases |ts|
  {
    if |ts| > 0 {
      if ts[0].name in LinearWords {
        var v := ParseFloat(ts[0].number).value;
        LinearRelative(SetAxis(s, ts[0].name, v), ts[1..], a);
      } else {
        LinearRelative(s, ts[1..], a);
      }
    }
  }

  /** The words handle_arc_movement evaluates in a plane: the axes, R, and
      the centre offsets that lie in the plane (I unless YZ, J unless XZ,
      K unless XY). */
  function AppliedArcWords(plane: int): (w: set<string>)
    ensures LinearWords <= w <= ArcWords && "R" in w
  {
    LinearWords + {"R"}
      + (if plane != 19 then {"I"} else {})
      + (if plane != 18 then {"J"} else {})
      + (if plane != 17 then {"K"} else {})
  }

  /** One evaluated arc word: an axis, a centre offset (absolute or added,
      by the arc-centre mode) or the radius. */
  function SetArcWord(s: Status, name: string, v: real): (r: Status)
    requires name in AppliedArcWords(s.plane)
    ensures r == s.(position := r.position, rotation := r.rotation, arc := r.arc)
    ensures r.arc.direction == s.arc.direction
  {
    if name in LinearWords then SetAxis(s, name, v)
    else if name == "I" then s.(arc := s.arc.(i := if s.absoluteArcCenter then v else s.arc.i + v))
    else if name == "J" then s.(arc := s.arc.(j := if s.absoluteArcCenter then v else s.arc.j + v))
    else if name == "K" then s.(arc := s.arc.(k := if s.absoluteArcCenter then v else s.arc.k + v))
    else s.(arc := s.arc.(radius := v))
  }

  /** The consuming loop of handle_arc_movement: every X…C, I, J, K and R
      word is removed; the words of the plane are evaluated, and whether an
      R word was seen is reported. */
  function ArcConsume(s: Status, ts: seq<Token>): (r: Result<(Status, seq<Token>, bool)>)
    ensures r.Err? <==> SomeBadNumber(ts, AppliedArcWords(s.plane))
    ensures r.Ok? ==> r.value.1 == Drop(ts, ArcWords)
    ensures r.Ok? ==> (r.value.2 <==> exists k :: 0 <= k < |ts| && ts[k].name == "R")
    ensures r.Ok? ==> r.value.0 == s.(position := r.value.0.position, rotation := r.value.0.rotation,
                                      arc := r.value.0.arc)
    ensures r.Ok? ==> r.value.0.arc.direction == s.arc.direction
    decreases |ts|
  {
    if |ts| == 0 then Ok((s, [], false))
    else if ts[0].name in ArcWords then
      var name := ts[0].name;
      if name in AppliedArcWords(s.plane) then
        var v := ParseFloat(ts[0].number);
        if v.None? then Err("could not convert string to float")
        else
          BadNumberTail(ts, AppliedArcWords(s.plane));
          var rest := ArcConsume(SetArcWord(s, name, v.value), ts[1..]);
          if rest.Err? then Err(rest.msg)
          else
            RFound(ts);
            Ok((rest.value.0, rest.value.1, rest.value.2 || name == "R"))
      else
        BadNumberTail(ts, AppliedArcWords(s.plane));
        var rest := ArcConsume(s, ts[1..]);
        if rest.Err? then Err(rest.msg)
        else
          RFound(ts);
          Ok(rest.value)
    else
      BadNumberTail(ts, AppliedArcWords(s.plane));
      var rest := ArcConsume(s, ts[1..]);
      if rest.Err? then Err(rest.msg)
      else
        RFound(ts);
        Ok((rest.value.0, [ts[0]] + rest.value.1, rest.value.2))
  }

  lemma RFound(ts: seq<Token>)
    requires |ts| > 0
    ensures (exists k :: 0 <= k < |ts| && ts[k].name == "R")
            <==> ts[0].name == "R" || exists k :: 0 <= k < |ts[1..]| && ts[1..][k].name == "R"
  {
    if exists k :: 0 <= k < |ts| && ts[k].name == "R" {
      var k :| 0 <= k < |ts| && ts[k].name == "R";
      if k > 0 { assert ts[1..][k - 1] == ts[k]; }
    }
    if exists k :: 0 <= k < |ts[1..]| && ts[1..][k].name == "R" {
      var k :| 0 <= k < |ts[1..]| && ts[1..][k].name == "R";
      assert ts[k + 1] == ts[1..][k];
    }
  }

  // ---------------------------------------------------------------- movements

  /** handle_linear_movement: consumes the axis words, then reports exactly
      one linear movement from the last-line status to the current one. */
  function LinearMovement(ctx: Ctx, st: LineState, ts: seq<Token>): (r: Result<(LineState, seq<Token>)>)
    ensures r.Err? <==> SomeBadNumber(ts, LinearWords)
    ensures r.Ok? ==> r.value.1 == Drop(ts, LinearWords)
    ensures r.Ok? ==> var cur := r.value.0.cur;
                      cur == st.cur.(position := cur.position, rotation := cur.rotation)
                      && r.value.0.events == st.events + [MoveLinear(ctx.line, ctx.last, cur)]
    ensures r.Ok? ==> Appends(ctx, st, r.value.0)
  {
    var c := LinearConsume(st.cur, ts);
    if c.Err? then Err(c.msg)
    else Ok((LineState(c.value.0, st.events + [MoveLinear(ctx.line, ctx.last, c.value.0)]), c.value.1))
  }

  /** handle_arc_movement: only the XY plane is supported; there the centre
      offsets start from the current X and Y, the arc words are consumed and
      exactly one arc movement is reported. With an R word the source goes on
      to compute_arc_center, which ends by calling a method ArcInformation
      does not have (gcodeline.py:878), so every arc given by its radius
      fails. The radius computed from a given centre is not modelled. */
  function ArcMovement(ctx: Ctx, st: LineState, ts: seq<Token>): (r: Result<(LineState, seq<Token>)>)
    ensures r.Err? <==> st.cur.plane == 18 || st.cur.plane == 19
                        || SomeBadNumber(ts, AppliedArcWords(st.cur.plane))
                        || exists k :: 0 <= k < |ts| && ts[k].name == "R"
    ensures r.Ok? ==> r.value.1 == Drop(ts, ArcWords)
    ensures r.Ok? ==> var cur := r.value.0.cur;
                      cur == st.cur.(position := cur.position, rotation := cur.rotation, arc := cur.arc)
                      && cur.arc.direction == st.cur.arc.direction
                      && r.value.0.events == st.events + [MoveArc(ctx.line, ctx.last, cur)]
    ensures r.Ok? ==> Appends(ctx, st, r.value.0)
  {
    var s := st.cur;
    if s.plane == 18 then Err("G02 and G03 are not available in plane 18")
    else if s.plane == 19 then Err("G02 and G03 are not available in plane 19")
    else
      var s1 := if s.plane == 17 then s.(arc := s.arc.(i := s.position.x, j := s.position.y)) else s;
      var c := ArcConsume(s1, ts);
      if c.Err? then Err(c.msg)
      else
        var (cur, rest, radiusGiven) := c.value;
        if radiusGiven then Err("'ArcInformation' object has no attribute 'set_arc_center_with_array'")
        else Ok((LineState(cur, st.events + [MoveArc(ctx.line, ctx.last, cur)]), rest))
  }

  // ---------------------------------------------------------------- auxiliary commands

  /** handle_g04: the first P word gives the dwell in seconds; it is
      removed and a dwell of 1000·P ms is reported to both managers. A
      G04 without P is an error. */
  function Dwell(ctx: Ctx, st: LineState, ts: seq<Token>): (r: Result<(LineState, seq<Token>)>)
    ensures r.Err? <==> FirstIndex(ts, "P").None? || ParseFloat(ts[FirstIndex(ts, "P").value].number).None?
    ensures r.Ok? ==> var i := FirstIndex(ts, "P").value;
                      var d := 1000.0 * ParseFloat(ts[i].number).value;
                      r.value == (st.(events := st.events + [SyncDwell(ctx.line, d), MovePause(ctx.line, d)]),
                                  RemoveAt(ts, i))
  {
    var i :- Need(FirstIndex(ts, "P"), "No P value found in combination with a G04");
    var p :- Need(ParseFloat(ts[i].number), "could not convert string to float");
    var d := 1000.0 * p;
    Ok((st.(events := st.events + [SyncDwell(ctx.line, d), MovePause(ctx.line, d)]), RemoveAt(ts, i)))
  }

  /** What the tool-change search does to the part of the line it has not
      looked at yet, described on that part alone: a T word is seen and
      dropped, the word right after it is stepped over and kept, and every
      other word is kept. Returns the words left and the T words seen. */
  function TScan(u: seq<Token>): (r: (seq<Token>, seq<Token>))
    ensures |r.0| + |r.1| == |u|
    ensures |r.1| == 0 <==> forall k :: 0 <= k < |u| ==> u[k].name != "T"
    decreases |u|
  {
    if |u| == 0 then ([], [])
    else if u[0].name == "T" then
      if |u| == 1 then ([], [u[0]])
      else
        var (kept, seen) := TScan(u[2..]);
        ([u[1]] + kept, [u[0]] + seen)
    else
      var (kept, seen) := TScan(u[1..]);
      assert forall k :: 1 <= k < |u| ==> u[k] == u[1..][k - 1];
      ([u[0]] + kept, seen)
  }

  /** Some T word the search sees has a number int() refuses. */
  predicate SomeBadTool(seen: seq<Token>) {
    exists k :: 0 <= k < |seen| && ParseInt(seen[k].number).None?
  }

  lemma SomeBadToolCons(t: Token, seen: seq<Token>)
    ensures SomeBadTool([t] + seen) <==> ParseInt(t.number).None? || SomeBadTool(seen)
  {
    assert ([t] + seen)[0] == t;
    if SomeBadTool(seen) {
      var k :| 0 <= k < |seen| && ParseInt(seen[k].number).None?;
      assert ([t] + seen)[k + 1] == seen[k];
    }
    if SomeBadTool([t] + seen) {
      var k :| 0 <= k < |seen| + 1 && ParseInt(([t] + seen)[k].number).None?;
      assert k == 0 || ([t] + seen)[k] == seen[k - 1];
    }
  }

  /** The search loop of handle_tool_change. It pops each T word while
      enumerating the list, so the token after a popped T is never looked
      at; the last T word visited gives the tool number. */
  function ToolScan(ts: seq<Token>, i: nat, found: Option<int>): (r: Result<(seq<Token>, Option<int>)>)
    requires i <= |ts|
    ensures var (kept, seen) := TScan(ts[i..]);
            (r.Err? <==> SomeBadTool(seen))
            && (r.Ok? ==> r.value.0 == ts[..i] + kept
                          && r.value.1 == if |seen| == 0 then found else ParseInt(seen[|seen| - 1].number))
    decreases |ts| - i
  {
    if i == |ts| then
      assert ts[..i] == ts;
      Ok((ts, found))
    else if ts[i].name == "T" then
      ToolScanPop(ts, i);
      if ParseInt(ts[i].number).None? then Err("invalid literal for int()")
      else
        var rest := RemoveAt(ts, i);
        if i + 1 > |rest| then Ok((rest, ParseInt(ts[i].number)))
        else ToolScan(rest, i + 1, ParseInt(ts[i].number))
    else
      ToolScanStep(ts, i);
      ToolScan(ts, i + 1, found)
  }

  /** Popping the T word at `i` and resuming at `i + 1` resumes the scan
      two words further on in the original line. */
  lemma ToolScanPop(ts: seq<Token>, i: nat)
    requires i < |ts| && ts[i].name == "T"
    ensures var u, rest := ts[i..], RemoveAt(ts, i);
            SomeBadTool(TScan(u).1) <==> ParseInt(ts[i].number).None? || (i + 1 <= |rest| && SomeBadTool(TScan(rest[i + 1..]).1))
    ensures var u, rest := ts[i..], RemoveAt(ts, i);
            i + 1 > |rest| ==> rest == ts[..i] + TScan(u).0 && TScan(u).1 == [ts[i]]
    ensures var u, rest := ts[i..], RemoveAt(ts, i);
            i + 1 <= |rest| ==> rest[..i + 1] + TScan(rest[i + 1..]).0 == ts[..i] + TScan(u).0
                                && TScan(u).1 == [ts[i]] + TScan(rest[i + 1..]).1
  {
    var u, rest := ts[i..], RemoveAt(ts, i);
    assert u[0] == ts[i];
    if i + 1 > |rest| {
      assert u == [ts[i]];
      assert rest == ts[..i];
      SomeBadToolCons(ts[i], []);
    } else {
      assert rest[i + 1..] == u[2..];
      assert rest[..i + 1] == ts[..i] + [u[1]];
      SomeBadToolCons(ts[i], TScan(u[2..]).1);
    }
  }

  /** Stepping over a word that is not T. */
  lemma ToolScanStep(ts: seq<Token>, i: nat)
    requires i < |ts| && ts[i].name != "T"
    ensures TScan(ts[i..]).1 == TScan(ts[i + 1..]).1
    ensures ts[..i] + TScan(ts[i..]).0 == ts[..i + 1] + TScan(ts[i + 1..]).0
  {
    assert ts[i..][1..] == ts[i + 1..];
    assert ts[..i + 1] == ts[..i] + [ts[i]];
  }

  /** Two T words in a row: the second is skipped by the scan, stays in
      the line, and the first gives the tool. */
  lemma ToolScanSkipsNext()
    ensures ToolScan([Token("T", "1"), Token("T", "2")], 0, None) == Ok(([Token("T", "2")], Some(1)))
  {
    var ts := [Token("T", "1"), Token("T", "2")];
    assert ParseInt("1") == Some(1) by { ParseFormatInt(1); assert FormatInt(1) == "1"; }
    assert RemoveAt(ts, 0) == [Token("T", "2")];
  }

  /** handle_tool_change: a tool change needs a T word; the tool becomes
      active, both managers are told, and the axes move to the tool-change
      position. */
  function ToolChange(ctx: Ctx, st: LineState, ts: seq<Token>): (r: Result<(LineState, seq<Token>)>)
    ensures (forall k :: 0 <= k < |ts| ==> ts[k].name != "T") ==> r.Err?
    ensures var (kept, seen) := TScan(ts);
            (r.Err? <==> |seen| == 0 || SomeBadTool(seen))
            && (r.Ok? ==> r.value.1 == kept
                          && Some(r.value.0.cur.activeTool) == ParseInt(seen[|seen| - 1].number))
    ensures r.Ok? ==> |r.value.1| < |ts|
    ensures r.Ok? ==> var cur := r.value.0.cur;
                      cur == st.cur.(activeTool := cur.activeTool, position := ctx.params.toolChangeLinear)
                      && r.value.0.events == st.events + [SyncNewTool(ctx.line), MoveToolChange(ctx.line)]
  {
    assert ts[..0] == [] && ts[0..] == ts;
    var scan :- ToolScan(ts, 0, None);
    var tool :- Need(scan.1, "Tool change was called without T value");
    var cur := st.cur.(activeTool := tool, position := ctx.params.toolChangeLinear);
    Ok((LineState(cur, st.events + [SyncNewTool(ctx.line), MoveToolChange(ctx.line)]), scan.0))
  }

  /** handle_abort / handle_quit / handle_progabort: a pause of the given
      kind (0, 1, 2) for the sync manager and an open-ended pause (−1) for
      the movement manager. */
  function Pause(ctx: Ctx, st: LineState, kind: int): (r: LineState)
    ensures r.cur == st.cur
    ensures r.events == st.events + [SyncPause(ctx.line, kind), MovePause(ctx.line, -1.0)]
  {
    st.(events := st.events + [SyncPause(ctx.line, kind), MovePause(ctx.line, -1.0)])
  }

  /** handle_spindle_operation with command "CW", "CCW" or "off". */
  function Spindle(ctx: Ctx, st: LineState, command: string): (r: LineState)
    ensures r.cur.spindleOn <==> command != "off"
    ensures command != "off" ==> r.cur == st.cur.(spindleOn := true, spindleDirection := command)
    ensures command == "off" ==> r.cur == st.cur.(spindleOn := false)
    ensures r.events == st.events + [SyncSpindle(ctx.line, command)]
  {
    var cur := if command == "off" then st.cur.(spindleOn := false)
               else st.cur.(spindleOn := true, spindleDirection := command);
    LineState(cur, st.events + [SyncSpindle(ctx.line, command)])
  }

  /** handle_cooling_operation with command "on" or "off". */
  function Cooling(ctx: Ctx, st: LineState, command: string): (r: LineState)
    ensures r.cur == st.cur.(coolingOn := command != "off")
    ensures r.events == st.events + [SyncCooling(ctx.line, command)]
  {
    LineState(st.cur.(coolingOn := command != "off"), st.events + [SyncCooling(ctx.line, command)])
  }

  /** handle_end_of_program: the spindle stops and the end flag is set. */
  function EndOfProgram(ctx: Ctx, st: LineState): (r: LineState)
    ensures r.cur == st.cur.(spindleOn := false, programEndReached := true)
    ensures r.events == st.events + [SyncSpindle(ctx.line, "off"), MoveEndOfProgram(ctx.line)]
  {
    LineState(st.cur.(spindleOn := false, programEndReached := true),
              st.events + [SyncSpindle(ctx.line, "off"), MoveEndOfProgram(ctx.line)])
  }

  // ---------------------------------------------------------------- G and M

  /** The G numbers that move the machine or dwell, and so read further
      words of the line. */
  predicate IsMotionG(n: real) {
    n == 0.0 || n == 1.0 || n == 2.0 || n == 3.0 || n == 4.0
  }

  /** The G codes that change one modal setting: 9 exact stop for this
      line, 17/18/19 plane, 20 inch units (refused), 21 mm units, 40–42.1
      cutter compensation, 61/64 exact-stop mode, 90/91 absolute or relative
      axes, 90.1/91.1 absolute or relative arc centre. Any other number is
      reported and ignored. */
  function ModalG(cur: Status, n: real): (r: Result<Status>)
    ensures r.Err? <==> n == 20.0
    ensures n == 9.0 ==> r == Ok(cur.(exactStop := true))
    ensures n == 17.0 || n == 18.0 || n == 19.0 ==> r == Ok(cur.(plane := n.Floor))
    ensures n == 40.0 || n == 41.0 || n == 41.1 || n == 42.0 || n == 42.1 ==> r == Ok(cur.(cutterCompensation := n))
    ensures n == 61.0 ==> r == Ok(cur.(exactStop := true, g61Active := true))
    ensures n == 64.0 ==> r == Ok(cur.(g61Active := false))
    ensures n == 90.0 || n == 91.0 ==> r == Ok(cur.(absolutePosition := n == 90.0))
    ensures n == 90.1 || n == 91.1 ==> r == Ok(cur.(absoluteArcCenter := n == 90.1))
    ensures n !in {9.0, 17.0, 18.0, 19.0, 20.0, 40.0, 41.0, 41.1, 42.0, 42.1, 61.0, 64.0, 90.0, 90.1, 91.0, 91.1}
            ==> r == Ok(cur)
  {
    if n == 9.0 then Ok(cur.(exactStop := true))
    else if n == 17.0 || n == 18.0 || n == 19.0 then Ok(cur.(plane := n.Floor))
    else if n == 20.0 then Err("Please use metric system, imperial system is not supported.")
    else if n == 40.0 || n == 41.0 || n == 41.1 || n == 42.0 || n == 42.1 then Ok(cur.(cutterCompensation := n))
    else if n == 61.0 then Ok(cur.(exactStop := true, g61Active := true))
    else if n == 64.0 then Ok(cur.(g61Active := false))
    else if n == 90.0 then Ok(cur.(absolutePosition := true))
    else if n == 90.1 then Ok(cur.(absoluteArcCenter := true))
    else if n == 91.0 then Ok(cur.(absolutePosition := false))
    else if n == 91.1 then Ok(cur.(absoluteArcCenter := false))
    else Ok(cur)
  }

  /** G0 (`rapid`) and G1: the movement type and the feed rate per ms
      (F_MAX for a rapid move, the programmed F otherwise), then one linear
      movement over the axis words. */
  function LinearG(ctx: Ctx, st: LineState, rapid: bool, ts: seq<Token>): (r: Result<(LineState, seq<Token>)>)
    ensures r.Err? <==> SomeBadNumber(ts, LinearWords)
    ensures r.Ok? ==> var cur := r.value.0.cur;
              cur.movementType == (if rapid then 0 else 1)
              && cur.feedRate == (if rapid then ctx.params.fMax else st.cur.fValue) / 60000.0
              && r.value.0.events == st.events + [MoveLinear(ctx.line, ctx.last, cur)]
              && r.value.1 == Drop(ts, LinearWords)
  {
    var cur := st.cur;
    var feed := (if rapid then ctx.params.fMax else cur.fValue) / 60000.0;
    LinearMovement(ctx, st.(cur := cur.(movementType := if rapid then 0 else 1, feedRate := feed)), ts)
  }

  /** G2 (`clockwise`) and G3: movement type and arc direction 2 or 3, the
      programmed feed per ms, then one arc movement over the arc words. */
  function ArcG(ctx: Ctx, st: LineState, clockwise: bool, ts: seq<Token>): (r: Result<(LineState, seq<Token>)>)
    ensures r.Err? <==> st.cur.plane == 18 || st.cur.plane == 19
                        || SomeBadNumber(ts, AppliedArcWords(st.cur.plane))
                        || exists k :: 0 <= k < |ts| && ts[k].name == "R"
    ensures r.Ok? ==> var cur := r.value.0.cur;
              cur.movementType == (if clockwise then 2 else 3) && cur.arc.direction == cur.movementType
              && cur.feedRate == st.cur.fValue / 60000.0
              && r.value.1 == Drop(ts, ArcWords)
              && r.value.0.events == st.events + [MoveArc(ctx.line, ctx.last, cur)]
  {
    var cur := st.cur;
    var k := if clockwise then 2 else 3;
    ArcMovement(ctx, st.(cur := cur.(movementType := k, arc := cur.arc.(direction := k),
                                     feedRate := cur.fValue / 60000.0)), ts)
  }

  /** handle_G: G0–G3 move, G4 dwells, every other code changes at most
      one modal setting and reads no words. */
  function HandleG(ctx: Ctx, st: LineState, n: real, ts: seq<Token>): (r: Result<(LineState, seq<Token>)>)
    ensures r.Ok? ==> |r.value.1| <= |ts|
    ensures n == 0.0 || n == 1.0 ==> r == LinearG(ctx, st, n == 0.0, ts)
    ensures n == 2.0 || n == 3.0 ==> r == ArcG(ctx, st, n == 2.0, ts)
    ensures n == 4.0 ==> r == Dwell(ctx, st, ts)
    ensures !IsMotionG(n) ==> (r.Err? <==> ModalG(st.cur, n).Err?)
    ensures !IsMotionG(n) && r.Ok? ==> r.value == (st.(cur := ModalG(st.cur, n).value), ts)
    ensures r.Ok? ==> Appends(ctx, st, r.value.0)
  {
    if n == 0.0 || n == 1.0 then LinearG(ctx, st, n == 0.0, ts)
    else if n == 2.0 || n == 3.0 then ArcG(ctx, st, n == 2.0, ts)
    else if n == 4.0 then Dwell(ctx, st, ts)
    else
      var next :- ModalG(st.cur, n);
      Ok((st.(cur := next), ts))
  }

  /** The M commands the interpreter knows. */
  datatype MCommand =
    | MAbort | MQuit | MProgAbort | MSpindleCw | MSpindleCcw | MSpindleOff
    | MToolChange | MCoolingOn | MCoolingOff | MEndOfProgram | MOther

  /** The parameter codes handle_M compares against, in its order, and the
      command each one selects. */
  function MCodeOrder(c: MCodes): seq<real> {
    [c.abort, c.quit, c.progAbort, c.spindleCw, c.spindleCcw, c.spindleOff,
     c.toolChange, c.coolingOn, c.coolingOff, c.endOfProgram]
  }

  const MCommandOrder: seq<MCommand> :=
    [MAbort, MQuit, MProgAbort, MSpindleCw, MSpindleCcw, MSpindleOff,
     MToolChange, MCoolingOn, MCoolingOff, MEndOfProgram]

  /** The command an M number selects: the first parameter code in the
      order of handle_M that equals it. */
  function MCommandOf(c: MCodes, n: real): (m: MCommand)
    ensures m.MOther? <==> n !in MCodeOrder(c)
    ensures !m.MOther? ==> exists i :: 0 <= i < |MCodeOrder(c)| && MCodeOrder(c)[i] == n
                                       && m == MCommandOrder[i]
                                       && forall j :: 0 <= j < i ==> MCodeOrder(c)[j] != n
  {
    var o := MCodeOrder(c);
    if n == c.abort then assert o[0] == n; MAbort
    else if n == c.quit then assert o[1] == n; MQuit
    else if n == c.progAbort then assert o[2] == n; MProgAbort
    else if n == c.spindleCw then assert o[3] == n; MSpindleCw
    else if n == c.spindleCcw then assert o[4] == n; MSpindleCcw
    else if n == c.spindleOff then assert o[5] == n; MSpindleOff
    else if n == c.toolChange then assert o[6] == n; MToolChange
    else if n == c.coolingOn then assert o[7] == n; MCoolingOn
    else if n == c.coolingOff then assert o[8] == n; MCoolingOff
    else if n == c.endOfProgram then assert o[9] == n; MEndOfProgram
    else MOther
  }

  /** handle_M. Only a tool change reads further words; an unknown M
      number does nothing. */
  function HandleM(ctx: Ctx, st: LineState, n: real, ts: seq<Token>): (r: Result<(LineState, seq<Token>)>)
    ensures r.Ok? ==> |r.value.1| <= |ts|
    ensures r.Err? ==> MCommandOf(ctx.params.codes, n) == MToolChange
    ensures MCommandOf(ctx.params.codes, n) != MToolChange ==> r.Ok? && r.value.1 == ts
    ensures MCommandOf(ctx.params.codes, n) == MOther ==> r == Ok((st, ts))
    ensures MCommandOf(ctx.params.codes, n) in {MAbort, MQuit, MProgAbort} ==>
              r.Ok? && r.value.0.cur == st.cur && |r.value.0.events| == |st.events| + 2
    ensures MCommandOf(ctx.params.codes, n) == MEndOfProgram ==> r == Ok((EndOfProgram(ctx, st), ts))
    ensures MCommandOf(ctx.params.codes, n) == MAbort ==> r == Ok((Pause(ctx, st, 0), ts))
    ensures MCommandOf(ctx.params.codes, n) == MQuit ==> r == Ok((Pause(ctx, st, 1), ts))
    ensures MCommandOf(ctx.params.codes, n) == MProgAbort ==> r == Ok((Pause(ctx, st, 2), ts))
    ensures MCommandOf(ctx.params.codes, n) == MSpindleCw ==> r == Ok((Spindle(ctx, st, "CW"), ts))
    ensures MCommandOf(ctx.params.codes, n) == MSpindleCcw ==> r == Ok((Spindle(ctx, st, "CCW"), ts))
    ensures MCommandOf(ctx.params.codes, n) == MSpindleOff ==> r == Ok((Spindle(ctx, st, "off"), ts))
    ensures MCommandOf(ctx.params.codes, n) == MCoolingOn ==> r == Ok((Cooling(ctx, st, "on"), ts))
    ensures MCommandOf(ctx.params.codes, n) == MCoolingOff ==> r == Ok((Cooling(ctx, st, "off"), ts))
    ensures MCommandOf(ctx.params.codes, n) == MToolChange ==> r == ToolChange(ctx, st, ts)
    ensures r.Ok? ==> Appends(ctx, st, r.value.0)
  {
    match MCommandOf(ctx.params.codes, n)
    case MAbort => Ok((Pause(ctx, st, 0), ts))
    case MQuit => Ok((Pause(ctx, st, 1), ts))
    case MProgAbort => Ok((Pause(ctx, st, 2), ts))
    case MSpindleCw => Ok((Spindle(ctx, st, "CW"), ts))
    case MSpindleCcw => Ok((Spindle(ctx, st, "CCW"), ts))
    case MSpindleOff => Ok((Spindle(ctx, st, "off"), ts))
    case MToolChange => ToolChange(ctx, st, ts)
    case MCoolingOn => Ok((Cooling(ctx, st, "on"), ts))
    case MCoolingOff => Ok((Cooling(ctx, st, "off"), ts))
    case MEndOfProgram => Ok((EndOfProgram(ctx, st), ts))
    case MOther => Ok((st, ts))
  }

  // ---------------------------------------------------------------- the token loops

  const NumberedCommands: set<string> := {"G", "M"}

  /** A token the constructor handles before all others: F, S, G9/17/18/19
      and the spindle M codes. */
  predicate IsPriority(t: Token, c: MCodes) {
    || t.name == "F" || t.name == "S"
    || (t.name == "G" && ParseFloat(t.number).Some? && ParseFloat(t.number).value in {9.0, 17.0, 18.0, 19.0})
    || (t.name == "M" && ParseFloat(t.number).Some?
        && ParseFloat(t.number).value in {c.spindleCw, c.spindleCcw, c.spindleOff})
  }

  /** One pass of the priority search: the position of the leftmost
      priority token. Every G and M number passed on the way is converted,
      so a malformed one before it is an error. */
  function PriorityScan(ts: seq<Token>, c: MCodes): (r: Result<Option<nat>>)
    ensures r.Ok? && r.value.Some? ==> r.value.value < |ts| && IsPriority(ts[r.value.value], c)
                                       && forall k :: 0 <= k < r.value.value ==> !IsPriority(ts[k], c)
    ensures r == Ok(None) ==> forall k :: 0 <= k < |ts| ==> !IsPriority(ts[k], c)
    ensures !SomeBadNumber(ts, NumberedCommands) ==> r.Ok?
    ensures r.Err? ==> SomeBadNumber(ts, NumberedCommands)
  {
    if |ts| == 0 then Ok(None)
    else if ts[0].name in NumberedCommands && ParseFloat(ts[0].number).None? then
      Err("could not convert string to float")
    else if IsPriority(ts[0], c) then Ok(Some(0))
    else
      BadNumberTail(ts, NumberedCommands);
      var tail :- PriorityScan(ts[1..], c);
      if tail.None? then Ok(None) else Ok(Some(tail.value + 1))
  }

  /** Handles one token taken out by the priority search; `rest` is the
      line without it. */
  function HandlePriority(ctx: Ctx, st: LineState, t: Token, rest: seq<Token>): (r: Result<(LineState, seq<Token>)>)
    ensures r.Ok? ==> |r.value.1| <= |rest|
    ensures r.Ok? && IsPriority(t, ctx.params.codes) ==> r.value.1 == rest
    ensures r.Ok? ==> Appends(ctx, st, r.value.0)
  {
    var v :- Need(ParseFloat(t.number), "could not convert string to float");
    if t.name == "F" then
      var st2 :- HandleF(ctx, st, v);
      Ok((st2, rest))
    else if t.name == "S" then
      var st2 :- HandleS(ctx, st, v);
      Ok((st2, rest))
    else if t.name == "G" then HandleG(ctx, st, v, rest)
    else if t.name == "M" then HandleM(ctx, st, v, rest)
    else Ok((st, rest))
  }

  /** The first loop of the constructor: while a priority token is left,
      the leftmost one is removed and handled. */
  function PriorityPhase(ctx: Ctx, st: LineState, ts: seq<Token>): (r: Result<(LineState, seq<Token>)>)
    ensures r.Ok? ==> |r.value.1| <= |ts|
    ensures r.Ok? ==> forall k :: 0 <= k < |r.value.1| ==> !IsPriority(r.value.1[k], ctx.params.codes)
    decreases |ts|
    ensures r.Ok? ==> Appends(ctx, st, r.value.0)
  {
    var found :- PriorityScan(ts, ctx.params.codes);
    if found.None? then
      assert st.events[..|st.events|] == st.events;
      Ok((st, ts))
    else
      var i := found.value;
      var h :- HandlePriority(ctx, st, ts[i], RemoveAt(ts, i));
      var r := PriorityPhase(ctx, h.0, h.1);
      assert r.Ok? ==> Appends(ctx, st, r.value.0) by {
        if r.Ok? { AppendsTrans(ctx, st, h.0, r.value.0); }
      }
      r
  }

  /** G and M are not axis or arc words. */
  lemma NumberedNotArc()
    ensures NumberedCommands == {"G", "M"}
    ensures "G" !in ArcWords && "M" !in ArcWords
  {
    assert "G"[0] == 'G' && "M"[0] == 'M';
    assert forall w :: w in ArcWords ==> |w| == 1 && w[0] in {'X', 'Y', 'Z', 'A', 'B', 'C', 'I', 'J', 'K', 'R'};
  }

  /** One turn of the second loop of the constructor, on the leftmost of
      the remaining tokens. N and unknown words are dropped; G and M are
      handled with the rest of the line; an axis or arc word without a G
      starts a movement of the active type. An I, J, K or R word while a
      linear movement is active is never consumed, so the source loops
      forever there; here it is an error. */
  function MainStep(ctx: Ctx, st: LineState, ts: seq<Token>): (r: Result<(LineState, seq<Token>)>)
    requires |ts| > 0
    ensures r.Ok? ==> |r.value.1| < |ts| && Appends(ctx, st, r.value.0)
    ensures ts[0].name !in NumberedCommands && ts[0].name !in ArcWords ==> r == Ok((st, ts[1..]))
    ensures ts[0].name in NumberedCommands && ParseFloat(ts[0].number).None? ==> r.Err?
    ensures ts[0].name in ArcWords - LinearWords && (st.cur.movementType == 0 || st.cur.movementType == 1)
            ==> r.Err?
    ensures ts[0].name == "G" && ParseFloat(ts[0].number).Some?
            ==> r == HandleG(ctx, st, ParseFloat(ts[0].number).value, ts[1..])
    ensures ts[0].name == "M" && ParseFloat(ts[0].number).Some?
            ==> r == HandleM(ctx, st, ParseFloat(ts[0].number).value, ts[1..])
    ensures ts[0].name in LinearWords && (st.cur.movementType == 0 || st.cur.movementType == 1)
            ==> r == LinearMovement(ctx, st, ts)
    ensures ts[0].name in ArcWords && !(st.cur.movementType == 0 || st.cur.movementType == 1)
            ==> r == ArcMovement(ctx, st, ts)
  {
    var t := ts[0];
    NumberedNotArc();
    if t.name == "G" || t.name == "M" then
      var n :- Need(ParseFloat(t.number), "could not convert string to float");
      if t.name == "G" then HandleG(ctx, st, n, ts[1..]) else HandleM(ctx, st, n, ts[1..])
    else if t.name in ArcWords then
      if st.cur.movementType == 0 || st.cur.movementType == 1 then
        if t.name in LinearWords then LinearMovement(ctx, st, ts)
        else Err("an I, J, K or R word outside an arc movement is never consumed")
      else ArcMovement(ctx, st, ts)
    else
      assert st.events[..|st.events|] == st.events;
      Ok((st, ts[1..]))
  }

  /** The second loop of the constructor: one step after the other, left
      to right, until no token is left. */
  function MainLoop(ctx: Ctx, st: LineState, ts: seq<Token>): (r: Result<LineState>)
    ensures r.Ok? ==> Appends(ctx, st, r.value)
    ensures |ts| == 0 ==> r == Ok(st)
    ensures |ts| > 0 && MainStep(ctx, st, ts).Err? ==> r.Err?
    decreases |ts|
  {
    if |ts| == 0 then
      assert st.events[..|st.events|] == st.events;
      Ok(st)
    else
      var h :- MainStep(ctx, st, ts);
      var r := MainLoop(ctx, h.0, h.1);
      assert r.Ok? ==> Appends(ctx, st, r.value) by {
        if r.Ok? { AppendsTrans(ctx, st, h.0, r.value); }
      }
      r
  }

  /** The outcome of one line: the status before it, the status after it,
      and the manager calls it made. */
  datatype LineResult = LineResult(last: Status, cur: Status, events: seq<Event>)

  /** The GCodeLine constructor. */
  function Interpret(line: int, status: Status, params: Params, text: string): (r: Result<LineResult>)
    ensures Extract(text).Err? ==> r.Err?
    ensures r.Ok? ==> r.value.last == status
    ensures Extract(text) == Ok([]) ==> r == Ok(LineResult(status, CopyForNextLine(status), []))
    ensures r.Ok? ==> forall k :: 0 <= k < |r.value.events| ==> r.value.events[k].line == line
    ensures Extract(text).Ok? && !SomeBadNumber(Extract(text).value, NumberedCommands) ==>
              var pairs, ctx := Extract(text).value, Ctx(line, params, status);
              var p := PriorityFold(ctx, LineState(CopyForNextLine(status), []), Keep(pairs, params.codes, true));
              (r.Err? <==> p.Err? || MainLoop(ctx, p.value, Keep(pairs, params.codes, false)).Err?)
              && (r.Ok? ==> var m := MainLoop(ctx, p.value, Keep(pairs, params.codes, false)).value;
                            r.value == LineResult(status, m.cur, m.events))
  {
    var pairs :- Extract(text);
    var ctx := Ctx(line, params, status);
    var st0 := LineState(CopyForNextLine(status), []);
    PriorityPhaseFoldIf(ctx, st0, pairs);
    var p :- PriorityPhase(ctx, st0, pairs);
    var f :- MainLoop(ctx, p.0, p.1);
    AppendsTrans(ctx, st0, p.0, f);
    Ok(LineResult(status, f.cur, f.events))
  }

  // ---------------------------------------------------------------- properties

  /** The tokens that are (`want`) or are not priority tokens, in order. */
  function Keep(ts: seq<Token>, c: MCodes, want: bool): (r: seq<Token>)
    ensures forall k :: 0 <= k < |r| ==> IsPriority(r[k], c) == want
  {
    if |ts| == 0 then []
    else (if IsPriority(ts[0], c) == want then [ts[0]] else []) + Keep(ts[1..], c, want)
  }

  lemma {:induction false} KeepAppend(a: seq<Token>, b: seq<Token>, c: MCodes, want: bool)
    ensures Keep(a + b, c, want) == Keep(a, c, want) + Keep(b, c, want)
  {
    if |a| == 0 {
      assert a + b == b;
    } else {
      assert (a + b)[0] == a[0];
      assert (a + b)[1..] == a[1..] + b;
      KeepAppend(a[1..], b, c, want);
    }
  }

  lemma {:induction false} KeepAll(ts: seq<Token>, c: MCodes)
    requires forall k :: 0 <= k < |ts| ==> !IsPriority(ts[k], c)
    ensures Keep(ts, c, false) == ts && Keep(ts, c, true) == []
  {
    if |ts| > 0 {
      assert !IsPriority(ts[0], c);
      KeepAll(ts[1..], c);
    }
  }

  /** One priority token handled on its own. */
  function PriorityStep(ctx: Ctx, st: LineState, t: Token): Result<LineState> {
    var h :- HandlePriority(ctx, st, t, []);
    Ok(h.0)
  }

  /** The priority tokens handled one after the other, in order. */
  function PriorityFold(ctx: Ctx, st: LineState, ps: seq<Token>): Result<LineState>
    decreases |ps|
  {
    if |ps| == 0 then Ok(st)
    else
      var s1 :- PriorityStep(ctx, st, ps[0]);
      PriorityFold(ctx, s1, ps[1..])
  }

  /** A priority token never reads the rest of the line. */
  lemma PriorityIgnoresRest(ctx: Ctx, st: LineState, t: Token, rest: seq<Token>)
    requires IsPriority(t, ctx.params.codes)
    ensures HandlePriority(ctx, st, t, rest).Err? <==> PriorityStep(ctx, st, t).Err?
    ensures HandlePriority(ctx, st, t, rest).Ok? ==>
              HandlePriority(ctx, st, t, rest).value == (PriorityStep(ctx, st, t).value, rest)
  {
    if t.name == "M" {
      var v := ParseFloat(t.number).value;
      assert MCommandOf(ctx.params.codes, v) in {MAbort, MQuit, MProgAbort, MSpindleCw, MSpindleCcw, MSpindleOff};
    }
  }

  /** Taking out the leftmost priority token splits the two filters. */
  lemma {:induction false} KeepSplit(ts: seq<Token>, i: nat, c: MCodes)
    requires i < |ts| && IsPriority(ts[i], c)
    requires forall k :: 0 <= k < i ==> !IsPriority(ts[k], c)
    ensures Keep(ts, c, true) == [ts[i]] + Keep(RemoveAt(ts, i), c, true)
    ensures Keep(ts, c, false) == Keep(RemoveAt(ts, i), c, false)
  {
    var pre, tail := ts[..i], ts[i + 1..];
    var mid := [ts[i]] + tail;
    assert ts == pre + mid;
    assert RemoveAt(ts, i) == pre + tail;
    KeepAll(pre, c);
    KeepAppend(pre, mid, c, true);
    KeepAppend(pre, mid, c, false);
    KeepAppend(pre, tail, c, true);
    KeepAppend(pre, tail, c, false);
    assert mid[0] == ts[i] && mid[1..] == tail;
    assert Keep(mid, c, true) == [ts[i]] + Keep(tail, c, true);
    assert Keep(mid, c, false) == Keep(tail, c, false);
  }

  lemma GoodNumbersRemoveAt(ts: seq<Token>, i: nat)
    requires i < |ts| && !SomeBadNumber(ts, NumberedCommands)
    ensures !SomeBadNumber(RemoveAt(ts, i), NumberedCommands)
  {
    var rest := RemoveAt(ts, i);
    forall k | 0 <= k < |rest| && rest[k].name in NumberedCommands
      ensures ParseFloat(rest[k].number).Some?
    {
      if k < i { assert rest[k] == ts[k]; } else { assert rest[k] == ts[k + 1]; }
    }
  }

  /** Token priority: when every G and M number is well formed, the
      priority loop handles exactly the priority tokens, leftmost first, and
      leaves exactly the other tokens, in their original order, to the main
      loop. */
  lemma {:induction false} PriorityPhaseIsFold(ctx: Ctx, st: LineState, ts: seq<Token>)
    requires !SomeBadNumber(ts, NumberedCommands)
    ensures PriorityPhase(ctx, st, ts).Err? <==> PriorityFold(ctx, st, Keep(ts, ctx.params.codes, true)).Err?
    ensures PriorityPhase(ctx, st, ts).Ok? ==>
              PriorityPhase(ctx, st, ts).value
              == (PriorityFold(ctx, st, Keep(ts, ctx.params.codes, true)).value, Keep(ts, ctx.params.codes, false))
    decreases |ts|
  {
    var c := ctx.params.codes;
    var found := PriorityScan(ts, c);
    if found.value.None? {
      KeepAll(ts, c);
    } else {
      var i := found.value.value;
      var rest := RemoveAt(ts, i);
      KeepSplit(ts, i, c);
      GoodNumbersRemoveAt(ts, i);
      PriorityIgnoresRest(ctx, st, ts[i], rest);
      var h := HandlePriority(ctx, st, ts[i], rest);
      assert PriorityPhase(ctx, st, ts) == (if h.Err? then Err(h.msg) else PriorityPhase(ctx, h.value.0, h.value.1));
      var ps := Keep(ts, c, true);
      assert ps[0] == ts[i] && ps[1..] == Keep(rest, c, true);
      if h.Ok? {
        PriorityPhaseIsFold(ctx, h.value.0, rest);
      }
    }
  }

  lemma PriorityPhaseFoldIf(ctx: Ctx, st: LineState, ts: seq<Token>)
    ensures !SomeBadNumber(ts, NumberedCommands) ==>
              (PriorityPhase(ctx, st, ts).Err? <==> PriorityFold(ctx, st, Keep(ts, ctx.params.codes, true)).Err?)
              && (PriorityPhase(ctx, st, ts).Ok? ==>
                    PriorityPhase(ctx, st, ts).value
                    == (PriorityFold(ctx, st, Keep(ts, ctx.params.codes, true)).value, Keep(ts, ctx.params.codes, false)))
  {
    if !SomeBadNumber(ts, NumberedCommands) { PriorityPhaseIsFold(ctx, st, ts); }
  }

  /** Words that are neither G, M nor an axis or arc word (N, T, P, and any
      unknown letter) are dropped by the main loop without effect. */
  lemma {:induction false} InertWordsChangeNothing(ctx: Ctx, st: LineState, ts: seq<Token>)
    requires forall k :: 0 <= k < |ts| ==> ts[k].name !in NumberedCommands && ts[k].name !in ArcWords
    ensures MainLoop(ctx, st, ts) == Ok(st)
    decreases |ts|
  {
    if |ts| > 0 {
      assert ts[0].name != "G" && ts[0].name != "M" && ts[0].name !in ArcWords;
      InertWordsChangeNothing(ctx, st, ts[1..]);
    }
  }

  /** G9 asks for an exact stop in its own line only; G61 keeps exact stop
      on in the following lines until G64 switches it off. */
  lemma ExactStopModes(s: Status)
    ensures ModalG(s, 9.0).Ok? && ModalG(s, 9.0).value.exactStop
    ensures CopyForNextLine(ModalG(s, 9.0).value).exactStop == s.g61Active
    ensures ModalG(s, 61.0).Ok? && CopyForNextLine(ModalG(s, 61.0).value).exactStop
    ensures ModalG(s, 64.0).Ok? && !CopyForNextLine(ModalG(s, 64.0).value).exactStop
  {
  }
}

=== FILE: lineextractor.dfy ===
/** LineExtractor.extract: a prepared G-code line as a left-to-right list of
    (command name, number string) pairs (gcanalyser/lineextractor.py). */
module LineExtractor {
  import opened Wrappers
  import opened StringFunctions

  datatype Token = Token(name: string, number: string)

  /** A pair the extractor can produce: a letter followed by letters or '_',
      and a non-empty run of number characters. */
  predicate ValidToken(t: Token) {
    && |t.name| > 0 && IsAlpha(t.name[0])
    && (forall i :: 0 <= i < |t.name| ==> IsNameChar(t.name[i]))
    && |t.number| > 0
    && (forall i :: 0 <= i < |t.number| ==> IsNumberChar(t.number[i]))
  }

  predicate AllValid(ts: seq<Token>) {
    forall k :: 0 <= k < |ts| ==> ValidToken(ts[k])
  }

  /** The text a list of pairs spells: name + number for every pair. */
  function Flatten(ts: seq<Token>): string {
    if |ts| == 0 then "" else ts[0].name + ts[0].number + Flatten(ts[1..])
  }

  /** The loop of `extract` on an already prepared line. */
  function Tokenize(s: string): (r: Result<seq<Token>>)
    decreases |s|
    ensures |s| == 0 ==> r == Ok([])
    ensures |s| > 0 && !IsAlpha(s[0]) ==> r.Err?
  {
    if |s| == 0 then Ok([])
    else
      var a := FindAlphaCombo(s);
      if a.Err? then Err(a.msg)
      else
        var b := FindNumber(a.value.1);
        if b.Err? then Err(b.msg)
        else
          var tail := Tokenize(b.value.1);
          if tail.Err? then Err(tail.msg)
          else Ok([Token(a.value.0, b.value.0)] + tail.value)
  }

  /** `extract`: prepare the line, then split it into pairs. */
  function Extract(line: string): (r: Result<seq<Token>>)
    ensures PrepareLine(line).Err? ==> r.Err?
    ensures PrepareLine(line) == Ok("") ==> r == Ok([])
  {
    var prepared :- PrepareLine(line);
    Tokenize(prepared)
  }

  /** Whatever `extract` returns spells the prepared line back, pair by pair. */
  lemma {:induction false} TokenizeSpells(s: string)
    requires Tokenize(s).Ok?
    ensures Flatten(Tokenize(s).value) == s
    decreases |s|
  {
    if |s| > 0 {
      var a := FindAlphaCombo(s).value;
      var b := FindNumber(a.1).value;
      var ts := Tokenize(s).value;
      TokenizeSpells(b.1);
      assert ts[0] == Token(a.0, b.0);
      assert ts[1..] == Tokenize(b.1).value;
      assert s == a.0 + (b.0 + b.1);
    }
  }

  /** Every pair `extract` returns is well formed. */
  lemma {:induction false} TokenizeValid(s: string)
    requires Tokenize(s).Ok?
    ensures AllValid(Tokenize(s).value)
    decreases |s|
  {
    if |s| > 0 {
      var a := FindAlphaCombo(s).value;
      var b := FindNumber(a.1).value;
      var tail := Tokenize(b.1).value;
      TokenizeValid(b.1);
      assert Tokenize(s).value == [Token(a.0, b.0)] + tail;
      ConsValid(Token(a.0, b.0), tail);
    }
  }

  lemma ConsValid(t: Token, ts: seq<Token>)
    requires ValidToken(t) && AllValid(ts)
    ensures AllValid([t] + ts)
  {
    forall k | 0 <= k < |[t] + ts| ensures ValidToken(([t] + ts)[k]) {
      if k > 0 { assert ([t] + ts)[k] == ts[k - 1]; }
    }
  }

  /** Every list of well-formed pairs is exactly what `extract` recovers from
      the text it spells: each number is maximal and each name starts where
      the previous number ends. */
  lemma {:induction false} TokenizeComplete(ts: seq<Token>)
    requires AllValid(ts)
    ensures Tokenize(Flatten(ts)) == Ok(ts)
  {
    if |ts| > 0 {
      var t := ts[0];
      assert ValidToken(t);
      var tail := Flatten(ts[1..]);
      assert AllValid(ts[1..]) by {
        forall k | 0 <= k < |ts[1..]| ensures ValidToken(ts[1..][k]) { assert ts[1..][k] == ts[k + 1]; }
      }
      TokenizeComplete(ts[1..]);
      var s := Flatten(ts);
      assert s == t.name + (t.number + tail);
      NameSplit(t.name, t.number + tail);
      NumberSplit(t.number, tail, ts[1..]);
      assert [t] + ts[1..] == ts;
    }
  }

  lemma NameSplit(name: string, rest: string)
    requires |name| > 0 && IsAlpha(name[0])
    requires forall i :: 0 <= i < |name| ==> IsNameChar(name[i])
    requires |rest| == 0 || !IsNameChar(rest[0])
    ensures FindAlphaCombo(name + rest) == Ok((name, rest))
  {
    var s := name + rest;
    assert forall i :: 0 <= i < |name| ==> s[i] == name[i];
    assert |rest| > 0 ==> s[|name|] == rest[0];
    var k := Run(s, IsNameChar);
    assert k == |name|;
    assert s[..k] == name && s[k..] == rest;
  }

  lemma NumberSplit(number: string, tail: string, ts: seq<Token>)
    requires |number| > 0
    requires forall i :: 0 <= i < |number| ==> IsNumberChar(number[i])
    requires AllValid(ts) && tail == Flatten(ts)
    ensures FindNumber(number + tail) == Ok((number, tail))
  {
    var s := number + tail;
    var k := Run(s, IsNumberChar);
    if |ts| > 0 {
      assert ValidToken(ts[0]);
      assert tail == ts[0].name + (ts[0].number + Flatten(ts[1..]));
      assert tail[0] == ts[0].name[0];
    }
    assert forall i :: 0 <= i < |number| ==> s[i] == number[i];
    assert |tail| > 0 ==> s[|number|] == tail[0];
    assert k == |number|;
    assert s[..k] == number && s[k..] == tail;
  }

  /** `extract` returns no pairs exactly when the prepared line is empty. */
  lemma ExtractEmptyIff(line: string)
    requires Extract(line).Ok?
    ensures Extract(line).value == [] <==> PrepareLine(line) == Ok("")
  {
    TokenizeSpells(PrepareLine(line).value);
  }

  /** A letter group followed by neither a letter, '_' nor a number
      character (or by nothing) is refused. */
  lemma NameWithoutNumberFails(name: string, rest: string)
    requires |name| > 0 && IsAlpha(name[0])
    requires forall i :: 0 <= i < |name| ==> IsNameChar(name[i])
    requires |rest| == 0 || (!IsNameChar(rest[0]) && !IsNumberChar(rest[0]))
    ensures Tokenize(name + rest).Err?
  {
    NameSplit(name, rest);
  }

  /** Position of the first token called `name`. */
  function FirstIndex(ts: seq<Token>, name: string): (r: Option<nat>)
    ensures r.Some? ==> r.value < |ts| && ts[r.value].name == name
                        && forall k :: 0 <= k < r.value ==> ts[k].name != name
    ensures r.None? ==> forall k :: 0 <= k < |ts| ==> ts[k].name != name
  {
    if |ts| == 0 then None
    else if ts[0].name == name then Some(0)
    else
      var tail := FirstIndex(ts[1..], name);
      if tail.None? then None else Some(tail.value + 1)
  }

  function RemoveAt(ts: seq<Token>, i: nat): (r: seq<Token>)
    requires i < |ts|
    ensures |r| == |ts| - 1
    ensures forall k :: 0 <= k < i ==> r[k] == ts[k]
    ensures forall k :: i <= k < |r| ==> r[k] == ts[k + 1]
  {
    ts[..i] + ts[i + 1..]
  }
}

=== FILE: mask.dfy ===
/** Binary masks around a frequency form (audioanalyser/mask.py): the form
    is upsampled, turned into frequency bins shifted up and down by half the
    frequency window and in time by half the time window; the pointwise
    minimum and maximum of these shifted index rows, taken back to one
    column per sample, bound a band of frequency bins marked true. */
module Mask {
  import opened Wrappers
  import opened PyNum
  import Util
  import Slicer

  // ---------------------------------------------------------------- shifts

  /** np.roll(x, s): entry i comes from entry (i − s) mod n. */
  function Roll<T>(x: seq<T>, s: int): (r: seq<T>)
    requires |x| > 0
    ensures |r| == |x|
  {
    seq(|x|, i requires 0 <= i < |x| => x[(i - s) % |x|])
  }

  /** a·f grows with a for a positive f. */
  lemma MulMono(a: int, b: int, f: int)
    requires f > 0 && a <= b
    ensures a * f <= b * f
  {
    assert b * f - a * f == (b - a) * f;
  }

  /** t < n gives t·f < n·f for a positive f. */
  lemma MulBelow(t: int, n: int, f: int)
    requires f > 0 && t < n
    ensures t * f < n * f
  {
    MulMono(t + 1, n, f);
    assert (t + 1) * f == t * f + f;
  }

  /** Division and remainder are determined by any decomposition
      a = q·f + r with 0 ≤ r < f. */
  lemma DivUnique(a: int, f: int, q: int, r: int)
    requires f > 0 && 0 <= r < f && a == q * f + r
    ensures a / f == q && a % f == r
  {
    var q', r' := a / f, a % f;
    assert a == q' * f + r' && 0 <= r' < f;
    if q' > q {
      MulMono(q + 1, q', f);
    } else if q' < q {
      MulMono(q' + 1, q, f);
    }
  }

  lemma ModSmall(a: int, n: int)
    requires 0 <= a < n
    ensures a % n == a
  {
    DivUnique(a, n, 0, a);
  }

  /** _TimeShifter.pos: the signal moved `shift` places to the right, the
      freed places on the left filled with the first value. */
  function PosShift<T>(x: seq<T>, shift: int): (r: Result<seq<T>>)
    ensures r.Err? <==> |x| == 0
    ensures r.Ok? ==> |r.value| == |x|
  {
    if |x| == 0 then Err("index 0 is out of bounds")
    else
      var p := Roll(x, shift);
      var k := SliceBound(shift, |x|);
      Ok(seq(|x|, i requires 0 <= i < |x| => if i < k then x[0] else p[i]))
  }

  /** For a shift in [0, n]: the first `shift` entries are x[0], entry
      i ≥ shift is x[i − shift]. */
  lemma PosShiftMoves<T>(x: seq<T>, shift: int)
    requires 0 <= shift <= |x| && |x| > 0
    ensures forall i :: 0 <= i < shift ==> PosShift(x, shift).value[i] == x[0]
    ensures forall i :: shift <= i < |x| ==> PosShift(x, shift).value[i] == x[i - shift]
  {
    var r := PosShift(x, shift).value;
    forall i | shift <= i < |x|
      ensures r[i] == x[i - shift]
    {
      ModSmall(i - shift, |x|);
    }
  }

  /** _TimeShifter.neg as written: the signal moved `shift` places to the
      left and the entries from `−shift` on filled with the last value.
      For shift = 0 the slice p[−0:] is the whole array. */
  function NegShiftAsWritten<T>(x: seq<T>, shift: int): (r: Result<seq<T>>)
    ensures r.Err? <==> |x| == 0
    ensures r.Ok? ==> |r.value| == |x|
  {
    if |x| == 0 then Err("index -1 is out of bounds")
    else
      var p := Roll(x, -shift);
      var k := SliceBound(-shift, |x|);
      Ok(seq(|x|, i requires 0 <= i < |x| => if i >= k then x[|x| - 1] else p[i]))
  }

  /** With shift 0 every entry becomes the last value. */
  lemma NegShiftZeroFlattens()
    ensures NegShiftAsWritten([0, 1], 0) == Ok([1, 1])
    ensures PosShift([0, 1], 0) == Ok([0, 1])
  {
    var x := [0, 1];
    ModSmall(0, 2);
    ModSmall(1, 2);
    assert Roll(x, 0) == [0, 1];
    assert SliceBound(0, 2) == 0;
    var a := NegShiftAsWritten(x, 0).value;
    assert a[0] == 1 && a[1] == 1;
    assert a == [1, 1];
    var b := PosShift(x, 0).value;
    assert b[0] == 0 && b[1] == 1;
    assert b == [0, 1];
  }

  /** _TimeShifter.neg with the fill restricted to a non-zero shift: the
      last `shift` entries are filled, none when nothing moves. */
  function NegShift<T>(x: seq<T>, shift: int): (r: Result<seq<T>>)
    ensures r.Err? <==> |x| == 0
    ensures r.Ok? ==> |r.value| == |x|
    ensures shift != 0 ==> r == NegShiftAsWritten(x, shift)
  {
    if |x| == 0 then Err("index -1 is out of bounds")
    else
      var p := Roll(x, -shift);
      var k := if shift == 0 then |x| else SliceBound(-shift, |x|);
      Ok(seq(|x|, i requires 0 <= i < |x| => if i >= k then x[|x| - 1] else p[i]))
  }

  /** For a shift in [0, n]: entry i < n − shift is x[i + shift], the rest
      is the last value; shift 0 leaves the signal as it is. */
  lemma NegShiftMoves<T>(x: seq<T>, shift: int)
    requires 0 <= shift <= |x| && |x| > 0
    ensures forall i :: 0 <= i < |x| - shift ==> NegShift(x, shift).value[i] == x[i + shift]
    ensures forall i :: |x| - shift <= i < |x| ==> NegShift(x, shift).value[i] == x[|x| - 1]
    ensures shift == 0 ==> NegShift(x, shift) == Ok(x)
  {
    var r := NegShift(x, shift).value;
    forall i | 0 <= i < |x| - shift
      ensures r[i] == x[i + shift]
    {
      ModSmall(i + shift, |x|);
    }
    if shift == 0 {
      assert r == x;
    }
  }

  function Reverse<T>(x: seq<T>): (r: seq<T>)
    ensures |r| == |x| && forall i :: 0 <= i < |x| ==> r[i] == x[|x| - 1 - i]
  {
    seq(|x|, i requires 0 <= i < |x| => x[|x| - 1 - i])
  }

  /** Shifting left is shifting the reversed signal right, for every
      non-negative shift. */
  lemma NegShiftMirrorsPos<T>(x: seq<T>, shift: int)
    requires shift >= 0 && |x| > 0
    ensures NegShift(x, shift).value == Reverse(PosShift(Reverse(x), shift).value)
  {
    var n := |x|;
    var a := NegShift(x, shift).value;
    var y := Reverse(x);
    var p := PosShift(y, shift).value;
    var b := Reverse(p);
    forall i | 0 <= i < n
      ensures a[i] == b[i]
    {
      var j := n - 1 - i;
      assert b[i] == p[j];
      if shift < n && i < n - shift {
        ModSmall(i + shift, n);
        ModSmall(j - shift, n);
        assert a[i] == x[i + shift];
        assert p[j] == y[j - shift];
      } else {
        assert a[i] == x[n - 1];
        assert p[j] == y[0];
      }
    }
  }

  /** The as-written shift breaks the mirror at shift 0. */
  lemma NegShiftAsWrittenNotMirror()
    ensures NegShiftAsWritten([0, 1], 0).value != Reverse(PosShift(Reverse([0, 1]), 0).value)
  {
    NegShiftZeroFlattens();
    assert Reverse([0, 1]) == [1, 0];
    ModSmall(0, 2);
    ModSmall(1, 2);
    var b := PosShift([1, 0], 0).value;
    assert b[1] == 0;
    assert Reverse(b)[0] == 0;
    assert NegShiftAsWritten([0, 1], 0).value[0] == 1;
  }

  /** For shift 0 the as-written left shift replaces every entry by the
      last one, whatever the signal. */
  lemma NegShiftAsWrittenZero<T>(x: seq<T>)
    requires |x| > 0
    ensures forall i :: 0 <= i < |x| ==> NegShiftAsWritten(x, 0).value[i] == x[|x| - 1]
  {
  }

  // ------------------------------------------------------------ upsampling

  /** np.interp(p, arange(n), x): linear interpolation between neighbouring
      samples, clamped to the end values outside [0, n − 1]. */
  function Interp(x: seq<real>, p: real): real
    requires |x| > 0
  {
    if p <= 0.0 then x[0]
    else if p >= (|x| - 1) as real then x[|x| - 1]
    else
      var i := p.Floor;
      x[i] + (p - i as real) * (x[i + 1] - x[i])
  }

  /** At a sample position the interpolation is the sample. */
  lemma InterpAtSample(x: seq<real>, j: nat)
    requires j < |x|
    ensures Interp(x, j as real) == x[j]
  {
    if 0 < j < |x| - 1 {
      assert (j as real).Floor == j;
    }
  }

  /** _upsample as written: n·factor points of linspace(0, n − 1, n·factor,
      endpoint=False), so point j lies at j·(n − 1)/(n·factor); an empty
      signal has no sample points and a negative count is refused. */
  function UpsampleAsWritten(x: seq<real>, factor: int): (r: Result<seq<real>>)
    ensures r.Err? <==> |x| == 0 || factor < 0
    ensures r.Ok? ==> |r.value| == |x| * factor
  {
    if factor < 0 && |x| > 0 then Err("Number of samples must be non-negative")
    else if |x| == 0 then Err("array of sample points is empty")
    else
      var n := |x| * factor;
      Ok(seq(n, j requires 0 <= j < n => Interp(x, j as real * (|x| - 1) as real / n as real)))
  }

  /** _upsample with the points at j / factor, so that every factor-th point
      is an original sample. */
  function Upsample(x: seq<real>, factor: int): (r: Result<seq<real>>)
    ensures r.Err? <==> |x| == 0 || factor < 0
    ensures r.Ok? ==> |r.value| == |x| * factor
  {
    if factor < 0 && |x| > 0 then Err("Number of samples must be non-negative")
    else if |x| == 0 then Err("array of sample points is empty")
    else
      var n := |x| * factor;
      Ok(seq(n, j requires 0 <= j < n => Interp(x, j as real / factor as real)))
  }

  /** `e[::factor]`: every factor-th entry, starting with the first. */
  function Downsample<T>(e: seq<T>, factor: int): (r: seq<T>)
    requires factor > 0
    ensures |r| == (|e| + factor - 1) / factor
    ensures forall j :: 0 <= j < |r| ==> j * factor < |e| && r[j] == e[j * factor]
  {
    var m := (|e| + factor - 1) / factor;
    assert forall j :: 0 <= j < m ==> j * factor < |e| by {
      forall j | 0 <= j < m
        ensures j * factor < |e|
      {
        DownsampleIndex(|e|, factor, j);
      }
    }
    seq(m, j requires 0 <= j < m => e[j * factor])
  }

  lemma DownsampleIndex(len: nat, factor: int, j: nat)
    requires factor > 0 && j < (len + factor - 1) / factor
    ensures j * factor < len
  {
    var a := len + factor - 1;
    var q := a / factor;
    assert a == q * factor + a % factor;
    MulMono(j + 1, q, factor);
    assert (j + 1) * factor == j * factor + factor;
  }

  /** An upsampled signal of n·factor points taken back gives n points. */
  lemma DownsampleLength(n: nat, factor: int)
    requires factor > 0
    ensures (n * factor + factor - 1) / factor == n
  {
    DivUnique(n * factor + factor - 1, factor, n, factor - 1);
  }

  /** Taking every factor-th entry of n·factor entries leaves n. */
  lemma DownsampleOf<T>(e: seq<T>, n: nat, factor: int)
    requires factor > 0 && |e| == n * factor
    ensures |Downsample(e, factor)| == n
  {
    DownsampleLength(n, factor);
  }

  /** Taking every factor-th entry keeps a pointwise order. */
  lemma DownsampleLe(a: seq<int>, b: seq<int>, factor: int)
    requires factor > 0 && |a| == |b| && forall i :: 0 <= i < |a| ==> a[i] <= b[i]
    ensures |Downsample(a, factor)| == |Downsample(b, factor)|
    ensures forall j :: 0 <= j < |Downsample(a, factor)| ==> Downsample(a, factor)[j] <= Downsample(b, factor)[j]
  {
  }

  /** Entry t of the downsampled signal is entry t·factor of the signal. */
  lemma DownsampleAt<T>(e: seq<T>, factor: int, t: nat)
    requires factor > 0 && t * factor < |e|
    ensures t < |Downsample(e, factor)| && Downsample(e, factor)[t] == e[t * factor]
  {
    var a := |e| + factor - 1;
    var q := a / factor;
    assert a == q * factor + a % factor;
    if q <= t {
      MulMono(q + 1, t + 1, factor);
    }
  }

  /** Point t·factor of the upsampled signal is sample t. */
  lemma UpsampleAt(x: seq<real>, factor: int, t: nat, i: nat)
    requires factor > 0 && t < |x| && i == t * factor
    ensures i < |Upsample(x, factor).value| && Upsample(x, factor).value[i] == x[t]
  {
    MulMono(t + 1, |x|, factor);
    assert (t + 1) * factor == t * factor + factor;
    RealDivMul(t, factor);
    InterpAtSample(x, t);
  }

  /** j·f / f = j in exact arithmetic. */
  lemma RealDivMul(j: nat, f: int)
    requires f > 0
    ensures (j * f) as real / f as real == j as real
  {
    assert (j * f) as real == j as real * f as real;
  }

  /** Upsampling then taking every factor-th point gives the signal back. */
  lemma DownUp(x: seq<real>, factor: int)
    requires |x| > 0 && factor > 0
    ensures Downsample(Upsample(x, factor).value, factor) == x
  {
    var u := Upsample(x, factor).value;
    DownsampleLength(|x|, factor);
    var d := Downsample(u, factor);
    forall j | 0 <= j < |x|
      ensures d[j] == x[j]
    {
      RealDivMul(j, factor);
      InterpAtSample(x, j);
    }
  }

  /** As written, the second column of a two-sample signal is taken from
      halfway between the samples. */
  lemma UpsampleAsWrittenDrifts()
    ensures Downsample(UpsampleAsWritten([0.0, 10.0], 2).value, 2) == [0.0, 5.0]
  {
    var u := UpsampleAsWritten([0.0, 10.0], 2).value;
    assert u[0] == Interp([0.0, 10.0], 0.0) == 0.0;
    assert 2.0 * 1.0 / 4.0 == 0.5;
    assert (0.5).Floor == 0;
    assert u[2] == Interp([0.0, 10.0], 0.5) == 5.0;
    DownsampleLength(2, 2);
  }

  // ------------------------------------------------------------- envelopes

  /** Every row of the buffer has the same length, at least `n`. */
  predicate Rows(buf: seq<seq<int>>, n: nat) {
    |buf| > 0 && forall k :: 0 <= k < |buf| ==> |buf[k]| == n
  }

  /** buf.min(axis=0) at column i. */
  function MinAt(buf: seq<seq<int>>, n: nat, i: nat): (r: int)
    requires Rows(buf, n) && i < n
    ensures forall k :: 0 <= k < |buf| ==> r <= buf[k][i]
    ensures exists k :: 0 <= k < |buf| && r == buf[k][i]
  {
    if |buf| == 1 then buf[0][i]
    else
      var m := MinAt(buf[1..], n, i);
      assert forall k :: 1 <= k < |buf| ==> buf[1..][k - 1] == buf[k];
      if buf[0][i] <= m then buf[0][i] else m
  }

  /** buf.max(axis=0) at column i. */
  function MaxAt(buf: seq<seq<int>>, n: nat, i: nat): (r: int)
    requires Rows(buf, n) && i < n
    ensures forall k :: 0 <= k < |buf| ==> r >= buf[k][i]
    ensures exists k :: 0 <= k < |buf| && r == buf[k][i]
  {
    if |buf| == 1 then buf[0][i]
    else
      var m := MaxAt(buf[1..], n, i);
      assert forall k :: 1 <= k < |buf| ==> buf[1..][k - 1] == buf[k];
      if buf[0][i] >= m then buf[0][i] else m
  }

  /** Which helpers the mask is built with: `neg` and `_upsample` as the
      code has them, or with the two corrections (a zero shift leaves the
      signal alone; sample t is upsampled to point t·factor). */
  datatype Variant = AsWritten | Corrected

  /** The left shift of the chosen variant. */
  function NegShiftOf<T>(x: seq<T>, shift: int, v: Variant): (r: Result<seq<T>>)
    ensures r.Err? <==> |x| == 0
    ensures r.Ok? ==> |r.value| == |x|
  {
    if v == AsWritten then NegShiftAsWritten(x, shift) else NegShift(x, shift)
  }

  /** The upsampling of the chosen variant. */
  function UpsampleOf(x: seq<real>, factor: int, v: Variant): (r: Result<seq<real>>)
    ensures r.Err? <==> |x| == 0 || factor < 0
    ensures r.Ok? ==> |r.value| == |x| * factor
  {
    if v == AsWritten then UpsampleAsWritten(x, factor) else Upsample(x, factor)
  }

  /** The eight rows stacked by build_binary_mask: the upper and lower
      index rows shifted right and left, unshifted, and the signal's own
      index row shifted right and left. The right shifts are the same in
      both variants; every row keeps the signal's length. */
  function Buffer(plus: seq<int>, minus: seq<int>, idx: seq<int>, shift: int, v: Variant): (buf: seq<seq<int>>)
    requires |plus| > 0 && |minus| == |plus| && |idx| == |plus|
    ensures Rows(buf, |plus|) && |buf| == 8 && buf[4] == plus && buf[5] == minus
    ensures buf[0] == PosShift(plus, shift).value && buf[2] == PosShift(minus, shift).value
            && buf[6] == PosShift(idx, shift).value
    ensures buf[1] == NegShiftOf(plus, shift, v).value && buf[3] == NegShiftOf(minus, shift, v).value
            && buf[7] == NegShiftOf(idx, shift, v).value
  {
    [PosShift(plus, shift).value, NegShiftOf(plus, shift, v).value,
     PosShift(minus, shift).value, NegShiftOf(minus, shift, v).value,
     plus, minus,
     PosShift(idx, shift).value, NegShiftOf(idx, shift, v).value]
  }

  /** buf.min(axis=0) and buf.max(axis=0): per column, the least and the
      greatest entry of all rows, each attained by some row. */
  function Envelopes(buf: seq<seq<int>>, n: nat): (r: (seq<int>, seq<int>))
    requires Rows(buf, n)
    ensures |r.0| == n && |r.1| == n
    ensures forall k, i :: 0 <= k < |buf| && 0 <= i < n ==> r.0[i] <= buf[k][i] <= r.1[i]
    ensures forall i :: 0 <= i < n ==> exists k :: 0 <= k < |buf| && r.0[i] == buf[k][i]
    ensures forall i :: 0 <= i < n ==> exists k :: 0 <= k < |buf| && r.1[i] == buf[k][i]
  {
    (seq(n, i requires 0 <= i < n => MinAt(buf, n, i)), seq(n, i requires 0 <= i < n => MaxAt(buf, n, i)))
  }

  // ------------------------------------------------------------------ band

  /** `rows >= lower[:, None]` and `rows <= upper[:, None]`, transposed:
      one row per frequency bin from from_y up to to_y, one column per
      sample, true where the bin lies between the two envelopes. */
  function Band(lower: seq<int>, upper: seq<int>, fromY: int, toY: int): (r: seq<seq<bool>>)
    requires |lower| == |upper|
    ensures |r| == (if toY > fromY then toY - fromY else 0)
    ensures forall k :: 0 <= k < |r| ==> |r[k]| == |lower|
    ensures forall k, t :: 0 <= k < |r| && 0 <= t < |lower| ==>
              (r[k][t] <==> lower[t] <= fromY + k <= upper[t])
  {
    var m := if toY > fromY then toY - fromY else 0;
    seq(m, k requires 0 <= k < m =>
      seq(|lower|, t requires 0 <= t < |lower| => lower[t] <= fromY + k && fromY + k <= upper[t]))
  }

  // ------------------------------------------------------------ the mask

  /** MaskFactory. */
  datatype MaskFactory = MaskFactory(nTime: int, nFreq: int, freqMax: real, timeMax: real,
                                     timeWindow: real, freqWindow: real, factor: int)

  /** The signal cut to the slicer's time window: a full-length signal is
      sliced, one already of the window's width is kept. */
  function SlicedSignal(mf: MaskFactory, signal: seq<real>, s: Slicer.Slicer): (r: Result<seq<real>>)
    ensures |signal| != mf.nTime && |signal| != s.toX - s.fromX ==> r.Err?
    ensures |signal| == mf.nTime ==> (r.Ok? <==> |signal| == s.nX)
                                     && (r.Ok? ==> r.value == Slicer.XSlice(s, signal))
    ensures |signal| != mf.nTime && |signal| == s.toX - s.fromX ==> r == Ok(signal)
  {
    if |signal| == mf.nTime then
      var c := Slicer.Call(s, Some(Slicer.Vec(signal)), None, None);
      if c.Err? then Err(c.msg) else Ok(c.value.items)
    else if |signal| == s.toX - s.fromX then Ok(signal)
    else Err("The signal must have the same length as the slicer or the time axis.")
  }

  function AddAll(xs: seq<real>, d: real): (r: seq<real>)
    ensures |r| == |xs| && forall i :: 0 <= i < |xs| ==> r[i] == xs[i] + d
  {
    seq(|xs|, i requires 0 <= i < |xs| => xs[i] + d)
  }

  /** The conditions under which the envelope computation fails for a
      sliced signal of length n. */
  predicate ColumnsFail(mf: MaskFactory, n: nat) {
    n == 0 || mf.factor <= 0 || mf.nFreq == 0 || mf.freqMax == 0.0 || mf.nTime == 0 || mf.timeMax == 0.0
  }

  /** The intermediate rows of build_binary_mask: the upsampled signal,
      its bin row, the bin rows raised and lowered by half the frequency
      window, and the time shift in upsampled points. */
  datatype Stage = Stage(up: seq<real>, idx: seq<int>, plus: seq<int>, minus: seq<int>, shift: int)

  /** Non-empty rows of equal length. */
  predicate StageShape(st: Stage) {
    |st.up| > 0 && |st.idx| == |st.up| && |st.plus| == |st.up| && |st.minus| == |st.up|
  }

  /** The rows computed from a sliced signal. */
  function Rows3(mf: MaskFactory, v: seq<real>, variant: Variant): (r: Result<Stage>)
    ensures r.Err? <==> ColumnsFail(mf, |v|)
    ensures r.Ok? ==> StageShape(r.value) && r.value.up == UpsampleOf(v, mf.factor, variant).value
                      && |r.value.up| == |v| * mf.factor
                      && r.value.shift == Util.ConvertToIdx(mf.timeWindow / 2.0, mf.timeMax, mf.nTime).value * mf.factor
  {
    var up := UpsampleOf(v, mf.factor, variant);
    if up.Err? then Err(up.msg)
    else
      var idx := Util.ConvertAllToIdx(up.value, mf.freqMax, mf.nFreq);
      if idx.Err? then Err(idx.msg)
      else
        // the shifted rows have the same length, so they convert alike
        var plus := Util.ConvertAllToIdx(AddAll(up.value, mf.freqWindow / 2.0), mf.freqMax, mf.nFreq).value;
        var minus := Util.ConvertAllToIdx(AddAll(up.value, -(mf.freqWindow / 2.0)), mf.freqMax, mf.nFreq).value;
        var shift := Util.ConvertToIdx(mf.timeWindow / 2.0, mf.timeMax, mf.nTime);
        if shift.Err? then Err(shift.msg)
        else if |up.value| == 0 then Err("index 0 is out of bounds")
        else Ok(Stage(up.value, idx.value, plus, minus, shift.value * mf.factor))
  }

  /** Entry i of the three bin rows is the bin of the upsampled value,
      raised and lowered by half the frequency window. */
  lemma Rows3Bins(mf: MaskFactory, v: seq<real>, variant: Variant, i: nat)
    requires Rows3(mf, v, variant).Ok? && i < |Rows3(mf, v, variant).value.up|
    ensures var st := Rows3(mf, v, variant).value;
            Util.ConvertToIdx(st.up[i], mf.freqMax, mf.nFreq) == Ok(st.idx[i])
            && Util.ConvertToIdx(st.up[i] + mf.freqWindow / 2.0, mf.freqMax, mf.nFreq) == Ok(st.plus[i])
            && Util.ConvertToIdx(st.up[i] + -(mf.freqWindow / 2.0), mf.freqMax, mf.nFreq) == Ok(st.minus[i])
  {
  }

  /** Lowering a value by half a non-negative window never raises its
      bin, raising it never lowers it. */
  lemma RowsOrdered(mf: MaskFactory, v: seq<real>, variant: Variant, i: nat)
    requires mf.freqWindow >= 0.0 && mf.freqMax > 0.0 && mf.nFreq > 0
    requires Rows3(mf, v, variant).Ok? && i < |Rows3(mf, v, variant).value.up|
    ensures var st := Rows3(mf, v, variant).value;
            st.minus[i] <= st.idx[i] <= st.plus[i]
            && Util.ConvertToIdx(st.up[i], mf.freqMax, mf.nFreq) == Ok(st.idx[i])
  {
    var st := Rows3(mf, v, variant).value;
    var w := mf.freqWindow / 2.0;
    Rows3Bins(mf, v, variant, i);
    Util.ConvertMonotone(st.up[i] + -w, st.up[i], mf.freqMax, mf.nFreq);
    Util.ConvertMonotone(st.up[i], st.up[i] + w, mf.freqMax, mf.nFreq);
  }

  /** The envelopes taken back to one column per sample: n columns from
      n·factor upsampled points, the lower bound never above the upper. */
  function Columns(st: Stage, n: nat, factor: int, variant: Variant): (r: (seq<int>, seq<int>))
    requires StageShape(st) && factor > 0 && |st.up| == n * factor
    ensures |r.0| == n && |r.1| == n
    ensures forall t :: 0 <= t < n ==> r.0[t] <= r.1[t]
  {
    var buf := Buffer(st.plus, st.minus, st.idx, st.shift, variant);
    var env := Envelopes(buf, |st.up|);
    assert forall i :: 0 <= i < |st.up| ==> env.0[i] <= buf[0][i] <= env.1[i];
    DownsampleOf(env.0, n, factor);
    DownsampleOf(env.1, n, factor);
    DownsampleLe(env.0, env.1, factor);
    (Downsample(env.0, factor), Downsample(env.1, factor))
  }

  /** Column t is taken at upsampled point t·factor: its bounds are the
      least and the greatest of the eight rows there. In particular the
      lower bound lies below the lowered row, the upper bound above the
      raised row. */
  lemma ColumnAt(st: Stage, n: nat, factor: int, variant: Variant, t: nat, i: nat)
    requires StageShape(st) && factor > 0 && |st.up| == n * factor && t < n && i == t * factor
    ensures i < |st.up|
    ensures var c, buf := Columns(st, n, factor, variant), Buffer(st.plus, st.minus, st.idx, st.shift, variant);
            (forall k :: 0 <= k < 8 ==> c.0[t] <= buf[k][i] <= c.1[t])
            && (exists k :: 0 <= k < 8 && c.0[t] == buf[k][i])
            && (exists k :: 0 <= k < 8 && c.1[t] == buf[k][i])
    ensures Columns(st, n, factor, variant).0[t] <= st.minus[i]
            && st.plus[i] <= Columns(st, n, factor, variant).1[t]
  {
    MulBelow(t, n, factor);
    var buf := Buffer(st.plus, st.minus, st.idx, st.shift, variant);
    var env := Envelopes(buf, |st.up|);
    assert env.0[i] <= buf[5][i] && buf[4][i] <= env.1[i];
    DownsampleAt(env.0, factor, t);
    DownsampleAt(env.1, factor, t);
  }

  /** build_binary_mask with the helpers of the given variant. */
  function MaskOf(mf: MaskFactory, signal: seq<real>, s: Slicer.Slicer, variant: Variant): (r: Result<seq<seq<bool>>>)
    ensures SlicedSignal(mf, signal, s).Err? ==> r.Err?
    ensures SlicedSignal(mf, signal, s).Ok? ==>
              (r.Err? <==> ColumnsFail(mf, |SlicedSignal(mf, signal, s).value|))
    ensures r.Ok? ==> |r.value| == (if s.toY > s.fromY then s.toY - s.fromY else 0)
                      && forall k :: 0 <= k < |r.value| ==> |r.value[k]| == |SlicedSignal(mf, signal, s).value|
    ensures r.Ok? ==> var v := SlicedSignal(mf, signal, s).value;
                      var c := Columns(Rows3(mf, v, variant).value, |v|, mf.factor, variant);
                      forall k, t :: 0 <= k < |r.value| && 0 <= t < |v| ==>
                        (r.value[k][t] <==> c.0[t] <= s.fromY + k <= c.1[t])
  {
    var v := SlicedSignal(mf, signal, s);
    if v.Err? then Err(v.msg)
    else
      var st := Rows3(mf, v.value, variant);
      if st.Err? then Err(st.msg)
      else
        var c := Columns(st.value, |v.value|, mf.factor, variant);
        Ok(Band(c.0, c.1, s.fromY, s.toY))
  }

  /** build_binary_mask as written. */
  function BuildBinaryMask(mf: MaskFactory, signal: seq<real>, s: Slicer.Slicer): (r: Result<seq<seq<bool>>>)
    ensures SlicedSignal(mf, signal, s).Err? ==> r.Err?
    ensures SlicedSignal(mf, signal, s).Ok? ==>
              (r.Err? <==> ColumnsFail(mf, |SlicedSignal(mf, signal, s).value|))
    ensures r.Ok? ==> |r.value| == (if s.toY > s.fromY then s.toY - s.fromY else 0)
                      && forall k :: 0 <= k < |r.value| ==> |r.value[k]| == |SlicedSignal(mf, signal, s).value|
    ensures r.Ok? ==> var v := SlicedSignal(mf, signal, s).value;
                      var c := Columns(Rows3(mf, v, AsWritten).value, |v|, mf.factor, AsWritten);
                      forall k, t :: 0 <= k < |r.value| && 0 <= t < |v| ==>
                        (r.value[k][t] <==> c.0[t] <= s.fromY + k <= c.1[t])
  {
    MaskOf(mf, signal, s, AsWritten)
  }

  /** build_binary_mask with the corrected `neg` and `_upsample`. */
  function BuildBinaryMaskCorrected(mf: MaskFactory, signal: seq<real>, s: Slicer.Slicer): (r: Result<seq<seq<bool>>>)
    ensures SlicedSignal(mf, signal, s).Err? ==> r.Err?
    ensures SlicedSignal(mf, signal, s).Ok? ==>
              (r.Err? <==> ColumnsFail(mf, |SlicedSignal(mf, signal, s).value|))
    ensures r.Ok? ==> |r.value| == (if s.toY > s.fromY then s.toY - s.fromY else 0)
                      && forall k :: 0 <= k < |r.value| ==> |r.value[k]| == |SlicedSignal(mf, signal, s).value|
    ensures r.Ok? ==> var v := SlicedSignal(mf, signal, s).value;
                      var c := Columns(Rows3(mf, v, Corrected).value, |v|, mf.factor, Corrected);
                      forall k, t :: 0 <= k < |r.value| && 0 <= t < |v| ==>
                        (r.value[k][t] <==> c.0[t] <= s.fromY + k <= c.1[t])
  {
    MaskOf(mf, signal, s, Corrected)
  }

  /** The corrections change which entries are set, never whether the mask
      exists or its shape. */
  lemma CorrectedLikeAsWritten(mf: MaskFactory, signal: seq<real>, s: Slicer.Slicer)
    ensures BuildBinaryMaskCorrected(mf, signal, s).Err? <==> BuildBinaryMask(mf, signal, s).Err?
    ensures BuildBinaryMaskCorrected(mf, signal, s).Ok? ==>
              var c, w := BuildBinaryMaskCorrected(mf, signal, s).value, BuildBinaryMask(mf, signal, s).value;
              |c| == |w| && forall k :: 0 <= k < |c| ==> |c[k]| == |w[k]|
  {
  }

  /** The as-written upsampling of [0, 10] by 2. */
  lemma UpsampleAsWrittenExample()
    ensures UpsampleAsWritten([0.0, 10.0], 2) == Ok([0.0, 2.5, 5.0, 7.5])
  {
    var v := [0.0, 10.0];
    var u := UpsampleAsWritten(v, 2).value;
    assert u[0] == Interp(v, 0.0 * 1.0 / 4.0) == 0.0;
    assert u[1] == Interp(v, 1.0 * 1.0 / 4.0) == 2.5;
    assert u[2] == Interp(v, 2.0 * 1.0 / 4.0) == 5.0;
    assert u[3] == Interp(v, 3.0 * 1.0 / 4.0) == 7.5;
    assert u == [0.0, 2.5, 5.0, 7.5];
  }

  /** The stage of the as-written mask for that example: the time shift is
      0, and points 2 and 3 lie in bins 5 and 7 (no frequency window). */
  lemma AsWrittenStageExample()
    ensures var mf, v := MaskFactory(2, 10, 10.0, 2.0, 0.0, 0.0, 2), [0.0, 10.0];
            Rows3(mf, v, AsWritten).Ok?
            && var st := Rows3(mf, v, AsWritten).value;
               |st.up| == 4 && st.shift == 0
               && st.idx[2] == st.plus[2] == st.minus[2] == 5
               && st.idx[3] == st.plus[3] == st.minus[3] == 7
  {
    var mf, v := MaskFactory(2, 10, 10.0, 2.0, 0.0, 0.0, 2), [0.0, 10.0];
    UpsampleAsWrittenExample();
    var st := Rows3(mf, v, AsWritten).value;
    assert Util.ConvertToIdx(0.0 / 2.0, 2.0, 2) == Ok(0);
    assert st.up[2] == 5.0 && st.up[3] == 7.5;
    Rows3Bins(mf, v, AsWritten, 2);
    Rows3Bins(mf, v, AsWritten, 3);
    assert (5.0 / (10.0 / 10 as real)).Floor == 5;
    assert (7.5 / (10.0 / 10 as real)).Floor == 7;
  }

  /** With shift 0 the second of two as-written columns (upsampled by 2)
      spans from the bin of point 2 to the last bin of the signal. */
  lemma AsWrittenSecondColumn(st: Stage)
    requires StageShape(st) && |st.up| == 4 && st.shift == 0
    requires st.idx[2] == st.plus[2] == st.minus[2] == 5
    requires st.idx[3] == st.plus[3] == st.minus[3] == 7
    ensures Columns(st, 2, 2, AsWritten).0[1] == 5 && Columns(st, 2, 2, AsWritten).1[1] == 7
  {
    var buf := Buffer(st.plus, st.minus, st.idx, st.shift, AsWritten);
    ModSmall(2, 4);
    NegShiftAsWrittenZero(st.plus);
    NegShiftAsWrittenZero(st.minus);
    NegShiftAsWrittenZero(st.idx);
    assert buf[0][2] == 5 && buf[2][2] == 5 && buf[6][2] == 5 && buf[4][2] == 5 && buf[5][2] == 5;
    assert buf[1][2] == 7 && buf[3][2] == 7 && buf[7][2] == 7;
    ColumnAt(st, 2, 2, AsWritten, 1, 2);
  }

  /** As written, the mask can miss the signal: for the samples [0, 10],
      ten bins up to 10, no windows and an upsampling factor of 2, the
      second column spans bins 5 to 7 while the sample lies in bin 10. */
  lemma AsWrittenColumnMissesSignal()
    ensures var mf, v := MaskFactory(2, 10, 10.0, 2.0, 0.0, 0.0, 2), [0.0, 10.0];
            Rows3(mf, v, AsWritten).Ok?
            && var c := Columns(Rows3(mf, v, AsWritten).value, 2, 2, AsWritten);
               c.0[1] == 5 && c.1[1] == 7 && Util.ConvertToIdx(v[1], mf.freqMax, mf.nFreq) == Ok(10)
  {
    var mf, v := MaskFactory(2, 10, 10.0, 2.0, 0.0, 0.0, 2), [0.0, 10.0];
    AsWrittenStageExample();
    var st := Rows3(mf, v, AsWritten).value;
    assert StageShape(st) && |st.up| == 4 && st.shift == 0;
    assert st.idx[2] == st.plus[2] == st.minus[2] == 5;
    assert st.idx[3] == st.plus[3] == st.minus[3] == 7;
    AsWrittenSecondColumn(st);
    BinOfTen();
  }

  /** With ten bins up to 10 the bin width is 1, so 10 lies in bin 10. */
  lemma BinOfTen()
    ensures Util.ConvertToIdx(10.0, 10.0, 10) == Ok(10)
  {
    assert 10 as real == 10.0;
    assert 10.0 / 10.0 == 1.0;
    assert 10.0 / 1.0 == 10.0;
  }

  /** With the corrections, a non-negative frequency window, positive bin
      counts and maxima, the envelopes of every column enclose the bin of
      the sample itself. */
  lemma ColumnsCoverSignal(mf: MaskFactory, v: seq<real>, t: nat)
    requires mf.freqWindow >= 0.0 && mf.freqMax > 0.0 && mf.nFreq > 0 && Rows3(mf, v, Corrected).Ok? && t < |v|
    ensures var c := Columns(Rows3(mf, v, Corrected).value, |v|, mf.factor, Corrected);
            var b := Util.ConvertToIdx(v[t], mf.freqMax, mf.nFreq).value;
            c.0[t] <= b <= c.1[t]
  {
    var st := Rows3(mf, v, Corrected).value;
    var i := t * mf.factor;
    ColumnAt(st, |v|, mf.factor, Corrected, t, i);
    UpsampleAt(v, mf.factor, t, i);
    RowsOrdered(mf, v, Corrected, i);
  }

  /** With the corrections, the mask marks the bin of the signal itself in
      every column, when that bin lies inside the slicer's frequency
      window. */
  lemma MaskCoversSignal(mf: MaskFactory, signal: seq<real>, s: Slicer.Slicer, k: nat, t: nat)
    requires mf.freqWindow >= 0.0 && mf.freqMax > 0.0 && mf.nFreq > 0
    requires BuildBinaryMaskCorrected(mf, signal, s).Ok?
    requires t < |SlicedSignal(mf, signal, s).value| && k < |BuildBinaryMaskCorrected(mf, signal, s).value|
    requires s.fromY + k == Util.ConvertToIdx(SlicedSignal(mf, signal, s).value[t], mf.freqMax, mf.nFreq).value
    ensures BuildBinaryMaskCorrected(mf, signal, s).value[k][t]
  {
    ColumnsCoverSignal(mf, SlicedSignal(mf, signal, s).value, t);
  }
}

=== FILE: movementmanager.dfy ===
/** The expected timeline of a G-code program: the ordered list of
    movements and pauses, their start times, and the lookups on it
    (gcanalyser/movementmanager.py). How long one movement takes is decided
    elsewhere and enters here as an opaque function. */
module MovementManager {
  import opened Wrappers
  import opened Axes
  import opened CncParameter
  import opened CncStatus

  /** One entry of the timeline. `kind` is the movement type of the status
      (0 to 3), or −1 for the initial entry and for pauses. */
  datatype Movement = Movement(
    line: int,
    kind: int,
    startLinear: LinearAxes, endLinear: LinearAxes,
    startRotation: RotationAxes, endRotation: RotationAxes,
    arc: Option<ArcInformation>,
    feedRate: real,
    time: real,       // ms
    startTime: real,  // ms
    exactStop: bool)

  datatype Manager = Manager(
    params: Params,
    movements: seq<Movement>,
    endReached: bool,
    totalTime: real)

  /** Every manager holds at least the initial entry. */
  predicate Valid(m: Manager) {
    |m.movements| > 0
  }

  function Last(m: Manager): Movement
    requires Valid(m)
  {
    m.movements[|m.movements| - 1]
  }

  /** The manager of a new program: one zero-length entry for line −1 at
      the position of the first status. */
  function NewManager(params: Params, first: Status): (m: Manager)
    ensures Valid(m) && |m.movements| == 1 && !m.endReached
    ensures var e := m.movements[0];
            e.line == -1 && e.kind == -1 && e.time == 0.0
            && e.startLinear == e.endLinear == first.position
            && e.startRotation == e.endRotation == first.rotation
  {
    Manager(params,
            [Movement(-1, -1, first.position, first.position, first.rotation, first.rotation,
                      None, 0.0, 0.0, 0.0, false)],
            false, 0.0)
  }

  /** The movement a line makes from the status before it to the status
      after it. */
  function MovementOf(line: int, last: Status, cur: Status, arc: Option<ArcInformation>): Movement {
    Movement(line, cur.movementType, last.position, cur.position, last.rotation, cur.rotation,
             arc, cur.feedRate, 0.0, 0.0, cur.exactStop)
  }

  /** add_linear_movement: after the end of the program nothing is added;
      otherwise exactly one movement from the last-line position to the
      current one, at the current feed rate, with exact stop iff the
      current status asks for it. */
  function AddLinear(m: Manager, line: int, last: Status, cur: Status): (r: Manager)
    requires Valid(m)
    ensures Valid(r)
    ensures m.endReached ==> r == m
    ensures !m.endReached ==> |r.movements| == |m.movements| + 1 && r == m.(movements := m.movements + [Last(r)])
    ensures !m.endReached ==> var e := Last(r);
              e.line == line && e.startLinear == last.position && e.endLinear == cur.position
              && e.startRotation == last.rotation && e.endRotation == cur.rotation
              && e.feedRate == cur.feedRate && e.exactStop == cur.exactStop && e.arc.None?
  {
    if m.endReached then m
    else m.(movements := m.movements + [MovementOf(line, last, cur, None)])
  }

  /** add_arc_movement: as a linear movement, with the arc data of the
      current status. */
  function AddArc(m: Manager, line: int, last: Status, cur: Status): (r: Manager)
    requires Valid(m)
    ensures Valid(r)
    ensures m.endReached ==> r == m
    ensures !m.endReached ==> |r.movements| == |m.movements| + 1 && r == m.(movements := m.movements + [Last(r)])
    ensures !m.endReached ==> var e := Last(r);
              e.line == line && e.startLinear == last.position && e.endLinear == cur.position
              && e.startRotation == last.rotation && e.endRotation == cur.rotation
              && e.feedRate == cur.feedRate && e.exactStop == cur.exactStop && e.arc == Some(cur.arc)
  {
    if m.endReached then m
    else m.(movements := m.movements + [MovementOf(line, last, cur, Some(cur.arc))])
  }

  /** The pause duration: −1 stands for an unknown pause of 10 s. */
  function PauseTime(time: real): real {
    if time == -1.0 then 10000.0 else time
  }

  /** add_pause as written: the pause's start rotation is taken from the
      previous movement's end LINEAR position. */
  function AddPauseAsWritten(m: Manager, line: int, time: real): (r: Manager)
    requires Valid(m)
    ensures Valid(r) && |r.movements| == |m.movements| + 1
    ensures var p := Last(r); var e := Last(m);
            p.startRotation == RotationAxes(e.endLinear.x, e.endLinear.y, e.endLinear.z)
            && p.endRotation == e.endRotation
  {
    var e := Last(m);
    var n := |m.movements|;
    var pause := Movement(line, -1, e.endLinear, e.endLinear,
                          RotationAxes(e.endLinear.x, e.endLinear.y, e.endLinear.z), e.endRotation,
                          None, 0.0, PauseTime(time), 0.0, false);
    m.(movements := m.movements[..n - 1] + [e.(exactStop := true)] + [pause])
  }

  /** A pause after a movement that ends at X=Y=Z=100 with no rotation
      "starts" at rotation (100, 100, 100) but ends at (0, 0, 0), although
      the machine does not move during a pause. */
  lemma PauseAsWrittenMovesRotation()
    ensures var e := Movement(0, 1, Origin, LinearAxes(100.0, 100.0, 100.0), NoRotation, NoRotation,
                              None, 0.0, 0.0, 0.0, false);
            var p := Last(AddPauseAsWritten(Manager(Defaults(), [e], false, 0.0), 1, 500.0));
            p.startRotation != p.endRotation
  {
  }

  /** add_pause: the previous last movement gets an exact stop, and one
      stationary entry (start = end = previous end, feed 0) with the pause
      time is appended. It is added even after the end of the program. */
  function AddPause(m: Manager, line: int, time: real): (r: Manager)
    requires Valid(m)
    ensures Valid(r) && |r.movements| == |m.movements| + 1
    ensures r.params == m.params && r.endReached == m.endReached && r.totalTime == m.totalTime
    ensures forall k :: 0 <= k < |m.movements| - 1 ==> r.movements[k] == m.movements[k]
    ensures r.movements[|m.movements| - 1] == Last(m).(exactStop := true)
    ensures var p := Last(r); var e := Last(m);
            p.line == line && p.kind == -1 && p.feedRate == 0.0 && p.time == PauseTime(time)
            && p.startLinear == p.endLinear == e.endLinear
            && p.startRotation == p.endRotation == e.endRotation
  {
    var e := Last(m);
    var n := |m.movements|;
    var pause := Movement(line, -1, e.endLinear, e.endLinear, e.endRotation, e.endRotation,
                          None, 0.0, PauseTime(time), 0.0, false);
    m.(movements := m.movements[..n - 1] + [e.(exactStop := true)] + [pause])
  }

  /** add_tool_change: nothing after the end of the program; otherwise a
      rapid move at F_MAX with exact stop from the previous end to the
      tool-change position, then a pause of TOOL_CHANGE_TIME there. */
  function AddToolChange(m: Manager, line: int): (r: Manager)
    requires Valid(m)
    ensures Valid(r)
    ensures m.endReached ==> r == m
    ensures !m.endReached ==> |r.movements| == |m.movements| + 2
    ensures !m.endReached ==> r.movements[..|m.movements|] == m.movements
    ensures !m.endReached ==> var go := r.movements[|m.movements|]; var wait := Last(r);
              go.line == line && go.kind == 0 && go.feedRate == m.params.fMax && go.exactStop
              && go.startLinear == Last(m).endLinear && go.endLinear == m.params.toolChangeLinear
              && go.startRotation == go.endRotation == Last(m).endRotation
              && wait.line == line && wait.kind == -1 && wait.time == PauseTime(m.params.toolChangeTime)
              && wait.startLinear == wait.endLinear == m.params.toolChangeLinear
              && wait.startRotation == wait.endRotation == Last(m).endRotation && wait.feedRate == 0.0
    ensures r.params == m.params && r.totalTime == m.totalTime && r.endReached == m.endReached
  {
    if m.endReached then m
    else
      var e := Last(m);
      var go := Movement(line, 0, e.endLinear, m.params.toolChangeLinear, e.endRotation, e.endRotation,
                         None, m.params.fMax, 0.0, 0.0, true);
      var m1 := m.(movements := m.movements + [go]);
      var r := AddPause(m1, line, m.params.toolChangeTime);
      assert r.movements[..|m.movements|] == m.movements by {
        forall k | 0 <= k < |m.movements| ensures r.movements[k] == m.movements[k] {
          assert m1.movements[k] == m.movements[k];
        }
      }
      r
  }

  /** add_end_of_program: the end flag is set and a pause of 0 ms closes
      the timeline. */
  function AddEndOfProgram(m: Manager, line: int): (r: Manager)
    requires Valid(m)
    ensures Valid(r) && r.endReached
    ensures r.params == m.params && r.totalTime == m.totalTime
    ensures |r.movements| == |m.movements| + 1
    ensures forall k :: 0 <= k < |m.movements| - 1 ==> r.movements[k] == m.movements[k]
    ensures r.movements[|m.movements| - 1] == Last(m).(exactStop := true)
    ensures var p := Last(r); var e := Last(m);
            p.line == line && p.kind == -1 && p.feedRate == 0.0 && p.time == 0.0
            && p.startLinear == p.endLinear == e.endLinear
            && p.startRotation == p.endRotation == e.endRotation
    ensures r == AddPause(m, line, 0.0).(endReached := true)
  {
    AddPause(m.(endReached := true), line, 0.0)
  }

  /** Once the end of the program is reached, linear, arc and tool-change
      additions leave the manager unchanged, and it stays ended. */
  lemma EndedManagerIgnoresMoves(m: Manager, line: int, l2: int, last: Status, cur: Status)
    requires Valid(m)
    ensures var e := AddEndOfProgram(m, line);
            AddLinear(e, l2, last, cur) == e && AddArc(e, l2, last, cur) == e && AddToolChange(e, l2) == e
  {
  }

  /** Program lines appear in the timeline in non-decreasing order, as they
      do when lines are interpreted one after the other. */
  predicate LinesSorted(ms: seq<Movement>) {
    forall i, j :: 0 <= i < j < |ms| ==> ms[i].line <= ms[j].line
  }

  /** Reference: the total time of all entries of `line`. */
  function SumLine(ms: seq<Movement>, line: int): real {
    if |ms| == 0 then 0.0
    else SumLine(ms[..|ms| - 1], line) + (if ms[|ms| - 1].line == line then ms[|ms| - 1].time else 0.0)
  }

  /** get_expected_time_of_gcode_line: walks the timeline backwards, adds the
      times of the entries of `line` and stops at the first entry of an
      earlier line. */
  function ExpectedTime(ms: seq<Movement>, line: int): (t: real)
    ensures |ms| > 0 && ms[|ms| - 1].line < line ==> t == 0.0
  {
    if |ms| == 0 then 0.0
    else
      var e := ms[|ms| - 1];
      if e.line < line then 0.0
      else ExpectedTime(ms[..|ms| - 1], line) + (if e.line == line then e.time else 0.0)
  }

  lemma {:induction false} SumLineOfEarlier(ms: seq<Movement>, line: int)
    requires forall i :: 0 <= i < |ms| ==> ms[i].line < line
    ensures SumLine(ms, line) == 0.0
  {
    if |ms| > 0 {
      SumLineOfEarlier(ms[..|ms| - 1], line);
    }
  }

  /** On a sorted timeline the early stop loses nothing: the expected time
      of a line is the total time of all its entries. */
  lemma {:induction false} ExpectedTimeIsSumLine(ms: seq<Movement>, line: int)
    requires LinesSorted(ms)
    ensures ExpectedTime(ms, line) == SumLine(ms, line)
  {
    if |ms| > 0 {
      var p := ms[..|ms| - 1];
      assert LinesSorted(p);
      if ms[|ms| - 1].line < line {
        SumLineOfEarlier(p, line);
      } else {
        ExpectedTimeIsSumLine(p, line);
      }
    }
  }

  /** get_indices_of_movements_for_gcode_line: the indices of the entries of
      `line`, last first, collected by the same backward walk. */
  function Indices(ms: seq<Movement>, line: int): (r: seq<nat>)
    ensures forall k :: 0 <= k < |r| ==> r[k] < |ms| && ms[r[k]].line == line
    ensures forall k :: 0 < k < |r| ==> r[k] < r[k - 1]
  {
    if |ms| == 0 then []
    else
      var e := ms[|ms| - 1];
      if e.line < line then []
      else (if e.line == line then [|ms| - 1] else []) + Indices(ms[..|ms| - 1], line)
  }

  /** On a sorted timeline every entry of `line` is found. */
  lemma {:induction false} IndicesComplete(ms: seq<Movement>, line: int)
    requires LinesSorted(ms)
    ensures forall i :: 0 <= i < |ms| && ms[i].line == line ==> i in Indices(ms, line)
  {
    if |ms| > 0 {
      var p := ms[..|ms| - 1];
      assert LinesSorted(p);
      IndicesComplete(p, line);
      forall i | 0 <= i < |ms| && ms[i].line == line
        ensures i in Indices(ms, line)
      {
        if i < |ms| - 1 {
          assert p[i] == ms[i];
          assert i in Indices(p, line);
        }
      }
    }
  }

  /** The start times are running sums of the times, from 0. */
  predicate Timed(ms: seq<Movement>) {
    (|ms| > 0 ==> ms[0].startTime == 0.0)
    && forall k :: 0 < k < |ms| ==> ms[k].startTime == ms[k - 1].startTime + ms[k - 1].time
  }

  function SumTimes(ms: seq<Movement>): real {
    if |ms| == 0 then 0.0 else SumTimes(ms[..|ms| - 1]) + ms[|ms| - 1].time
  }

  /** all_lines_analysed: gives every entry its expected time (`duration`
      stands for the movement's own time computation), its start time as the
      sum of all earlier times, and the manager the total time. */
  method AllLinesAnalysed(m: Manager, duration: Movement -> real) returns (r: Manager)
    requires Valid(m)
    ensures Valid(r) && |r.movements| == |m.movements|
    ensures r.params == m.params && r.endReached == m.endReached
    ensures forall k :: 0 <= k < |m.movements| ==>
              r.movements[k] == m.movements[k].(time := duration(m.movements[k]),
                                                 startTime := r.movements[k].startTime)
    ensures forall k :: 0 <= k < |m.movements| ==> r.movements[k].startTime == SumTimes(r.movements[..k])
    ensures Timed(r.movements)
    ensures r.totalTime == SumTimes(r.movements)
  {
    var out: seq<Movement> := [];
    var time := 0.0;
    var i := 0;
    while i < |m.movements|
      invariant 0 <= i <= |m.movements| && |out| == i
      invariant forall k :: 0 <= k < i ==>
                  out[k] == m.movements[k].(time := duration(m.movements[k]), startTime := out[k].startTime)
      invariant forall k :: 0 <= k < i ==> out[k].startTime == SumTimes(out[..k])
      invariant time == SumTimes(out)
    {
      var e := m.movements[i].(time := duration(m.movements[i]), startTime := time);
      var next := out + [e];
      assert next[..i] == out;
      assert forall k :: 0 <= k < i ==> next[..k] == out[..k];
      out := next;
      time := time + e.time;
      i := i + 1;
    }
    assert out[..|out|] == out;
    forall k | 0 < k < |out|
      ensures out[k].startTime == out[k - 1].startTime + out[k - 1].time
    {
      assert out[..k][..k - 1] == out[..k - 1];
    }
    r := m.(movements := out, totalTime := time);
  }

  /** What the tool does at one moment: the program line, the movement type
      and how far into the movement the moment lies. */
  datatype ToolPathInfo = ToolPathInfo(line: int, kind: int, timeInMovement: real)

  predicate Covers(e: Movement, t: real) {
    e.startTime <= t < e.startTime + e.time
  }

  /** The first entry at or after `from` whose time window holds `t`. */
  function FirstCovering(ms: seq<Movement>, t: real, from: nat): (r: Option<nat>)
    requires from <= |ms|
    ensures r.None? <==> forall k :: from <= k < |ms| ==> !Covers(ms[k], t)
    ensures r.Some? ==> from <= r.value < |ms| && Covers(ms[r.value], t)
                        && forall k :: from <= k < r.value ==> !Covers(ms[k], t)
    decreases |ms| - from
  {
    if from == |ms| then None
    else if Covers(ms[from], t) then Some(from)
    else FirstCovering(ms, t, from + 1)
  }

  /** get_tool_path_information: the first entry whose window holds the
      moment; an error when there is none. */
  function ToolPathInformation(ms: seq<Movement>, t: real): (r: Result<ToolPathInfo>)
    ensures r.Err? <==> forall k :: 0 <= k < |ms| ==> !Covers(ms[k], t)
    ensures r.Ok? ==> exists k :: 0 <= k < |ms| && Covers(ms[k], t)
                       && (forall j :: 0 <= j < k ==> !Covers(ms[j], t))
                       && r.value == ToolPathInfo(ms[k].line, ms[k].kind, t - ms[k].startTime)
    ensures r.Ok? ==> r.value.timeInMovement >= 0.0
  {
    var f := FirstCovering(ms, t, 0);
    if f.None? then Err("No movement found for this time.")
    else
      var e := ms[f.value];
      if t - e.startTime < 0.0 then Err("Current time is negative.")
      else Ok(ToolPathInfo(e.line, e.kind, t - e.startTime))
  }

  /** On a timed timeline with non-negative times, every moment before the
      end of entry `j` is covered by some entry up to `j`. */
  lemma {:induction false} CoveredUpTo(ms: seq<Movement>, t: real, j: nat)
    requires Timed(ms) && j < |ms|
    requires forall k :: 0 <= k < |ms| ==> ms[k].time >= 0.0
    requires 0.0 <= t < ms[j].startTime + ms[j].time
    ensures exists k :: 0 <= k <= j && Covers(ms[k], t)
  {
    if t < ms[j].startTime {
      assert j > 0;
      CoveredUpTo(ms, t, j - 1);
    } else {
      assert Covers(ms[j], t);
    }
  }

  /** After all lines are analysed (with non-negative times), every moment
      from 0 up to the total time has tool-path information. */
  lemma ToolPathDefinedUntilTotal(ms: seq<Movement>, t: real)
    requires Timed(ms) && |ms| > 0
    requires forall k :: 0 <= k < |ms| ==> ms[k].time >= 0.0
    requires 0.0 <= t < ms[|ms| - 1].startTime + ms[|ms| - 1].time
    ensures ToolPathInformation(ms, t).Ok?
  {
    CoveredUpTo(ms, t, |ms| - 1);
  }

  /** The program line tracked before entry `k` of get_time_stamps: 0 at the
      start, since entry 0 is skipped, then the line of the entry before. */
  function TrackedLine(ms: seq<Movement>, k: nat): int
    requires k <= |ms|
  {
    if k <= 1 then 0 else ms[k - 1].line
  }

  /** Reference: the pairs [line, start time] of the entries 1 .. k−1 whose
      line differs from the line tracked before them. */
  function ChangePoints(ms: seq<Movement>, k: nat): (r: seq<(int, real)>)
    requires k <= |ms|
    ensures forall p :: p in r ==> exists i :: 1 <= i < k && p == (ms[i].line, ms[i].startTime)
  {
    if k <= 1 then []
    else ChangePoints(ms, k - 1)
         + (if ms[k - 1].line != TrackedLine(ms, k - 1) then [(ms[k - 1].line, ms[k - 1].startTime)] else [])
  }

  /** get_time_stamps: the line and start time of every entry that begins a
      new program line, skipping entry 0 and line 0 at the start. */
  method TimeStamps(ms: seq<Movement>) returns (stamps: seq<(int, real)>)
    ensures stamps == ChangePoints(ms, |ms|)
  {
    stamps := [];
    var line := 0;
    var index := 0;
    while index < |ms|
      invariant 0 <= index <= |ms|
      invariant line == TrackedLine(ms, index)
      invariant index > 0 ==> stamps == ChangePoints(ms, index)
      invariant index == 0 ==> stamps == []
    {
      if index > 0 {
        var newLine := ms[index].line;
        if newLine != line {
          line := newLine;
          stamps := stamps + [(line, ms[index].startTime)];
        }
      }
      index := index + 1;
    }
  }

  /** Consecutive time stamps belong to different program lines. */
  lemma {:induction false} ChangePointsAlternate(ms: seq<Movement>, k: nat)
    requires k <= |ms|
    ensures var r := ChangePoints(ms, k);
            forall i :: 0 < i < |r| ==> r[i].0 != r[i - 1].0
    ensures var r := ChangePoints(ms, k);
            |r| > 0 ==> r[|r| - 1].0 == TrackedLine(ms, k)
  {
    if k > 1 {
      ChangePointsAlternate(ms, k - 1);
    }
  }
}

=== FILE: numericalmethods.dfy ===
/** Root finding by bisection (gcanalyser/numericalmethods.py), over exact
    reals with the function as a parameter. */
module NumericalMethods {
  import opened Wrappers

  /** If f(a) and f(b) have opposite signs and f(m) is non-zero with the
      sign of f(a), then f(m) and f(b) have opposite signs. */
  lemma SignChange(fa: real, fb: real, fm: real)
    requires fa * fb < 0.0 && fa * fm >= 0.0 && fm != 0.0
    ensures fm * fb < 0.0
  {
    if fa > 0.0 {
      assert fb < 0.0 && fm > 0.0;
    } else {
      assert fb > 0.0 && fm < 0.0;
    }
  }

  /** Halving a ratio of at least 1 lowers its integer part. */
  lemma HalfFloor(w: real, tol: real)
    requires tol > 0.0 && w > tol
    ensures 0 <= (w / 2.0 / tol).Floor < (w / tol).Floor
  {
    var q := w / tol;
    assert q > 1.0 by {
      assert w / tol > tol / tol;
    }
    assert w / 2.0 / tol == q / 2.0;
    assert (q / 2.0).Floor as real <= q / 2.0;
    assert q < q.Floor as real + 1.0;
  }

  /** bisection_method: with x0 < x1 and f changing sign between them, the
      bracket is halved, keeping a sign change inside, until it is no wider
      than `tol` or its midpoint is an exact zero; that midpoint is the
      result. */
  method Bisection(f: real -> real, x0: real, x1: real, tol: real) returns (r: Result<real>)
    requires tol > 0.0
    ensures r.Err? <==> x0 >= x1 || f(x0) * f(x1) >= 0.0
    ensures r.Ok? ==> x0 < r.value < x1
    ensures r.Ok? ==> exists a, b :: x0 <= a < b <= x1 && f(a) * f(b) < 0.0 && r.value == (a + b) / 2.0
                                    && (b - a <= tol || f(r.value) == 0.0)
  {
    if x0 >= x1 {
      return Err("x0 must be smaller than x1");
    }
    if !(f(x0) * f(x1) < 0.0 && x0 < x1) {
      return Err("No zero value in this interval found.");
    }
    var a, b := x0, x1;
    var fa := f(a);
    while true
      invariant x0 <= a < b <= x1
      invariant fa == f(a) && f(a) * f(b) < 0.0
      decreases ((b - a) / tol).Floor
    {
      var m := (a + b) / 2.0;
      var fm := f(m);
      if b - a <= tol || fm == 0.0 {
        return Ok(m);
      } else if fa * fm < 0.0 {
        HalfFloor(b - a, tol);
        assert m - a == (b - a) / 2.0;
        b := m;
      } else {
        HalfFloor(b - a, tol);
        assert b - m == (b - a) / 2.0;
        SignChange(fa, f(b), fm);
        a := m;
        fa := fm;
      }
    }
  }
}

=== FILE: optimize.dfy ===
/** The reference-point optimiser (audioanalyser/optimize.py): candidate
    reference vectors are generated by varying one entry of x or y over an
    evenly spaced grid, or by stretching all of x; each candidate is scored
    and the first candidate of maximal score is returned. The score of a
    candidate is a parameter; the mask combination and masked sum it is
    built from are modelled separately. */
module Optimize {
  import opened Wrappers
  import opened PyNum
  import Slicer
  import Mask
  import Util

  // -------------------------------------------------------------- linspace

  /** The spacing of np.linspace(lb, ub, n); a single point has none. */
  function Step(lb: real, ub: real, n: nat): real {
    if n <= 1 then 0.0 else (ub - lb) / (n - 1) as real
  }

  /** np.linspace(lb, ub, n): n points from lb, Step apart. */
  function Linspace(lb: real, ub: real, n: nat): (r: seq<real>)
    ensures |r| == n
    ensures n >= 1 ==> r[0] == lb
  {
    seq(n, j requires 0 <= j < n => lb + j as real * Step(lb, ub, n))
  }

  /** With two or more points the last one is ub. */
  lemma LinspaceLast(lb: real, ub: real, n: nat)
    requires n >= 2
    ensures Linspace(lb, ub, n)[n - 1] == ub
  {
    var m := (n - 1) as real;
    assert Linspace(lb, ub, n)[n - 1] == lb + m * Step(lb, ub, n);
    assert m * ((ub - lb) / m) == ub - lb;
  }

  /** Neighbouring points are Step apart. */
  lemma LinspaceEven(lb: real, ub: real, n: nat, j: nat)
    requires j + 1 < n
    ensures Linspace(lb, ub, n)[j + 1] - Linspace(lb, ub, n)[j] == (ub - lb) / (n - 1) as real
  {
    var s := Step(lb, ub, n);
    assert (j + 1) as real * s == j as real * s + s;
  }

  lemma MulNonNeg(a: real, b: real)
    requires a >= 0.0 && b >= 0.0
    ensures a * b >= 0.0
  {
  }

  /** For lb ≤ ub every point lies in [lb, ub]. */
  lemma LinspaceBetween(lb: real, ub: real, n: nat, j: nat)
    requires lb <= ub && j < n
    ensures lb <= Linspace(lb, ub, n)[j] <= ub
  {
    if n >= 2 {
      var m := (n - 1) as real;
      var s := (ub - lb) / m;
      assert Step(lb, ub, n) == s;
      assert Linspace(lb, ub, n)[j] == lb + j as real * s;
      assert s >= 0.0;
      MulNonNeg(j as real, s);
      MulNonNeg(m - j as real, s);
      assert (m - j as real) * s == m * s - j as real * s;
      assert m * s == ub - lb;
    }
  }

  // ------------------------------------------------------------ candidates

  /** int(span / d * resolution): the number of candidates; a zero step is
      a division by zero. */
  function CandidateCount(span: real, d: real, resolution: real): (r: Result<int>)
    ensures r.Err? <==> d == 0.0
    ensures r.Ok? && span / d * resolution >= 0.0 ==>
              r.value >= 0 && r.value as real <= span / d * resolution < r.value as real + 1.0
    ensures r.Ok? && span / d * resolution < 0.0 ==> r.value <= 0
  {
    if d == 0.0 then Err("float division by zero") else Ok(Trunc(span / d * resolution))
  }

  /** np.tile(v, (n, 1)). */
  function Tile(v: seq<real>, n: nat): (r: seq<seq<real>>)
    ensures |r| == n && forall j :: 0 <= j < n ==> r[j] == v
  {
    seq(n, j requires 0 <= j < n => v)
  }

  /** np.tile(v, (n, 1)) followed by `proposed[:, idx] = linspace(lb, ub, n)`:
      a negative count is refused, so is an index outside the vector. */
  function ProposeAt(v: seq<real>, idx: int, lb: real, ub: real, n: int): (r: Result<seq<seq<real>>>)
    ensures r.Err? <==> n < 0 || Index(idx, |v|).None?
    ensures r.Ok? ==> var k := Index(idx, |v|).value;
                      |r.value| == n
                      && forall j :: 0 <= j < n ==>
                           |r.value[j]| == |v| && r.value[j][k] == Linspace(lb, ub, n)[j]
                           && forall i :: 0 <= i < |v| && i != k ==> r.value[j][i] == v[i]
  {
    if n < 0 then Err("negative dimensions are not allowed")
    else
      var k := Index(idx, |v|);
      if k.None? then Err("index is out of bounds")
      else
        var grid := Linspace(lb, ub, n);
        Ok(seq(n, j requires 0 <= j < n => v[k.value := grid[j]]))
  }

  /** optimize_all_x: np.linspace(x, x + d, n) with d the last gap of x,
      then the first and last entries reset; x needs two entries. */
  function AllXCandidates(x: seq<real>, n: int): (r: Result<seq<seq<real>>>)
    ensures r.Err? <==> |x| < 2 || n < 0
    ensures r.Ok? ==> |r.value| == n
                      && forall j :: 0 <= j < n ==>
                           |r.value[j]| == |x| && r.value[j][0] == x[0] && r.value[j][|x| - 1] == x[|x| - 1]
    ensures r.Ok? ==> var d := x[|x| - 1] - x[|x| - 2];
                      forall j, i :: 0 <= j < n && 0 < i < |x| - 1 ==>
                        r.value[j][i] == Linspace(x[i], x[i] + d, n)[j]
  {
    if |x| < 2 then Err("index -2 is out of bounds")
    else if n < 0 then Err("Number of samples must be non-negative")
    else
      var d := x[|x| - 1] - x[|x| - 2];
      Ok(seq(n, j requires 0 <= j < n =>
        seq(|x|, i requires 0 <= i < |x| =>
          if i == 0 || i == |x| - 1 then x[i] else Linspace(x[i], x[i] + d, n)[j])))
  }

  /** The first stretched candidate is x itself; the last one moves every
      inner entry by the last gap of x. */
  lemma AllXEnds(x: seq<real>, n: int)
    requires |x| >= 2 && n >= 1
    ensures AllXCandidates(x, n).value[0] == x
    ensures n >= 2 ==> forall i :: 0 < i < |x| - 1 ==>
              AllXCandidates(x, n).value[n - 1][i] == x[i] + (x[|x| - 1] - x[|x| - 2])
  {
    var c := AllXCandidates(x, n).value;
    assert c[0] == x;
    if n >= 2 {
      var d := x[|x| - 1] - x[|x| - 2];
      forall i | 0 < i < |x| - 1
        ensures c[n - 1][i] == x[i] + d
      {
        LinspaceLast(x[i], x[i] + d, n);
      }
    }
  }

  // ---------------------------------------------------------------- argmax

  /** k is np.argmax(xs): a maximal entry, and the first one. */
  predicate FirstMax(xs: seq<real>, k: int) {
    0 <= k < |xs| && (forall j :: 0 <= j < |xs| ==> xs[j] <= xs[k]) && (forall j :: 0 <= j < k ==> xs[j] < xs[k])
  }

  /** At most one index is the first maximum. */
  lemma FirstMaxUnique(xs: seq<real>, a: int, b: int)
    requires FirstMax(xs, a) && FirstMax(xs, b)
    ensures a == b
  {
    assert xs[a] <= xs[b] && xs[b] <= xs[a];
  }

  /** np.argmax: the first index of the largest score; an empty sequence
      has none. */
  method Argmax(xs: seq<real>) returns (r: Result<nat>)
    ensures r.Err? <==> |xs| == 0
    ensures r.Ok? ==> FirstMax(xs, r.value)
  {
    if |xs| == 0 {
      return Err("attempt to get argmax of an empty sequence");
    }
    var best := 0;
    var i := 1;
    while i < |xs|
      invariant 1 <= i <= |xs| && best < i
      invariant forall j :: 0 <= j < i ==> xs[j] <= xs[best]
      invariant forall j :: 0 <= j < best ==> xs[j] < xs[best]
    {
      if xs[i] > xs[best] {
        best := i;
      }
      i := i + 1;
    }
    return Ok(best);
  }

  /** The score of every candidate row. */
  function Scores(xs: seq<seq<real>>, ys: seq<seq<real>>, s: Slicer.Slicer,
                  score: (Slicer.Slicer, seq<real>, seq<real>) -> real): (r: seq<real>)
    requires |ys| == |xs|
    ensures |r| == |xs|
  {
    seq(|xs|, i requires 0 <= i < |xs| => score(s, xs[i], ys[i]))
  }

  /** _optimize: scores every candidate pair and returns the pair of the
      first maximal score; without candidates there is no argmax. */
  method Optimize(xs: seq<seq<real>>, ys: seq<seq<real>>, s: Slicer.Slicer,
                  score: (Slicer.Slicer, seq<real>, seq<real>) -> real)
    returns (r: Result<(seq<real>, seq<real>)>)
    requires |ys| == |xs|
    ensures r.Err? <==> |xs| == 0
    ensures r.Ok? ==> exists k :: FirstMax(Scores(xs, ys, s, score), k) && r.value == (xs[k], ys[k])
  {
    var scores: seq<real> := [];
    var i := 0;
    while i < |xs|
      invariant 0 <= i <= |xs|
      invariant scores == Scores(xs, ys, s, score)[..i]
    {
      scores := scores + [score(s, xs[i], ys[i])];
      i := i + 1;
    }
    assert scores == Scores(xs, ys, s, score);
    var k := Argmax(scores);
    if k.Err? {
      return Err(k.msg);
    }
    return Ok((xs[k.value], ys[k.value]));
  }

  // ------------------------------------------------------------- slicers

  /** The slicer of optimize_xi: the factory's slicer narrowed to
      ValueSlicerConfig(from_x=lb, to_x=ub). */
  function XSlicer(f: Slicer.Factory, lb: real, ub: real): (r: Result<Slicer.Slicer>)
    ensures r.Ok? ==> lb < ub
  {
    var c := Slicer.NewValueConfig(Some(lb), Some(ub), None, None);
    if c.Err? then Err(c.msg) else Slicer.Build(f, Some(Slicer.Value(c.value)))
  }

  /** The slicer of optimize_yi: narrowed to ValueSlicerConfig(from_y=lb, to_y=ub). */
  function YSlicer(f: Slicer.Factory, lb: real, ub: real): (r: Result<Slicer.Slicer>)
    ensures r.Ok? ==> lb < ub
  {
    var c := Slicer.NewValueConfig(None, None, Some(lb), Some(ub));
    if c.Err? then Err(c.msg) else Slicer.Build(f, Some(Slicer.Value(c.value)))
  }

  /** The x-narrowed slicer keeps the factory's frequency window and cuts
      its time window to the bins of [lb, ub). */
  lemma XSlicerWindow(f: Slicer.Factory, lb: real, ub: real)
    requires XSlicer(f, lb, ub).Ok?
    ensures Slicer.Build(f, None).Ok?
    ensures var s, u := XSlicer(f, lb, ub).value, Slicer.Build(f, None).value;
            var g := Slicer.Parse(f, f.global).value;
            s.fromY == u.fromY && s.toY == u.toY
            && forall i :: s.fromX <= i < s.toX <==>
                 Slicer.InWindow(g.fromX, g.toX, f.nX, i)
                 && Slicer.InWindow(Some(Util.ConvertToIdx(lb, f.xMax, f.nX).value),
                                    Some(Util.ConvertToIdx(ub, f.xMax, f.nX).value), f.nX, i)
  {
    var c := Slicer.NewValueConfig(Some(lb), Some(ub), None, None).value;
    var l := Slicer.Parse(f, Some(Slicer.Value(c))).value;
    assert l.fromX == Some(Util.ConvertToIdx(lb, f.xMax, f.nX).value);
    assert l.toX == Some(Util.ConvertToIdx(ub, f.xMax, f.nX).value);
    assert l.fromY.None? && l.toY.None?;
  }

  /** The y-narrowed slicer keeps the factory's time window and cuts its
      frequency window to the bins of [lb, ub). */
  lemma YSlicerWindow(f: Slicer.Factory, lb: real, ub: real)
    requires YSlicer(f, lb, ub).Ok?
    ensures Slicer.Build(f, None).Ok?
    ensures var s, u := YSlicer(f, lb, ub).value, Slicer.Build(f, None).value;
            var g := Slicer.Parse(f, f.global).value;
            s.fromX == u.fromX && s.toX == u.toX
            && forall i :: s.fromY <= i < s.toY <==>
                 Slicer.InWindow(g.fromY, g.toY, f.nY, i)
                 && Slicer.InWindow(Some(Util.ConvertToIdx(lb, f.yMax, f.nY).value),
                                    Some(Util.ConvertToIdx(ub, f.yMax, f.nY).value), f.nY, i)
  {
    var c := Slicer.NewValueConfig(None, None, Some(lb), Some(ub)).value;
    var l := Slicer.Parse(f, Some(Slicer.Value(c))).value;
    assert l.fromY == Some(Util.ConvertToIdx(lb, f.yMax, f.nY).value);
    assert l.toY == Some(Util.ConvertToIdx(ub, f.yMax, f.nY).value);
    assert l.fromX.None? && l.toX.None?;
  }

  // ------------------------------------------------------------ optimisers

  /** optimize_xi: the best of the candidates that vary entry xi_idx of x
      over linspace(lb, ub, n), scored with the x-narrowed slicer. The
      result differs from x at most at that entry, which lies in [lb, ub];
      y is returned unchanged. */
  method OptimizeXi(f: Slicer.Factory, dx: real, x: seq<real>, y: seq<real>, idx: int,
                    lb: real, ub: real, resolution: int,
                    score: (Slicer.Slicer, seq<real>, seq<real>) -> real)
    returns (r: Result<(seq<real>, seq<real>)>)
    ensures var n := CandidateCount(ub - lb, dx, resolution as real);
            r.Err? <==> n.Err? || n.value <= 0 || Index(idx, |x|).None? || XSlicer(f, lb, ub).Err?
    ensures r.Ok? ==> var n := CandidateCount(ub - lb, dx, resolution as real).value;
                      var cands := ProposeAt(x, idx, lb, ub, n).value;
                      exists j :: FirstMax(Scores(cands, Tile(y, n), XSlicer(f, lb, ub).value, score), j)
                                  && r.value == (cands[j], y)
    ensures r.Ok? ==> var k := Index(idx, |x|).value;
                      |r.value.0| == |x| && lb <= r.value.0[k] <= ub
                      && (forall i :: 0 <= i < |x| && i != k ==> r.value.0[i] == x[i]) && r.value.1 == y
  {
    var n := CandidateCount(ub - lb, dx, resolution as real);
    if n.Err? {
      return Err(n.msg);
    }
    var cands := ProposeAt(x, idx, lb, ub, n.value);
    if cands.Err? {
      return Err(cands.msg);
    }
    var s := XSlicer(f, lb, ub);
    if s.Err? {
      return Err(s.msg);
    }
    var ys := Tile(y, n.value);
    r := Optimize(cands.value, ys, s.value, score);
    if r.Ok? {
      var j :| FirstMax(Scores(cands.value, ys, s.value, score), j) && r.value == (cands.value[j], ys[j]);
      LinspaceBetween(lb, ub, n.value, j);
    }
  }

  /** optimize_yi: the same with entry yi_idx of y varied and the
      y-narrowed slicer; x is returned unchanged. */
  method OptimizeYi(f: Slicer.Factory, dy: real, x: seq<real>, y: seq<real>, idx: int,
                    lb: real, ub: real, resolution: int,
                    score: (Slicer.Slicer, seq<real>, seq<real>) -> real)
    returns (r: Result<(seq<real>, seq<real>)>)
    ensures var n := CandidateCount(ub - lb, dy, resolution as real);
            r.Err? <==> n.Err? || n.value <= 0 || Index(idx, |y|).None? || YSlicer(f, lb, ub).Err?
    ensures r.Ok? ==> var n := CandidateCount(ub - lb, dy, resolution as real).value;
                      var cands := ProposeAt(y, idx, lb, ub, n).value;
                      exists j :: FirstMax(Scores(Tile(x, n), cands, YSlicer(f, lb, ub).value, score), j)
                                  && r.value == (x, cands[j])
    ensures r.Ok? ==> var k := Index(idx, |y|).value;
                      |r.value.1| == |y| && lb <= r.value.1[k] <= ub
                      && (forall i :: 0 <= i < |y| && i != k ==> r.value.1[i] == y[i]) && r.value.0 == x
  {
    var n := CandidateCount(ub - lb, dy, resolution as real);
    if n.Err? {
      return Err(n.msg);
    }
    var cands := ProposeAt(y, idx, lb, ub, n.value);
    if cands.Err? {
      return Err(cands.msg);
    }
    var s := YSlicer(f, lb, ub);
    if s.Err? {
      return Err(s.msg);
    }
    var xs := Tile(x, n.value);
    r := Optimize(xs, cands.value, s.value, score);
    if r.Ok? {
      var j :| FirstMax(Scores(xs, cands.value, s.value, score), j) && r.value == (xs[j], cands.value[j]);
      LinspaceBetween(lb, ub, n.value, j);
    }
  }

  /** optimize_all_x: the best stretch of x, scored with the factory's own
      slicer; the ends of x and all of y are kept. */
  method OptimizeAllX(f: Slicer.Factory, dx: real, x: seq<real>, y: seq<real>, resolution: real,
                      score: (Slicer.Slicer, seq<real>, seq<real>) -> real)
    returns (r: Result<(seq<real>, seq<real>)>)
    ensures |x| < 2 ==> r.Err?
    ensures |x| >= 2 ==>
              var n := CandidateCount(x[|x| - 1] - x[|x| - 2], dx, resolution);
              (r.Err? <==> n.Err? || n.value <= 0 || Slicer.Build(f, None).Err?)
              && (r.Ok? ==> var cands := AllXCandidates(x, n.value).value;
                            exists j :: FirstMax(Scores(cands, Tile(y, n.value), Slicer.Build(f, None).value, score), j)
                                        && r.value == (cands[j], y))
    ensures r.Ok? ==> |r.value.0| == |x| && r.value.0[0] == x[0] && r.value.0[|x| - 1] == x[|x| - 1] && r.value.1 == y
  {
    if |x| < 2 {
      return Err("index -2 is out of bounds");
    }
    var n := CandidateCount(x[|x| - 1] - x[|x| - 2], dx, resolution);
    if n.Err? {
      return Err(n.msg);
    }
    var cands := AllXCandidates(x, n.value);
    if cands.Err? {
      return Err(cands.msg);
    }
    var s := Slicer.Build(f, None);
    if s.Err? {
      return Err(s.msg);
    }
    r := Optimize(cands.value, Tile(y, n.value), s.value, score);
  }

  // ------------------------------------------------------ masks and score

  /** Two grids of the same shape. */
  predicate SameShape<A, B>(a: seq<seq<A>>, b: seq<seq<B>>) {
    |a| == |b| && forall k :: 0 <= k < |a| ==> |a[k]| == |b[k]|
  }

  /** 2 * form. */
  function Double(v: seq<real>): (r: seq<real>)
    ensures |r| == |v| && forall i :: 0 <= i < |v| ==> r[i] == 2.0 * v[i]
  {
    seq(|v|, i requires 0 <= i < |v| => 2.0 * v[i])
  }

  /** mask | other, entry by entry. */
  function MaskOr(a: seq<seq<bool>>, b: seq<seq<bool>>): (r: seq<seq<bool>>)
    requires SameShape(a, b)
    ensures SameShape(r, a)
    ensures forall k, t :: 0 <= k < |a| && 0 <= t < |a[k]| ==> (r[k][t] <==> a[k][t] || b[k][t])
  {
    seq(|a|, k requires 0 <= k < |a| => seq(|a[k]|, t requires 0 <= t < |a[k]| => a[k][t] || b[k][t]))
  }

  /** A signal and its double are cut and refused alike, so their masks
      have the same shape. */
  lemma DoubledMaskShape(mf: Mask.MaskFactory, form: seq<real>, s: Slicer.Slicer)
    ensures Mask.BuildBinaryMaskCorrected(mf, Double(form), s).Ok? <==> Mask.BuildBinaryMaskCorrected(mf, form, s).Ok?
    ensures Mask.BuildBinaryMaskCorrected(mf, form, s).Ok? ==>
              SameShape(Mask.BuildBinaryMaskCorrected(mf, Double(form), s).value, Mask.BuildBinaryMaskCorrected(mf, form, s).value)
  {
    var a, b := Mask.SlicedSignal(mf, form, s), Mask.SlicedSignal(mf, Double(form), s);
    Slicer.XSliceWidth(s, form);
    Slicer.XSliceWidth(s, Double(form));
    assert a.Ok? <==> b.Ok?;
    assert a.Ok? ==> |a.value| == |b.value|;
  }

  /** _build_mask from an evaluated form: the band mask of the form, or'ed
      with the band mask of its first harmonic 2·form when use_1st_harmonic
      is set. */
  function BuildMask(mf: Mask.MaskFactory, form: seq<real>, s: Slicer.Slicer, use1st: bool): (r: Result<seq<seq<bool>>>)
    ensures r.Err? <==> Mask.BuildBinaryMaskCorrected(mf, form, s).Err?
    ensures r.Ok? ==> Mask.BuildBinaryMaskCorrected(mf, Double(form), s).Ok?
                      && SameShape(Mask.BuildBinaryMaskCorrected(mf, Double(form), s).value, Mask.BuildBinaryMaskCorrected(mf, form, s).value)
    ensures r.Ok? ==> var m := Mask.BuildBinaryMaskCorrected(mf, form, s).value;
                      SameShape(r.value, m)
                      && forall k, t :: 0 <= k < |m| && 0 <= t < |m[k]| ==>
                           (r.value[k][t] <==> m[k][t] || (use1st && Mask.BuildBinaryMaskCorrected(mf, Double(form), s).value[k][t]))
  {
    DoubledMaskShape(mf, form, s);
    var m := Mask.BuildBinaryMaskCorrected(mf, form, s);
    if m.Err? then Err(m.msg)
    else if !use1st then m
    else Ok(MaskOr(m.value, Mask.BuildBinaryMaskCorrected(mf, Double(form), s).value))
  }

  /** Sum of the row entries where the mask row is set. */
  function RowSum(row: seq<real>, m: seq<bool>): real
    requires |row| == |m|
  {
    if |row| == 0 then 0.0 else RowSum(row[..|row| - 1], m[..|m| - 1]) + (if m[|m| - 1] then row[|row| - 1] else 0.0)
  }

  function GridSum(g: seq<seq<real>>, m: seq<seq<bool>>): real
    requires SameShape(g, m)
  {
    if |g| == 0 then 0.0 else GridSum(g[..|g| - 1], m[..|m| - 1]) + RowSum(g[|g| - 1], m[|m| - 1])
  }

  /** S_reduced[mask].sum(): a mask of another shape is an index error. */
  function MaskedSum(g: seq<seq<real>>, m: seq<seq<bool>>): (r: Result<real>)
    ensures r.Err? <==> !SameShape(g, m)
  {
    if !SameShape(g, m) then Err("boolean index did not match indexed array") else Ok(GridSum(g, m))
  }

  /** One mask is contained in another. */
  predicate Within(a: seq<seq<bool>>, b: seq<seq<bool>>)
    requires SameShape(a, b)
  {
    forall k, t :: 0 <= k < |a| && 0 <= t < |a[k]| && a[k][t] ==> b[k][t]
  }

  predicate NonNegative(g: seq<seq<real>>) {
    forall k, t :: 0 <= k < |g| && 0 <= t < |g[k]| ==> g[k][t] >= 0.0
  }

  lemma {:induction false} RowSumMono(row: seq<real>, a: seq<bool>, b: seq<bool>)
    requires |row| == |a| == |b|
    requires forall t :: 0 <= t < |row| ==> row[t] >= 0.0
    requires forall t :: 0 <= t < |a| && a[t] ==> b[t]
    ensures RowSum(row, a) <= RowSum(row, b)
  {
    if |row| > 0 {
      RowSumMono(row[..|row| - 1], a[..|a| - 1], b[..|b| - 1]);
    }
  }

  /** On a non-negative spectrogram a larger mask never scores less. */
  lemma {:induction false} GridSumMono(g: seq<seq<real>>, a: seq<seq<bool>>, b: seq<seq<bool>>)
    requires SameShape(g, a) && SameShape(a, b) && NonNegative(g) && Within(a, b)
    ensures GridSum(g, a) <= GridSum(g, b)
  {
    if |g| > 0 {
      var n := |g| - 1;
      GridSumMono(g[..n], a[..n], b[..n]);
      RowSumMono(g[n], a[n], b[n]);
    }
  }

  /** Nothing masked scores 0. */
  lemma {:induction false} RowSumNone(row: seq<real>, m: seq<bool>)
    requires |row| == |m| && forall t :: 0 <= t < |m| ==> !m[t]
    ensures RowSum(row, m) == 0.0
  {
    if |row| > 0 {
      RowSumNone(row[..|row| - 1], m[..|m| - 1]);
    }
  }

  /** _determine_score from an evaluated form: the spectrogram cut to the
      slicer's window, summed over the mask. */
  function DetermineScore(mf: Mask.MaskFactory, spec: seq<seq<real>>, width: nat, form: seq<real>,
                          s: Slicer.Slicer, use1st: bool): (r: Result<real>)
    requires forall k :: 0 <= k < |spec| ==> |spec[k]| == width
    ensures BuildMask(mf, form, s, use1st).Err? ==> r.Err?
    ensures BuildMask(mf, form, s, use1st).Ok? ==>
              r == MaskedSum(Slicer.MatrixSlice(s, spec, width).rows, BuildMask(mf, form, s, use1st).value)
  {
    var m := BuildMask(mf, form, s, use1st);
    if m.Err? then Err(m.msg)
    else MaskedSum(Slicer.MatrixSlice(s, spec, width).rows, m.value)
  }

  /** On a non-negative spectrogram, adding the first harmonic never lowers
      a score. */
  lemma HarmonicNeverLowers(mf: Mask.MaskFactory, spec: seq<seq<real>>, width: nat, form: seq<real>, s: Slicer.Slicer)
    requires forall k :: 0 <= k < |spec| ==> |spec[k]| == width
    requires NonNegative(spec)
    requires DetermineScore(mf, spec, width, form, s, false).Ok?
    ensures DetermineScore(mf, spec, width, form, s, true).Ok?
    ensures DetermineScore(mf, spec, width, form, s, false).value <= DetermineScore(mf, spec, width, form, s, true).value
  {
    var g := Slicer.MatrixSlice(s, spec, width).rows;
    var a, b := BuildMask(mf, form, s, false).value, BuildMask(mf, form, s, true).value;
    assert NonNegative(g) by {
      forall k, t | 0 <= k < |g| && 0 <= t < |g[k]|
        ensures g[k][t] >= 0.0
      {
        Slicer.MatrixSliceAt(s, spec, width, k, t);
      }
    }
    GridSumMono(g, a, b);
  }
}

=== FILE: piecewise.dfy ===
/** Piecewise frequency form functions (audioanalyser/piecewise.py): segment
    builders turn a frequency change between two reference times into
    bounded functions, and a parametrisable form function chains them
    between reference points, framed by zero on both sides. Times and
    frequencies are exact reals; the two open ends are -inf and +inf. */
module Piecewise {
  import opened Wrappers

  /** A segment bound: a finite time or one of the infinities. */
  datatype Bound = NegInf | Fin(x: real) | PosInf

  /** The callable of a bounded function: a ramp through (t0, freq0) with
      the given slope, or a constant level. */
  datatype Func = Ramp(freq0: real, slope: real, t0: real) | Level(v: real)

  function Apply(f: Func, t: real): real {
    match f
    case Ramp(f0, s, t0) => f0 + s * (t - t0)
    case Level(v) => v
  }

  datatype BoundedFunction = BoundedFunction(start: Bound, end: Bound, func: Func)

  predicate AtOrAfter(t: real, b: Bound) {
    match b
    case NegInf => true
    case Fin(x) => t >= x
    case PosInf => false
  }

  predicate Before(t: real, b: Bound) {
    match b
    case NegInf => false
    case Fin(x) => t < x
    case PosInf => true
  }

  /** BoundedFunction.condition: the half-open interval [start, end). */
  predicate Condition(b: BoundedFunction, t: real) {
    AtOrAfter(t, b.start) && Before(t, b.end)
  }

  lemma ConditionHalfOpen(s: real, e: real, f: Func, t: real)
    ensures Condition(BoundedFunction(Fin(s), Fin(e), f), t) <==> s <= t < e
    ensures !Condition(BoundedFunction(Fin(s), Fin(s), f), t)
  {
  }

  /** Some function of `fs` covers `t`. */
  predicate Hit(fs: seq<BoundedFunction>, t: real) {
    exists i :: 0 <= i < |fs| && Condition(fs[i], t)
  }

  /** np.piecewise over the conditions of `fs`: the last function whose
      condition holds decides the value; where none holds the value is 0. */
  function Eval(fs: seq<BoundedFunction>, t: real): real
  {
    if |fs| == 0 then 0.0
    else if Condition(fs[|fs| - 1], t) then Apply(fs[|fs| - 1].func, t)
    else Eval(fs[..|fs| - 1], t)
  }

  /** Where no function covers `t` the value is 0. */
  lemma {:induction false} EvalNoHit(fs: seq<BoundedFunction>, t: real)
    requires !Hit(fs, t)
    ensures Eval(fs, t) == 0.0
  {
    if |fs| > 0 {
      assert !Hit(fs[..|fs| - 1], t) by {
        var p := fs[..|fs| - 1];
        forall i | 0 <= i < |p|
          ensures !Condition(p[i], t)
        {
          assert p[i] == fs[i];
        }
      }
      EvalNoHit(fs[..|fs| - 1], t);
    }
  }

  /** The value is that of the last function covering `t`. */
  lemma {:induction false} EvalLastHit(fs: seq<BoundedFunction>, i: nat, t: real)
    requires i < |fs| && Condition(fs[i], t)
    requires forall j :: i < j < |fs| ==> !Condition(fs[j], t)
    ensures Eval(fs, t) == Apply(fs[i].func, t)
  {
    if i < |fs| - 1 {
      EvalLastHit(fs[..|fs| - 1], i, t);
    }
  }

  lemma EvalLast(fs: seq<BoundedFunction>, t: real)
    requires |fs| > 0 && Condition(fs[|fs| - 1], t)
    ensures Eval(fs, t) == Apply(fs[|fs| - 1].func, t)
  {
  }

  /** Appending functions that cover `t` hands the value over to them;
      appending functions that do not leaves it as it was. */
  lemma {:induction false} EvalConcat(a: seq<BoundedFunction>, b: seq<BoundedFunction>, t: real)
    ensures Eval(a + b, t) == if Hit(b, t) then Eval(b, t) else Eval(a, t)
  {
    if |b| > 0 {
      var b' := b[..|b| - 1];
      assert (a + b)[..|a + b| - 1] == a + b';
      EvalConcat(a, b', t);
      if !Condition(b[|b| - 1], t) {
        assert Hit(b, t) == Hit(b', t) by {
          if Hit(b, t) {
            var i :| 0 <= i < |b| && Condition(b[i], t);
            assert b'[i] == b[i];
          }
          if Hit(b', t) {
            var i :| 0 <= i < |b'| && Condition(b'[i], t);
            assert b[i] == b'[i];
          }
        }
      }
    } else {
      assert a + b == a;
    }
  }

  /** Time at which the last function of a non-empty list ends, and the
      value its callable reaches there. */
  predicate Reaches(r: seq<BoundedFunction>, t1: real, freq1: real) {
    |r| > 0 ==> r[|r| - 1].end == Fin(t1) && Apply(r[|r| - 1].func, t1) == freq1
  }

  /** At most two functions, and a second one starts where the first ends
      and at the value the first reached: the form is continuous. */
  predicate Chained(r: seq<BoundedFunction>) {
    |r| <= 2
    && (|r| == 2 ==> r[0].end.Fin? && r[0].end == r[1].start
                     && Apply(r[0].func, r[0].end.x) == Apply(r[1].func, r[1].start.x))
  }

  /** Every function starts at a finite time no earlier than `t0`. */
  predicate StartsFrom(r: seq<BoundedFunction>, t0: real) {
    forall i :: 0 <= i < |r| ==> r[i].start.Fin? && r[i].start.x >= t0
  }

  /** LinearSegmentBuilder: nothing for a zero duration, otherwise one ramp
      on [t0, t1) from freq0 at t0 to freq1 at t1. */
  function LinearSegment(freq0: real, freq1: real, t0: real, t1: real): (r: seq<BoundedFunction>)
    ensures r == [] <==> t1 == t0
    ensures r != [] ==> |r| == 1 && r[0].start == Fin(t0) && r[0].end == Fin(t1)
                        && Apply(r[0].func, t0) == freq0 && Apply(r[0].func, t1) == freq1
  {
    var duration := t1 - t0;
    if duration == 0.0 then []
    else
      var slope := (freq1 - freq0) / duration;
      assert slope * duration == freq1 - freq0;
      [BoundedFunction(Fin(t0), Fin(t1), Ramp(freq0, slope, t0))]
  }

  /** Inside its interval a rising ramp stays between its two frequencies. */
  lemma LinearBetween(freq0: real, freq1: real, t0: real, t1: real, t: real)
    requires t0 <= t < t1 && freq0 <= freq1
    ensures var r := LinearSegment(freq0, freq1, t0, t1);
            |r| == 1 && freq0 <= Apply(r[0].func, t) <= freq1
  {
    var duration := t1 - t0;
    var slope := (freq1 - freq0) / duration;
    assert slope * duration == freq1 - freq0;
    assert slope >= 0.0;
    assert 0.0 <= slope * (t - t0);
    assert slope * (duration - (t - t0)) >= 0.0;
    var r := LinearSegment(freq0, freq1, t0, t1);
    assert Apply(r[0].func, t) == freq0 + slope * (t - t0);
  }

  /** PleateauSegmentBuilder: nothing for a zero duration, otherwise the
      constant freq1 on [t0, t1). */
  function PlateauSegment(freq1: real, t0: real, t1: real): (r: seq<BoundedFunction>)
    ensures r == [] <==> t1 == t0
    ensures r != [] ==> |r| == 1 && r[0].start == Fin(t0) && r[0].end == Fin(t1)
                        && forall t :: Apply(r[0].func, t) == freq1
  {
    if t1 - t0 == 0.0 then [] else [BoundedFunction(Fin(t0), Fin(t1), Level(freq1))]
  }

  /** The three segment builders. */
  datatype Builder = LinearBuilder | PlateauBuilder | Bended(up: real, down: real)

  /** The slopes a bended builder may have: ramp up non-negative, ramp
      down non-positive. */
  predicate ValidBuilder(b: Builder) {
    b.Bended? ==> b.up >= 0.0 && b.down <= 0.0
  }

  /** BendedSegmentBuilder's constructor. */
  function NewBended(up: real, down: real): (r: Result<Builder>)
    ensures r.Ok? <==> up >= 0.0 && down <= 0.0
    ensures r.Ok? ==> r.value == Bended(up, down) && ValidBuilder(r.value)
  {
    if !(up >= 0.0 && down <= 0.0) then
      Err("ramp_up_slope must be non-negative and ramp_down_slope must be non-positive")
    else Ok(Bended(up, down))
  }

  /** The slope a bended builder ramps with: up for a rising frequency,
      down otherwise. */
  function RampSlope(up: real, down: real, freq0: real, freq1: real): real {
    if freq1 > freq0 then up else down
  }

  /** BendedSegmentBuilder.__call__: a ramp with the builder's slope from
      freq0 until freq1 is reached, then a plateau at freq1 until t1; a zero
      slope jumps to the plateau at once. */
  function BendedSegment(up: real, down: real, freq0: real, freq1: real, t0: real, t1: real): (r: seq<BoundedFunction>)
    requires up >= 0.0 && down <= 0.0
    ensures r == [] <==> t1 == t0
    ensures r != [] ==> r[0].start == Fin(t0)
    ensures Reaches(r, t1, freq1) && Chained(r) && StartsFrom(r, t0)
    ensures r != [] && (freq0 == freq1 || RampSlope(up, down, freq0, freq1) != 0.0) ==> Apply(r[0].func, t0) == freq0
  {
    if t1 - t0 == 0.0 then []
    else
      var slope := RampSlope(up, down, freq0, freq1);
      if slope == 0.0 then PlateauSegment(freq1, t0, t1)
      else
        var tMiddle := t0 + (freq1 - freq0) / slope;
        assert tMiddle >= t0 by { RampLength(slope, freq1 - freq0); }
        LinearSegment(freq0, freq1, t0, tMiddle) + PlateauSegment(freq1, tMiddle, t1)
  }

  /** The ramp runs forward in time: rise and slope have the same sign. */
  lemma RampLength(slope: real, rise: real)
    requires slope != 0.0 && (rise > 0.0 ==> slope > 0.0) && (rise <= 0.0 ==> slope < 0.0)
    ensures rise / slope >= 0.0
  {
    if rise > 0.0 {
      assert rise / slope > 0.0;
    } else if rise < 0.0 {
      assert (-rise) / (-slope) == rise / slope;
    }
  }

  /** Equal frequencies and a non-zero duration give exactly one plateau at
      that frequency over the whole interval. */
  lemma BendedFlat(up: real, down: real, freq: real, t0: real, t1: real)
    requires up >= 0.0 && down <= 0.0 && t0 != t1
    ensures var r := BendedSegment(up, down, freq, freq, t0, t1);
            |r| == 1 && r[0].start == Fin(t0) && r[0].end == Fin(t1) && r[0].func == Level(freq)
  {
  }

  /** A zero ramp slope jumps straight to a plateau at freq1. */
  lemma BendedZeroSlope(up: real, down: real, freq0: real, freq1: real, t0: real, t1: real)
    requires up >= 0.0 && down <= 0.0 && t0 != t1 && RampSlope(up, down, freq0, freq1) == 0.0
    ensures BendedSegment(up, down, freq0, freq1, t0, t1) == [BoundedFunction(Fin(t0), Fin(t1), Level(freq1))]
  {
  }

  /** A rising frequency with a ramp that reaches it before t1 gives a ramp
      with the ramp-up slope followed by a plateau. */
  lemma BendedRise(up: real, down: real, freq0: real, freq1: real, t0: real, t1: real)
    requires up > 0.0 && down <= 0.0 && freq1 > freq0 && t0 + (freq1 - freq0) / up < t1
    ensures var r := BendedSegment(up, down, freq0, freq1, t0, t1);
            var tMiddle := t0 + (freq1 - freq0) / up;
            |r| == 2 && r[0] == BoundedFunction(Fin(t0), Fin(tMiddle), Ramp(freq0, up, t0))
            && r[1] == BoundedFunction(Fin(tMiddle), Fin(t1), Level(freq1))
  {
    var tMiddle := t0 + (freq1 - freq0) / up;
    assert (freq1 - freq0) / up > 0.0;
    SlopeBack(freq1 - freq0, up);
  }

  lemma SlopeBack(rise: real, slope: real)
    requires rise != 0.0 && slope != 0.0
    ensures rise / (rise / slope) == slope
  {
    var d := rise / slope;
    assert d * slope == rise;
  }

  /** SegmentBuilder.__call__ for each builder. */
  function Build(b: Builder, freq0: real, freq1: real, t0: real, t1: real): seq<BoundedFunction>
    requires ValidBuilder(b)
  {
    match b
    case LinearBuilder => LinearSegment(freq0, freq1, t0, t1)
    case PlateauBuilder => PlateauSegment(freq1, t0, t1)
    case Bended(up, down) => BendedSegment(up, down, freq0, freq1, t0, t1)
  }

  /** Every builder yields nothing exactly for a zero duration, and
      otherwise a continuous form from t0 that reaches freq1 at t1. */
  lemma BuildShape(b: Builder, freq0: real, freq1: real, t0: real, t1: real)
    requires ValidBuilder(b)
    ensures var r := Build(b, freq0, freq1, t0, t1);
            (r == [] <==> t1 == t0)
            && (r != [] ==> r[0].start == Fin(t0))
            && Reaches(r, t1, freq1) && Chained(r) && StartsFrom(r, t0)
  {
  }

  /** A ParametrisableFormFunc: the frequencies at the reference points,
      the reference points, and the builder. */
  datatype FormFunc = FormFunc(freqs: seq<real>, refs: seq<real>, former: Builder)

  /** What the constructor and set_ref_points keep: frequencies that start
      and end at 0, as many reference points as frequencies, the first
      reference point 0, and a builder its constructor accepted. */
  predicate Valid(ff: FormFunc) {
    |ff.freqs| > 0 && |ff.refs| == |ff.freqs|
    && ff.freqs[0] == 0.0 && ff.freqs[|ff.freqs| - 1] == 0.0
    && ff.refs[0] == 0.0 && ValidBuilder(ff.former)
  }

  function Zeros(n: nat): (r: seq<real>)
    ensures |r| == n && forall i :: 0 <= i < n ==> r[i] == 0.0
  {
    seq(n, i => 0.0)
  }

  /** ParametrisableFormFunc.__init__: the first and last frequency must be
      0 (indexing an empty array fails too); the reference points start as
      zeros. */
  function NewFormFunc(freqs: seq<real>, former: Builder): (r: Result<FormFunc>)
    requires ValidBuilder(former)
    ensures r.Ok? <==> |freqs| > 0 && freqs[0] == 0.0 && freqs[|freqs| - 1] == 0.0
    ensures r.Ok? ==> Valid(r.value) && r.value.freqs == freqs && r.value.former == former
                      && r.value.refs == Zeros(|freqs|)
  {
    if |freqs| == 0 then Err("index 0 is out of bounds")
    else if !(freqs[0] == 0.0 && freqs[|freqs| - 1] == 0.0) then Err("First and last frequency must be 0")
    else Ok(FormFunc(freqs, Zeros(|freqs|), former))
  }

  /** set_ref_points: the first point must be 0 and there must be one per
      frequency; only the reference points change. */
  function SetRefPoints(ff: FormFunc, refs: seq<real>): (r: Result<FormFunc>)
    ensures r.Ok? <==> |refs| > 0 && refs[0] == 0.0 && |refs| == |ff.freqs|
    ensures r.Ok? ==> r.value.refs == refs && r.value.freqs == ff.freqs && r.value.former == ff.former
    ensures r.Ok? && Valid(ff) ==> Valid(r.value)
  {
    if |refs| == 0 then Err("index 0 is out of bounds")
    else if !(refs[0] == 0.0) then Err("First reference point must be 0")
    else if |refs| != |ff.freqs| then Err("Length of reference points must match length of freqs")
    else Ok(ff.(refs := refs))
  }

  /** The frequency segment k starts from: the previous reference
      frequency, or the first one for k = 0 (the padded copy). */
  function PrevFreq(ff: FormFunc, k: nat): real
    requires Valid(ff) && k < |ff.freqs|
  {
    if k == 0 then ff.freqs[0] else ff.freqs[k - 1]
  }

  /** The time segment k ends at: the next reference point, or the last
      one for the final segment (the padded copy). */
  function NextRef(ff: FormFunc, k: nat): real
    requires Valid(ff) && k < |ff.freqs|
  {
    if k + 1 < |ff.refs| then ff.refs[k + 1] else ff.refs[|ff.refs| - 1]
  }

  /** The functions the loop of get_parametrized adds for the padded
      positions k, k + 1, ..., n − 1. */
  function Segments(ff: FormFunc, k: nat): (r: seq<BoundedFunction>)
    requires Valid(ff) && k <= |ff.freqs|
    decreases |ff.freqs| - k
  {
    if k == |ff.freqs| then []
    else Build(ff.former, PrevFreq(ff, k), ff.freqs[k], ff.refs[k], NextRef(ff, k)) + Segments(ff, k + 1)
  }

  /** get_parametrized: zero before the first reference point, the built
      segments, zero from the last reference point on. */
  function GetParametrized(ff: FormFunc): (r: seq<BoundedFunction>)
    requires Valid(ff)
    ensures |r| >= 2
    ensures r[0] == BoundedFunction(NegInf, Fin(ff.refs[0]), Level(0.0))
    ensures r[|r| - 1] == BoundedFunction(Fin(ff.refs[|ff.refs| - 1]), PosInf, Level(0.0))
  {
    [BoundedFunction(NegInf, Fin(ff.refs[0]), Level(0.0))]
    + Segments(ff, 0)
    + [BoundedFunction(Fin(ff.refs[|ff.refs| - 1]), PosInf, Level(0.0))]
  }

  /** Every function built from position k on starts at or after `lo` when
      all reference points from k on do. */
  lemma {:induction false} SegmentsStartFrom(ff: FormFunc, k: nat, lo: real)
    requires Valid(ff) && k <= |ff.freqs|
    requires forall j :: k <= j < |ff.refs| ==> ff.refs[j] >= lo
    ensures StartsFrom(Segments(ff, k), lo)
    decreases |ff.freqs| - k
  {
    if k < |ff.freqs| {
      SegmentsStartFrom(ff, k + 1, lo);
      BuildShape(ff.former, PrevFreq(ff, k), ff.freqs[k], ff.refs[k], NextRef(ff, k));
      var a := Build(ff.former, PrevFreq(ff, k), ff.freqs[k], ff.refs[k], NextRef(ff, k));
      var b := Segments(ff, k + 1);
      var ab: seq<BoundedFunction> := a + b;
      assert Segments(ff, k) == ab;
      forall i | 0 <= i < |ab|
        ensures ab[i].start.Fin? && ab[i].start.x >= lo
      {
        if i >= |a| {
          assert ab[i] == b[i - |a|];
        }
      }
    }
  }

  /** Functions that all start after `t` do not cover it. */
  lemma MissAfter(r: seq<BoundedFunction>, lo: real, t: real)
    requires StartsFrom(r, lo) && t < lo
    ensures !Hit(r, t)
  {
  }

  /** From the last reference point on the form is 0. */
  lemma ZeroFromLastRef(ff: FormFunc, t: real)
    requires Valid(ff) && t >= ff.refs[|ff.refs| - 1]
    ensures Eval(GetParametrized(ff), t) == 0.0
  {
    var tail := [BoundedFunction(Fin(ff.refs[|ff.refs| - 1]), PosInf, Level(0.0))];
    assert Hit(tail, t) by { assert Condition(tail[0], t); }
    EvalConcat([BoundedFunction(NegInf, Fin(ff.refs[0]), Level(0.0))] + Segments(ff, 0), tail, t);
  }

  /** Before the first reference point the form is 0, as long as no
      reference point lies before the first one. */
  lemma ZeroBeforeFirstRef(ff: FormFunc, t: real)
    requires Valid(ff) && t < 0.0
    requires forall j :: 0 <= j < |ff.refs| ==> ff.refs[j] >= 0.0
    ensures Eval(GetParametrized(ff), t) == 0.0
  {
    SegmentsStartFrom(ff, 0, 0.0);
    var head := [BoundedFunction(NegInf, Fin(ff.refs[0]), Level(0.0))];
    var tail := [BoundedFunction(Fin(ff.refs[|ff.refs| - 1]), PosInf, Level(0.0))];
    var s := Segments(ff, 0);
    MissAfter(s, 0.0, t);
    assert !Hit(tail, t);
    EvalConcat(head + s, tail, t);
    EvalConcat(head, s, t);
    EvalLast(head, t);
  }

  /** No reference point after position k lies before reference point k
      (as with increasing reference points). */
  predicate NoneBefore(refs: seq<real>, k: nat) {
    forall j :: k < j < |refs| ==> refs[j] >= refs[k]
  }

  /** Where the built segments cover a time before the last reference
      point, the form takes their value. */
  lemma FramedBySegments(ff: FormFunc, t: real)
    requires Valid(ff) && t < ff.refs[|ff.refs| - 1]
    ensures Hit(Segments(ff, 0), t) ==> Eval(GetParametrized(ff), t) == Eval(Segments(ff, 0), t)
  {
    var head := [BoundedFunction(NegInf, Fin(ff.refs[0]), Level(0.0))];
    var tail := [BoundedFunction(Fin(ff.refs[|ff.refs| - 1]), PosInf, Level(0.0))];
    assert !Hit(tail, t) by {
      assert !Condition(tail[0], t);
    }
    EvalConcat(head + Segments(ff, 0), tail, t);
    EvalConcat(head, Segments(ff, 0), t);
  }

  /** The segment built at position k alone decides the value on
      [refs[k], refs[k + 1]) when no later reference point lies before
      point k + 1. */
  lemma SegmentDecides(ff: FormFunc, k: nat, t: real)
    requires Valid(ff) && k + 1 < |ff.refs| && NoneBefore(ff.refs, k + 1)
    requires ff.refs[k] <= t < ff.refs[k + 1]
    ensures var seg := Build(ff.former, PrevFreq(ff, k), ff.freqs[k], ff.refs[k], NextRef(ff, k));
            Hit(Segments(ff, k), t) && Eval(Segments(ff, k), t) == Eval(seg, t)
  {
    var seg := Build(ff.former, PrevFreq(ff, k), ff.freqs[k], ff.refs[k], NextRef(ff, k));
    SegmentsStartFrom(ff, k + 1, ff.refs[k + 1]);
    MissAfter(Segments(ff, k + 1), ff.refs[k + 1], t);
    EvalConcat(seg, Segments(ff, k + 1), t);
    assert Segments(ff, k) == seg + Segments(ff, k + 1);
    assert Hit(seg, t) by {
      if ff.former.Bended? {
        BendedCovers(ff.former.up, ff.former.down, PrevFreq(ff, k), ff.freqs[k], ff.refs[k], ff.refs[k + 1], t);
      } else {
        assert Condition(seg[0], t);
      }
    }
    assert Hit(Segments(ff, k), t) by {
      var i :| 0 <= i < |seg| && Condition(seg[i], t);
      assert Segments(ff, k)[i] == seg[i];
    }
  }

  /** A bended segment over a non-empty interval covers all of it. */
  lemma BendedCovers(up: real, down: real, freq0: real, freq1: real, t0: real, t1: real, t: real)
    requires up >= 0.0 && down <= 0.0 && t0 <= t < t1
    ensures Hit(BendedSegment(up, down, freq0, freq1, t0, t1), t)
  {
    var r := BendedSegment(up, down, freq0, freq1, t0, t1);
    if |r| == 1 {
      assert Condition(r[0], t);
    } else {
      assert r[0].end == r[1].start;
      if Before(t, r[0].end) {
        assert Condition(r[0], t);
      } else {
        assert Condition(r[1], t);
      }
    }
  }

  /** The straight line through (t0, freq0) and (t1, freq1), at t. */
  function Interpolate(freq0: real, freq1: real, t0: real, t1: real, t: real): real
    requires t0 != t1
  {
    freq0 + (freq1 - freq0) / (t1 - t0) * (t - t0)
  }

  /** With a linear builder, the form between reference points k and k + 1
      interpolates linearly from the previous frequency to frequency k, as
      long as no later reference point lies before point k + 1 (increasing
      reference points, say). */
  lemma LinearInterpolates(ff: FormFunc, k: nat, t: real)
    requires Valid(ff) && ff.former == LinearBuilder && k + 1 < |ff.refs| && NoneBefore(ff.refs, k + 1)
    requires ff.refs[k] <= t < ff.refs[k + 1]
    ensures Eval(GetParametrized(ff), t)
            == Interpolate(PrevFreq(ff, k), ff.freqs[k], ff.refs[k], ff.refs[k + 1], t)
  {
    assert t < ff.refs[|ff.refs| - 1] by {
      assert ff.refs[|ff.refs| - 1] >= ff.refs[k + 1];
    }
    FramedBySegments(ff, t);
    InnerInterpolates(ff, k, t);
  }

  lemma InnerInterpolates(ff: FormFunc, k: nat, t: real)
    requires Valid(ff) && ff.former == LinearBuilder && k + 1 < |ff.refs| && NoneBefore(ff.refs, k + 1)
    requires ff.refs[k] <= t < ff.refs[k + 1]
    ensures Hit(Segments(ff, 0), t)
    ensures Eval(Segments(ff, 0), t)
            == Interpolate(PrevFreq(ff, k), ff.freqs[k], ff.refs[k], ff.refs[k + 1], t)
  {
    var f0, f1, t0, t1 := PrevFreq(ff, k), ff.freqs[k], ff.refs[k], ff.refs[k + 1];
    var seg := LinearSegment(f0, f1, t0, t1);
    assert Hit(Segments(ff, k), t) && Eval(Segments(ff, k), t) == Eval(seg, t) by {
      SegmentDecides(ff, k, t);
    }
    assert Hit(Segments(ff, 0), t) && Eval(Segments(ff, 0), t) == Eval(seg, t) by {
      SegmentsHit(ff, 0, k, t);
    }
    LinearValue(f0, f1, t0, t1, t);
  }

  lemma LinearValue(freq0: real, freq1: real, t0: real, t1: real, t: real)
    requires t0 <= t < t1
    ensures Eval(LinearSegment(freq0, freq1, t0, t1), t) == Interpolate(freq0, freq1, t0, t1, t)
  {
    var r := LinearSegment(freq0, freq1, t0, t1);
    EvalLast(r, t);
  }

  /** When the functions from position k on cover `t`, the earlier
      positions do not change the value. */
  lemma {:induction false} SegmentsHit(ff: FormFunc, j: nat, k: nat, t: real)
    requires Valid(ff) && j <= k <= |ff.freqs| && Hit(Segments(ff, k), t)
    ensures Hit(Segments(ff, j), t) && Eval(Segments(ff, j), t) == Eval(Segments(ff, k), t)
    decreases k - j
  {
    if j < k {
      SegmentsHit(ff, j + 1, k, t);
      var a := Build(ff.former, PrevFreq(ff, j), ff.freqs[j], ff.refs[j], NextRef(ff, j));
      var b := Segments(ff, j + 1);
      EvalConcat(a, b, t);
      var i :| 0 <= i < |b| && Condition(b[i], t);
      assert (a + b)[|a| + i] == b[i];
    }
  }
}

=== FILE: pynum.dfy ===
/** Python's numeric conversions and slice-index rules, as far as the
    modelled code relies on them.

    The tokenizer only ever produces number strings over "0123456789+-.",
    so `int(...)` and `float(...)` are modelled as decimal parsers over that
    alphabet. Floats are modelled as exact rationals. */
module PyNum {
  import opened Wrappers

  predicate IsDigit(c: char) {
    '0' <= c <= '9'
  }

  predicate AllDigits(s: string) {
    forall i :: 0 <= i < |s| ==> IsDigit(s[i])
  }

  function DigitValue(c: char): nat
    requires IsDigit(c)
  {
    (c as int) - ('0' as int)
  }

  /** Value of a string of decimal digits, most significant first. */
  function DigitsValue(s: string): nat
    requires AllDigits(s)
  {
    if |s| == 0 then 0 else DigitsValue(s[..|s| - 1]) * 10 + DigitValue(s[|s| - 1])
  }

  function Pow10(n: nat): (p: nat)
    ensures p >= 1
  {
    if n == 0 then 1 else 10 * Pow10(n - 1)
  }

  function SignOf(s: string): (r: (int, string))
    ensures r.0 == 1 || r.0 == -1
    ensures |r.1| <= |s|
  {
    if |s| > 0 && s[0] == '-' then (-1, s[1..])
    else if |s| > 0 && s[0] == '+' then (1, s[1..])
    else (1, s)
  }

  /** Python `int(s)`: an optional sign followed by at least one digit. */
  function ParseInt(s: string): Option<int>
  {
    var (sign, body) := SignOf(s);
    if |body| > 0 && AllDigits(body) then Some(sign * DigitsValue(body)) else None
  }

  /** Index of the first '.' in `s`, or |s| when there is none. */
  function DotIndex(s: string): (k: nat)
    ensures k <= |s|
    ensures forall i :: 0 <= i < k ==> s[i] != '.'
    ensures k < |s| ==> s[k] == '.'
  {
    if |s| == 0 then 0 else if s[0] == '.' then 0 else 1 + DotIndex(s[1..])
  }

  /** Python `float(s)`: an optional sign, digits, an optional point and
      digits, with at least one digit in all ("1.", ".5" and "-2" parse;
      ".", "+" and "1.2.3" do not). */
  function ParseFloat(s: string): Option<real>
  {
    var (sign, body) := SignOf(s);
    var k := DotIndex(body);
    var whole := body[..k];
    var frac := if k < |body| then body[k + 1..] else "";
    if |whole| + |frac| > 0 && AllDigits(whole) && AllDigits(frac) then
      Some(sign as real * (DigitsValue(whole) as real + DigitsValue(frac) as real / Pow10(|frac|) as real))
    else None
  }

  /** Python `int(x)` on a float: truncation toward zero. */
  function Trunc(x: real): (r: int)
    ensures x >= 0.0 ==> r as real <= x < r as real + 1.0
    ensures x < 0.0 ==> r as real - 1.0 < x <= r as real
  {
    if x >= 0.0 then x.Floor else -((-x).Floor)
  }

  /** Python's normalisation of a slice bound `k` for a sequence of length `n`. */
  function SliceBound(k: int, n: nat): (r: nat)
    ensures r <= n
    ensures 0 <= k <= n ==> r == k
    ensures -(n as int) <= k < 0 ==> r == k + n
    ensures k > n ==> r == n
    ensures k < -(n as int) ==> r == 0
  {
    if k < 0 then (if k + n < 0 then 0 else k + n) else if k > n then n else k
  }

  /** Python `s[a:b]` with integer bounds. */
  function Slice<T>(s: seq<T>, a: int, b: int): (r: seq<T>)
    ensures var lo, hi := SliceBound(a, |s|), SliceBound(b, |s|);
            if lo < hi then r == s[lo..hi] else r == []
  {
    var lo, hi := SliceBound(a, |s|), SliceBound(b, |s|);
    if lo < hi then s[lo..hi] else []
  }

  /** Python's normalisation of a single (negative-allowed) index. */
  function Index(k: int, n: nat): Option<nat>
  {
    if 0 <= k < n then Some(k) else if -(n as int) <= k < 0 then Some(k + n) else None
  }

  /** Decimal rendering of an integer: an inverse of `ParseInt`. */
  function NatDigits(n: nat): (s: string)
    ensures |s| > 0 && AllDigits(s)
  {
    var d := [('0' as int + n % 10) as char];
    if n < 10 then d else NatDigits(n / 10) + d
  }

  function FormatInt(n: int): string
  {
    if n < 0 then "-" + NatDigits(-n) else NatDigits(n)
  }

  lemma {:induction false} NatDigitsValue(n: nat)
    ensures DigitsValue(NatDigits(n)) == n
  {
    var d := [('0' as int + n % 10) as char];
    if n >= 10 {
      NatDigitsValue(n / 10);
      var s := NatDigits(n / 10) + d;
      assert s[..|s| - 1] == NatDigits(n / 10);
    }
  }

  /** Round trip: `int(str(n)) == n`. */
  lemma ParseFormatInt(n: int)
    ensures ParseInt(FormatInt(n)) == Some(n)
  {
    if n < 0 {
      NatDigitsValue(-n);
      assert FormatInt(n)[1..] == NatDigits(-n);
    } else {
      NatDigitsValue(n);
    }
  }

  /** Every string `int()` accepts, `float()` accepts with the same value. */
  lemma ParseIntIsParseFloat(s: string)
    requires ParseInt(s).Some?
    ensures ParseFloat(s) == Some(ParseInt(s).value as real)
  {
    var (sign, body) := SignOf(s);
    var k := DotIndex(body);
    assert forall i :: 0 <= i < |body| ==> body[i] != '.';
    assert body[..k] == body;
  }
}

=== FILE: slicer.dfy ===
/** Windows on a spectrogram (audioanalyser/slicer.py): slicer
    configurations in bins or in physical values, their conversion to bins,
    the merge of a global and a local configuration into a slicer, and the
    slicer applied to a time row, a frequency column or the matrix. */
module Slicer {
  import opened Wrappers
  import opened PyNum
  import Util

  /** IndexSlicerConfig: bounds in bins, each optional. */
  datatype IndexConfig = IndexConfig(fromX: Option<int>, toX: Option<int>, fromY: Option<int>, toY: Option<int>)

  /** ValueSlicerConfig: bounds in seconds and hertz, each optional. */
  datatype ValueConfig = ValueConfig(fromX: Option<real>, toX: Option<real>, fromY: Option<real>, toY: Option<real>)

  /** Either kind of configuration. */
  datatype Config = Index(index: IndexConfig) | Value(value: ValueConfig)

  /** Two bounds on one axis are acceptable unless both are given and the
      lower one is not below the upper one. */
  predicate OrderedIndex(lo: Option<int>, hi: Option<int>) {
    lo.None? || hi.None? || lo.value < hi.value
  }

  predicate OrderedValue(lo: Option<real>, hi: Option<real>) {
    lo.None? || hi.None? || lo.value < hi.value
  }

  predicate ValidIndex(c: IndexConfig) {
    OrderedIndex(c.fromX, c.toX) && OrderedIndex(c.fromY, c.toY)
  }

  predicate ValidValue(c: ValueConfig) {
    OrderedValue(c.fromX, c.toX) && OrderedValue(c.fromY, c.toY)
  }

  /** The shared __post_init__ check, run when an IndexSlicerConfig is made. */
  function NewIndexConfig(fromX: Option<int>, toX: Option<int>, fromY: Option<int>, toY: Option<int>): (r: Result<IndexConfig>)
    ensures r.Ok? <==> OrderedIndex(fromX, toX) && OrderedIndex(fromY, toY)
    ensures r.Ok? ==> r.value == IndexConfig(fromX, toX, fromY, toY) && ValidIndex(r.value)
  {
    if fromX.Some? && toX.Some? && fromX.value >= toX.value then Err("from_x must be smaller than to_x")
    else if fromY.Some? && toY.Some? && fromY.value >= toY.value then Err("from_y must be smaller than to_y")
    else Ok(IndexConfig(fromX, toX, fromY, toY))
  }

  /** The same check, run when a ValueSlicerConfig is made. */
  function NewValueConfig(fromX: Option<real>, toX: Option<real>, fromY: Option<real>, toY: Option<real>): (r: Result<ValueConfig>)
    ensures r.Ok? <==> OrderedValue(fromX, toX) && OrderedValue(fromY, toY)
    ensures r.Ok? ==> r.value == ValueConfig(fromX, toX, fromY, toY) && ValidValue(r.value)
  {
    if fromX.Some? && toX.Some? && fromX.value >= toX.value then Err("from_x must be smaller than to_x")
    else if fromY.Some? && toY.Some? && fromY.value >= toY.value then Err("from_y must be smaller than to_y")
    else Ok(ValueConfig(fromX, toX, fromY, toY))
  }

  /** A value bound and the bin bound it became: absent stays absent, a
      given value becomes its bin. */
  predicate ConvertedBound(v: Option<real>, i: Option<int>, zMax: real, n: int) {
    (v.None? <==> i.None?) && (v.Some? && i.Some? ==> Util.ConvertToIdx(v.value, zMax, n) == Ok(i.value))
  }

  /** convert_to_idx_if_not_none. */
  function ConvertBound(v: Option<real>, zMax: real, n: int): (r: Result<Option<int>>)
    ensures r.Err? <==> v.Some? && (n == 0 || zMax == 0.0)
    ensures r.Ok? ==> ConvertedBound(v, r.value, zMax, n)
  {
    match v
    case None => Ok(None)
    case Some(z) =>
      var i := Util.ConvertToIdx(z, zMax, n);
      if i.Err? then Err(i.msg) else Ok(Some(i.value))
  }

  /** A bound of this axis cannot be converted. */
  predicate Unconvertible(lo: Option<real>, hi: Option<real>, zMax: real, n: int) {
    (lo.Some? || hi.Some?) && (n == 0 || zMax == 0.0)
  }

  /** convert_to_idx_config: every given bound becomes its bin, and the
      resulting index configuration is checked again, so two values in the
      same bin are refused. */
  function ConvertToIdxConfig(c: ValueConfig, nX: int, nY: int, xMax: real, yMax: real): (r: Result<IndexConfig>)
    ensures r.Ok? ==> ConvertedBound(c.fromX, r.value.fromX, xMax, nX) && ConvertedBound(c.toX, r.value.toX, xMax, nX)
                      && ConvertedBound(c.fromY, r.value.fromY, yMax, nY) && ConvertedBound(c.toY, r.value.toY, yMax, nY)
                      && ValidIndex(r.value)
    ensures Unconvertible(c.fromX, c.toX, xMax, nX) || Unconvertible(c.fromY, c.toY, yMax, nY) ==> r.Err?
  {
    var fx := ConvertBound(c.fromX, xMax, nX);
    var tx := ConvertBound(c.toX, xMax, nX);
    var fy := ConvertBound(c.fromY, yMax, nY);
    var ty := ConvertBound(c.toY, yMax, nY);
    if fx.Err? then Err(fx.msg)
    else if tx.Err? then Err(tx.msg)
    else if fy.Err? then Err(fy.msg)
    else if ty.Err? then Err(ty.msg)
    else NewIndexConfig(fx.value, tx.value, fy.value, ty.value)
  }

  /** With positive maxima and bin counts every bound converts, and the
      conversion fails exactly when two bounds of an axis land in bins in
      the wrong order. */
  lemma ConvertErrors(c: ValueConfig, nX: int, nY: int, xMax: real, yMax: real)
    requires nX > 0 && nY > 0 && xMax > 0.0 && yMax > 0.0
    ensures var r := ConvertToIdxConfig(c, nX, nY, xMax, yMax);
            r.Err? <==> !ValidIndex(IndexConfig(
                           ConvertBound(c.fromX, xMax, nX).value, ConvertBound(c.toX, xMax, nX).value,
                           ConvertBound(c.fromY, yMax, nY).value, ConvertBound(c.toY, yMax, nY).value))
  {
  }

  /** A valid value window whose two ends fall into one bin is refused after
      conversion: 0.1 s and 0.2 s are both in bin 0 of one 1-second bin. */
  lemma SameBinRefused()
    ensures ValidValue(ValueConfig(Some(0.1), Some(0.2), None, None))
    ensures ConvertToIdxConfig(ValueConfig(Some(0.1), Some(0.2), None, None), 1, 1, 1.0, 1.0).Err?
  {
    assert Util.ConvertToIdx(0.1, 1.0, 1) == Ok(0);
    assert Util.ConvertToIdx(0.2, 1.0, 1) == Ok(0);
  }

  /** Converting an ordered value window gives an ordered bin window, not
      necessarily a strictly ordered one. */
  lemma ConvertKeepsOrder(lo: real, hi: real, zMax: real, n: int)
    requires zMax > 0.0 && n > 0 && lo < hi
    ensures Util.ConvertToIdx(lo, zMax, n).value <= Util.ConvertToIdx(hi, zMax, n).value
  {
    Util.ConvertMonotone(lo, hi, zMax, n);
  }

  /** Slicer: the shape it expects and the bin window it cuts. */
  datatype Slicer = Slicer(nX: int, nY: int, xMax: real, yMax: real, fromX: int, toX: int, fromY: int, toY: int)

  /** SlicerFactory: the spectrogram shape and an optional global
      configuration. */
  datatype Factory = Factory(nX: int, nY: int, xMax: real, yMax: real, global: Option<Config>)

  /** _parse_global_slice_cfg / _parse_local_slice_cfg: no configuration is
      the empty index configuration, a value configuration is converted. */
  function Parse(f: Factory, c: Option<Config>): (r: Result<IndexConfig>)
    ensures c.None? ==> r == Ok(IndexConfig(None, None, None, None))
    ensures c.Some? && c.value.Index? ==> r == Ok(c.value.index)
    ensures c.Some? && c.value.Value? ==> r == ConvertToIdxConfig(c.value.value, f.nX, f.nY, f.xMax, f.yMax)
  {
    match c
    case None => Ok(IndexConfig(None, None, None, None))
    case Some(Index(i)) => Ok(i)
    case Some(Value(v)) => ConvertToIdxConfig(v, f.nX, f.nY, f.xMax, f.yMax)
  }

  /** `bound or 0`: an absent lower bound is 0. */
  function Lower(b: Option<int>): int {
    if b.None? || b.value == 0 then 0 else b.value
  }

  /** `bound or n`: an absent upper bound is n, and so is an upper bound of
      0, which Python's `or` treats as absent. */
  function Upper(b: Option<int>, n: int): int {
    if b.None? || b.value == 0 then n else b.value
  }

  /** The bins of one axis a configuration lets through. */
  predicate InWindow(lo: Option<int>, hi: Option<int>, n: int, i: int) {
    Lower(lo) <= i < Upper(hi, n)
  }

  function Max(a: int, b: int): int {
    if a >= b then a else b
  }

  function Min(a: int, b: int): int {
    if a <= b then a else b
  }

  /** SlicerFactory.build: both configurations in bins, then the window
      the two let through together. Nothing checks that the result is
      non-empty. */
  function Build(f: Factory, local: Option<Config>): (r: Result<Slicer>)
    ensures r.Err? <==> Parse(f, f.global).Err? || Parse(f, local).Err?
    ensures r.Ok? ==> r.value.nX == f.nX && r.value.nY == f.nY && r.value.xMax == f.xMax && r.value.yMax == f.yMax
    ensures r.Ok? ==> var g, l := Parse(f, f.global).value, Parse(f, local).value;
                      forall i :: r.value.fromX <= i < r.value.toX
                                  <==> InWindow(g.fromX, g.toX, f.nX, i) && InWindow(l.fromX, l.toX, f.nX, i)
    ensures r.Ok? ==> var g, l := Parse(f, f.global).value, Parse(f, local).value;
                      forall i :: r.value.fromY <= i < r.value.toY
                                  <==> InWindow(g.fromY, g.toY, f.nY, i) && InWindow(l.fromY, l.toY, f.nY, i)
  {
    var g := Parse(f, f.global);
    var l := Parse(f, local);
    if g.Err? then Err(g.msg)
    else if l.Err? then Err(l.msg)
    else
      var g, l := g.value, l.value;
      Ok(Slicer(f.nX, f.nY, f.xMax, f.yMax,
                Max(Lower(g.fromX), Lower(l.fromX)), Min(Upper(g.toX, f.nX), Upper(l.toX, f.nX)),
                Max(Lower(g.fromY), Lower(l.fromY)), Min(Upper(g.toY, f.nY), Upper(l.toY, f.nY))))
  }

  /** Without any configuration the slicer covers the whole matrix. */
  lemma BuildFull(nX: int, nY: int, xMax: real, yMax: real)
    ensures Build(Factory(nX, nY, xMax, yMax, None), None)
            == Ok(Slicer(nX, nY, xMax, yMax, 0, nX, 0, nY))
  {
  }

  /** An upper bound of 0 is read as no bound at all. */
  lemma ZeroUpperIgnored(nX: int, nY: int, xMax: real, yMax: real)
    ensures Build(Factory(nX, nY, xMax, yMax, None), Some(Index(IndexConfig(None, Some(0), None, None))))
            == Ok(Slicer(nX, nY, xMax, yMax, 0, nX, 0, nY))
  {
  }

  /** Disjoint global and local windows give a slicer whose lower bound
      lies above its upper bound instead of an error. */
  lemma DisjointNotRefused()
    ensures var f := Factory(10, 10, 1.0, 1.0, Some(Index(IndexConfig(Some(5), Some(8), None, None))));
            var r := Build(f, Some(Index(IndexConfig(Some(1), Some(3), None, None))));
            r.Ok? && r.value.fromX == 5 && r.value.toX == 3
  {
  }

  /** A numpy array of one or two dimensions. */
  datatype Array<T> = Vec(items: seq<T>) | Mat(rows: seq<seq<T>>, width: nat)

  /** The array has shape (n,). */
  predicate IsVec<T>(a: Array<T>, n: int) {
    a.Vec? && |a.items| == n
  }

  /** The array has shape (rows, cols). */
  predicate IsMat<T>(a: Array<T>, rows: int, cols: int) {
    a.Mat? && |a.rows| == rows && a.width == cols
    && forall i :: 0 <= i < |a.rows| ==> |a.rows[i]| == a.width
  }

  /** x[from_x:to_x] and friends. */
  function XSlice<T>(s: Slicer, v: seq<T>): seq<T> {
    Slice(v, s.fromX, s.toX)
  }

  function YSlice<T>(s: Slicer, v: seq<T>): seq<T> {
    Slice(v, s.fromY, s.toY)
  }

  /** Width of the x window of a row of n_x entries. */
  function XWidth(s: Slicer, n: nat): nat {
    var lo, hi := SliceBound(s.fromX, n), SliceBound(s.toX, n);
    if lo < hi then hi - lo else 0
  }

  lemma XSliceWidth<T>(s: Slicer, v: seq<T>)
    ensures |XSlice(s, v)| == XWidth(s, |v|)
  {
  }

  /** matrix[y_slice, x_slice]. */
  function MatrixSlice<T>(s: Slicer, rows: seq<seq<T>>, width: nat): (r: Array<T>)
    requires forall i :: 0 <= i < |rows| ==> |rows[i]| == width
    ensures IsMat(r, |YSlice(s, rows)|, XWidth(s, width))
  {
    var ys := YSlice(s, rows);
    assert forall i :: 0 <= i < |ys| ==> ys[i] in rows;
    Mat(seq(|ys|, i requires 0 <= i < |ys| => XSlice(s, ys[i])), XWidth(s, width))
  }

  /** Entry (i, j) of the cut matrix is entry (lo + i, xlo + j) of the
      matrix, lo and xlo the normalised lower bounds of the window. */
  lemma MatrixSliceAt<T>(s: Slicer, rows: seq<seq<T>>, width: nat, i: nat, j: nat)
    requires forall k :: 0 <= k < |rows| ==> |rows[k]| == width
    requires i < |MatrixSlice(s, rows, width).rows| && j < |MatrixSlice(s, rows, width).rows[i]|
    ensures var lo, xlo := SliceBound(s.fromY, |rows|), SliceBound(s.fromX, width);
            lo + i < |rows| && xlo + j < width
            && MatrixSlice(s, rows, width).rows[i][j] == rows[lo + i][xlo + j]
  {
    var m := MatrixSlice(s, rows, width).rows;
    var ys := YSlice(s, rows);
    var lo := SliceBound(s.fromY, |rows|);
    assert ys[i] == rows[lo + i];
    assert m[i] == XSlice(s, ys[i]);
  }

  /** Slicer.__call__: exactly one of x, y and matrix, of the expected
      shape, cut to the window. */
  function Call<T>(s: Slicer, x: Option<Array<T>>, y: Option<Array<T>>, matrix: Option<Array<T>>): (r: Result<Array<T>>)
    ensures (if x.Some? then 1 else 0) + (if y.Some? then 1 else 0) + (if matrix.Some? then 1 else 0) != 1 ==> r.Err?
    ensures x.Some? && y.None? && matrix.None? ==>
              (r.Ok? <==> IsVec(x.value, s.nX)) && (r.Ok? ==> r.value == Vec(XSlice(s, x.value.items)))
    ensures x.None? && y.Some? && matrix.None? ==>
              (r.Ok? <==> IsVec(y.value, s.nY)) && (r.Ok? ==> r.value == Vec(YSlice(s, y.value.items)))
    ensures x.None? && y.None? && matrix.Some? ==>
              (r.Ok? <==> IsMat(matrix.value, s.nY, s.nX))
              && (r.Ok? ==> r.value == MatrixSlice(s, matrix.value.rows, matrix.value.width))
  {
    match (x, y, matrix)
    case (Some(a), None, None) =>
      if !IsVec(a, s.nX) then Err("x must be shape (n_x,)") else Ok(Vec(XSlice(s, a.items)))
    case (None, Some(a), None) =>
      if !IsVec(a, s.nY) then Err("y must be shape (n_y,)") else Ok(Vec(YSlice(s, a.items)))
    case (None, None, Some(a)) =>
      if !IsMat(a, s.nY, s.nX) then Err("matrix must be shape (n_y, n_x)")
      else Ok(MatrixSlice(s, a.rows, a.width))
    case _ => Err("Exactly one of x, y or matrix must be given")
  }

  /** A window inside the matrix cuts out exactly its entries: entry (i, j)
      of the result is entry (from_y + i, from_x + j) of the matrix. */
  lemma MatrixWindow<T>(s: Slicer, m: Array<T>)
    requires IsMat(m, s.nY, s.nX)
    requires 0 <= s.fromX <= s.toX <= s.nX && 0 <= s.fromY <= s.toY <= s.nY
    ensures var r := Call(s, None, None, Some(m));
            r.Ok? && IsMat(r.value, s.toY - s.fromY, s.toX - s.fromX)
            && forall i, j :: 0 <= i < s.toY - s.fromY && 0 <= j < s.toX - s.fromX ==>
                 r.value.rows[i][j] == m.rows[s.fromY + i][s.fromX + j]
  {
    var r := Call(s, None, None, Some(m));
    forall i, j | 0 <= i < s.toY - s.fromY && 0 <= j < s.toX - s.fromX
      ensures r.value.rows[i][j] == m.rows[s.fromY + i][s.fromX + j]
    {
      assert YSlice(s, m.rows)[i] == m.rows[s.fromY + i];
    }
  }

  /** A row inside the window keeps its entries in order. */
  lemma RowWindow<T>(s: Slicer, v: seq<T>)
    requires |v| == s.nX && 0 <= s.fromX <= s.toX <= s.nX
    ensures Call(s, Some(Vec(v)), None, None) == Ok(Vec(v[s.fromX..s.toX]))
  {
    if s.fromX == s.toX {
      assert v[s.fromX..s.toX] == [];
    }
  }
}

=== FILE: snapshot.dfy ===
/** The snapshot block: a short piece of G-code whose occurrences in the
    program are located, and whose spindle frequency is known in advance.
    gcanalyser/snapshotmanager.py and gcanalyser/syncinfomanager.py carry
    the same three routines; they are defined once here. */
module Snapshot {
  import opened Wrappers
  import opened PyNum
  import opened StringFunctions
  import opened LineExtractor
  import opened CncParameter

  // ---------------------------------------------------------------- reading

  /** A snapshot line after its surrounding newlines are stripped and its
      letters upper-cased. */
  function Normalize(line: string): string {
    Upper(StripNewlines(line))
  }

  /** Lines that survive: neither empty nor a ';' comment. */
  predicate IsSnapshotLine(s: string) {
    |s| > 0 && s[0] != ';'
  }

  /** Reference: the lines that survive, in their order. */
  function Filter(lines: seq<string>): (r: seq<string>)
    ensures |r| <= |lines|
    ensures forall k :: 0 <= k < |r| ==> IsSnapshotLine(r[k])
  {
    if |lines| == 0 then []
    else
      var x := lines[|lines| - 1];
      Filter(lines[..|lines| - 1]) + (if IsSnapshotLine(x) then [x] else [])
  }

  /** Lines that are all kept come through unchanged and in order. */
  lemma {:induction false} FilterKeepsClean(lines: seq<string>)
    requires forall k :: 0 <= k < |lines| ==> IsSnapshotLine(lines[k])
    ensures Filter(lines) == lines
  {
    if |lines| > 0 {
      FilterKeepsClean(lines[..|lines| - 1]);
      assert lines == lines[..|lines| - 1] + [lines[|lines| - 1]];
    }
  }

  /** Every kept line is one of the input lines. */
  lemma {:induction false} FilterIsSubset(lines: seq<string>)
    ensures forall x :: x in Filter(lines) ==> x in lines
  {
    if |lines| > 0 {
      var p := lines[..|lines| - 1];
      FilterIsSubset(p);
      assert forall x :: x in p ==> x in lines;
    }
  }

  lemma FilterStep(lines: seq<string>, j: nat)
    requires j < |lines|
    ensures Filter(lines[..j + 1]) == Filter(lines[..j]) + (if IsSnapshotLine(lines[j]) then [lines[j]] else [])
  {
    assert lines[..j + 1][..j] == lines[..j];
  }

  /** One step of the deletion loop, as a sequence fact: with `f` already
      kept, the next original line is dropped or kept. */
  lemma DropStep(f: seq<string>, lines: seq<string>, j: nat)
    requires j < |lines| && f == Filter(lines[..j])
    ensures IsSnapshotLine(lines[j]) ==> f + lines[j..] == Filter(lines[..j + 1]) + lines[j + 1..]
    ensures !IsSnapshotLine(lines[j]) ==> f + lines[j + 1..] == Filter(lines[..j + 1]) + lines[j + 1..]
    ensures |Filter(lines[..j + 1])| == |f| + (if IsSnapshotLine(lines[j]) then 1 else 0)
  {
    FilterStep(lines, j);
    assert lines[j..] == [lines[j]] + lines[j + 1..];
  }

  /** The in-place deletion loop of get_snapshot: an index that only
      advances past a kept line, a `pop` for every other one. */
  method DropSkipped(lines: seq<string>) returns (r: seq<string>)
    ensures r == Filter(lines)
  {
    var list := lines;
    ghost var j := 0;
    var i := 0;
    while i < |list|
      invariant 0 <= j <= |lines|
      invariant i == |Filter(lines[..j])|
      invariant list == Filter(lines[..j]) + lines[j..]
      decreases |list| - i
    {
      ghost var f := Filter(lines[..j]);
      assert list[i] == lines[j];
      DropStep(f, lines, j);
      if list[i] == "" || list[i][0] == ';' {
        assert !IsSnapshotLine(lines[j]);
        assert list[..i] == f && list[i + 1..] == lines[j + 1..];
        list := list[..i] + list[i + 1..];
      } else {
        assert IsSnapshotLine(lines[j]);
        i := i + 1;
      }
      j := j + 1;
    }
    assert lines[..j] == lines;
    r := list;
  }

  function NormalizeAll(lines: seq<string>): (r: seq<string>)
    ensures |r| == |lines| && forall k :: 0 <= k < |lines| ==> r[k] == Normalize(lines[k])
  {
    seq(|lines|, k requires 0 <= k < |lines| => Normalize(lines[k]))
  }

  /** get_snapshot: every line normalised, then the empty and comment lines
      deleted. */
  method GetSnapshot(lines: seq<string>) returns (r: seq<string>)
    ensures r == Filter(NormalizeAll(lines))
  {
    r := DropSkipped(NormalizeAll(lines));
  }

  // ---------------------------------------------------------------- frequency

  /** The spindle frequency in Hz of a positive snapshot S word: an absolute
      S above S_MAX and a relative S above 100 % are errors. */
  function SFrequency(s: real, p: Params): (r: Result<int>)
    requires s > 0.0
    ensures r.Err? <==> (p.sIsAbsolute && s > p.sMax) || (!p.sIsAbsolute && s > 100.0)
    ensures r.Ok? && p.sIsAbsolute ==> 0 <= r.value && r.value as real * 60.0 <= s < r.value as real * 60.0 + 60.0
    ensures r.Ok? && !p.sIsAbsolute && p.sMax >= 0.0 ==>
              var rpm := p.sMax * s / 100.0;
              0 <= r.value && r.value as real * 60.0 <= rpm < r.value as real * 60.0 + 60.0
  {
    if p.sIsAbsolute then
      if s > p.sMax then Err("S value in snapshot is too high.") else Ok(Trunc(s / 60.0))
    else if s > 100.0 then Err("Relative S value > 100")
    else Ok(Trunc(p.sMax * s / 100.0 / 60.0))
  }

  /** An S word whose number is positive. */
  predicate PositiveS(t: Token) {
    t.name == "S" && ParseFloat(t.number).Some? && ParseFloat(t.number).value > 0.0
  }

  /** An S word that ends the scan of a line: its number does not parse,
      or it is positive. */
  predicate Decisive(t: Token) {
    t.name == "S" && (ParseFloat(t.number).None? || ParseFloat(t.number).value > 0.0)
  }

  /** Position of the first decisive S word. */
  function FirstDecisive(ts: seq<Token>): (r: Option<nat>)
    ensures r.None? <==> forall k :: 0 <= k < |ts| ==> !Decisive(ts[k])
    ensures r.Some? ==> r.value < |ts| && Decisive(ts[r.value])
                        && forall k :: 0 <= k < r.value ==> !Decisive(ts[k])
  {
    if |ts| == 0 then None
    else if Decisive(ts[0]) then Some(0)
    else
      var tail := FirstDecisive(ts[1..]);
      if tail.None? then None else Some(tail.value + 1)
  }

  /** The frequency of one tokenised snapshot line: the first positive S
      word decides; an S word before it that is not a number is an error. */
  function TokensFrequency(ts: seq<Token>, p: Params): (r: Result<Option<int>>)
    ensures r == Ok(None) <==> forall k :: 0 <= k < |ts| ==> !Decisive(ts[k])
    ensures r.Ok? && r.value.Some? ==>
              var k := FirstDecisive(ts).value;
              PositiveS(ts[k]) && SFrequency(ParseFloat(ts[k].number).value, p) == Ok(r.value.value)
  {
    var i := FirstDecisive(ts);
    if i.None? then Ok(None)
    else
      var v := ParseFloat(ts[i.value].number);
      if v.None? then Err("could not convert string to float")
      else
        var f := SFrequency(v.value, p);
        if f.Err? then Err(f.msg) else Ok(Some(f.value))
  }

  /** The frequency a single extracted snapshot line contributes. */
  function LineFrequency(line: Result<seq<Token>>, p: Params): Result<Option<int>> {
    if line.Err? then Err(line.msg) else TokensFrequency(line.value, p)
  }

  /** The constructor's frequency loop over the extracted snapshot lines:
      each line with a positive S word overwrites the frequency found so
      far (`acc`); the first failing line is the error. */
  function Frequency(lines: seq<Result<seq<Token>>>, p: Params, acc: Option<int>): (r: Result<Option<int>>)
    ensures r.Err? <==> exists k :: 0 <= k < |lines| && LineFrequency(lines[k], p).Err?
    ensures r == Ok(acc) <== forall k :: 0 <= k < |lines| ==> LineFrequency(lines[k], p) == Ok(None)
  {
    if |lines| == 0 then Ok(acc)
    else
      var f := LineFrequency(lines[0], p);
      if f.Err? then Err(f.msg)
      else
        var r := Frequency(lines[1..], p, if f.value.Some? then f.value else acc);
        assert forall k :: 1 <= k < |lines| ==> lines[1..][k - 1] == lines[k];
        r
  }

  function ExtractAll(lines: seq<string>): (r: seq<Result<seq<Token>>>)
    ensures |r| == |lines| && forall k :: 0 <= k < |lines| ==> r[k] == Extract(lines[k])
  {
    seq(|lines|, k requires 0 <= k < |lines| => Extract(lines[k]))
  }

  /** The snapshot frequency of the (already filtered) snapshot lines;
      `None` when no line has a positive S word. */
  function SnapshotFrequency(snapshot: seq<string>, p: Params): (r: Result<Option<int>>)
    ensures r.Err? <==> exists k :: 0 <= k < |snapshot| && LineFrequency(Extract(snapshot[k]), p).Err?
  {
    var lines := ExtractAll(snapshot);
    var r := Frequency(lines, p, None);
    assert forall k :: 0 <= k < |snapshot| ==> lines[k] == Extract(snapshot[k]);
    r
  }

  /** The snapshot frequency: the last snapshot line with a positive S word
      sets it; when no line does, there is none. */
  lemma {:induction false} LastPositiveSWins(lines: seq<Result<seq<Token>>>, p: Params, acc: Option<int>)
    requires Frequency(lines, p, acc).Ok?
    ensures var r := Frequency(lines, p, acc).value;
            (r == acc && forall k :: 0 <= k < |lines| ==> LineFrequency(lines[k], p) == Ok(None))
            || (exists k :: 0 <= k < |lines| && LineFrequency(lines[k], p) == Ok(r) && r.Some?
                             && forall j :: k < j < |lines| ==> LineFrequency(lines[j], p) == Ok(None))
  {
    if |lines| > 0 {
      var f := LineFrequency(lines[0], p);
      var next := if f.value.Some? then f.value else acc;
      var tail := lines[1..];
      LastPositiveSWins(tail, p, next);
      var r := Frequency(lines, p, acc).value;
      assert r == Frequency(tail, p, next).value;
      assert forall j :: 0 < j < |lines| ==> lines[j] == tail[j - 1];
      if !(r == next && forall k :: 0 <= k < |tail| ==> LineFrequency(tail[k], p) == Ok(None)) {
        var k :| 0 <= k < |tail| && LineFrequency(tail[k], p) == Ok(r) && r.Some?
                 && forall j :: k < j < |tail| ==> LineFrequency(tail[j], p) == Ok(None);
        assert lines[k + 1] == tail[k];
      }
    }
  }

  // ---------------------------------------------------------------- matching

  /** The program line's tokens without its first N word. */
  function WithoutLineNumber(ts: seq<Token>): (r: seq<Token>)
    ensures (forall k :: 0 <= k < |ts| ==> ts[k].name != "N") ==> r == ts
    ensures forall i :: 0 <= i < |ts| && ts[i].name == "N" && (forall k :: 0 <= k < i ==> ts[k].name != "N")
                        ==> r == ts[..i] + ts[i + 1..]
  {
    var i := FirstIndex(ts, "N");
    if i.None? then ts else RemoveAt(ts, i.value)
  }

  /** Whether an extracted snapshot line `s` and program line `g` carry
      the same words: the same number of tokens and each pair equal as
      strings, once the program line's line number is gone. */
  function LineMatches(s: Result<seq<Token>>, g: Result<seq<Token>>): (r: Result<bool>)
    ensures r.Err? <==> s.Err? || g.Err?
    ensures r.Ok? ==> (r.value <==> s.value == WithoutLineNumber(g.value))
  {
    if s.Err? then Err(s.msg)
    else if g.Err? then Err(g.msg)
    else
      var w := WithoutLineNumber(g.value);
      if |s.value| != |w| then Ok(false)
      else Ok(forall k :: 0 <= k < |w| ==> s.value[k] == w[k])
  }

  /** The comparison loop of check_start_of_snapshot, over the outcomes
      `cmp` of comparing snapshot line k with program line k, for the
      `total` snapshot lines (`cmp` is shorter when the program runs out):
      the first false answers false, the first error is the error, and
      running out of program lines is an index error. */
  function FirstFalse(cmp: seq<Result<bool>>, total: nat): (r: Result<bool>)
    requires |cmp| <= total
    ensures r == Ok(true) <==> |cmp| == total && forall k :: 0 <= k < |cmp| ==> cmp[k] == Ok(true)
    ensures r == Ok(false) <==> exists k :: 0 <= k < |cmp| && cmp[k] == Ok(false)
                                            && forall j :: 0 <= j < k ==> cmp[j] == Ok(true)
  {
    if total == 0 then Ok(true)
    else if |cmp| == 0 then Err("list index out of range")
    else if cmp[0].Err? then Err(cmp[0].msg)
    else if !cmp[0].value then Ok(false)
    else
      var r := FirstFalse(cmp[1..], total - 1);
      assert forall k :: 1 <= k < |cmp| ==> cmp[1..][k - 1] == cmp[k];
      assert r == Ok(false) ==> exists k :: 0 <= k < |cmp| && cmp[k] == Ok(false)
                                            && forall j :: 0 <= j < k ==> cmp[j] == Ok(true) by {
        if r == Ok(false) {
          var k :| 0 <= k < |cmp| - 1 && cmp[1..][k] == Ok(false)
                   && forall j :: 0 <= j < k ==> cmp[1..][j] == Ok(true);
          assert cmp[k + 1] == Ok(false);
        }
      }
      r
  }

  /** check_start_of_snapshot on the snapshot and the program lines from
      the candidate line on: true iff there are enough program lines and
      each extracts to the snapshot line's words once its line number is
      removed. */
  function StartsSnapshot(snapshot: seq<string>, program: seq<string>): (r: Result<bool>)
    ensures r == Ok(true) <==>
              |program| >= |snapshot| && forall k :: 0 <= k < |snapshot| ==>
                LineMatches(Extract(snapshot[k]), Extract(program[k])) == Ok(true)
  {
    var n := if |program| < |snapshot| then |program| else |snapshot|;
    var cmp := seq(n, k requires 0 <= k < n => LineMatches(Extract(snapshot[k]), Extract(program[k])));
    var r := FirstFalse(cmp, |snapshot|);
    assert |cmp| == |snapshot| <==> |program| >= |snapshot|;
    assert r == Ok(true) ==> forall k :: 0 <= k < |snapshot| ==>
                LineMatches(Extract(snapshot[k]), Extract(program[k])) == Ok(true) by {
      if r == Ok(true) {
        forall k | 0 <= k < |snapshot|
          ensures LineMatches(Extract(snapshot[k]), Extract(program[k])) == Ok(true)
        {
          assert cmp[k] == Ok(true);
        }
      }
    }
    r
  }

  /** A program line that is the snapshot line with a line number in front
      matches it. */
  lemma NumberedLineMatches(s: seq<Token>, n: string, g: seq<Token>)
    requires g == [Token("N", n)] + s
    ensures LineMatches(Ok(s), Ok(g)) == Ok(true)
  {
    var ts := g;
    assert ts[0].name == "N";
    assert WithoutLineNumber(ts) == ts[..0] + ts[1..];
  }
}

=== FILE: snapshotmanager.dfy ===
/** The snapshot manager (gcanalyser/snapshotmanager.py): the filtered
    snapshot, its frequency and the program lines where it starts. Reading
    the snapshot file is replaced by its list of lines. */
module SnapshotManager {
  import opened Wrappers
  import opened LineExtractor
  import opened CncParameter
  import opened Snapshot

  datatype Manager = Manager(
    snapshot: seq<string>,
    length: nat,
    frequency: Option<int>,  // Hz; `None` where the source leaves it unset
    starts: seq<int>)

  /** The constructor: the snapshot length is that of the filtered list,
      since the filtering happens in place on the list that is measured. */
  method New(lines: seq<string>, p: Params) returns (r: Result<Manager>)
    ensures r.Err? <==> SnapshotFrequency(Filter(NormalizeAll(lines)), p).Err?
    ensures r.Ok? ==> r.value.snapshot == Filter(NormalizeAll(lines))
                      && r.value.length == |r.value.snapshot| && r.value.starts == []
                      && Ok(r.value.frequency) == SnapshotFrequency(r.value.snapshot, p)
  {
    var snapshot := GetSnapshot(lines);
    var f := SnapshotFrequency(snapshot, p);
    if f.Err? {
      return Err(f.msg);
    }
    return Ok(Manager(snapshot, |snapshot|, f.value, []));
  }

  /** check_start_of_snapshot: records `line` and answers true when the
      program lines from `line` on start with the snapshot; a mismatch
      answers false and records nothing. */
  function CheckStart(m: Manager, line: int, program: seq<string>): (r: Result<(Manager, bool)>)
    requires m.length == |m.snapshot|
    ensures r.Ok? ==> r.value.1 == (StartsSnapshot(m.snapshot, program) == Ok(true))
    ensures r.Ok? && r.value.1 ==> r.value.0 == m.(starts := m.starts + [line])
    ensures r.Ok? && !r.value.1 ==> r.value.0 == m
    ensures r.Err? <==> StartsSnapshot(m.snapshot, program).Err?
  {
    var s := StartsSnapshot(m.snapshot, program);
    if s.Err? then Err(s.msg)
    else if s.value then Ok((m.(starts := m.starts + [line]), true))
    else Ok((m, false))
  }

  /** `update` is not implemented: the manager is left as it is. */
  function Update(m: Manager, stamps: seq<(int, real)>): (r: Manager)
    ensures r == m
  {
    m
  }
}

=== FILE: sound.dfy ===
/** A buffer of audio samples and its division into consecutive parts
    (gcaudiosync/sound.py). */
module Sound {
  import opened Wrappers
  import opened PyNum

  /** The sample array: one value per sample, or `width` channel values
      per sample. */
  datatype Data = OneD(samples: seq<real>) | TwoD(frames: seq<seq<real>>, width: nat)

  datatype SoundData = SoundData(samplerate: int, data: Data)

  /** The length of the first axis. */
  function NSamples(s: SoundData): (n: nat)
    ensures s.data.OneD? ==> n == |s.data.samples|
    ensures s.data.TwoD? ==> n == |s.data.frames|
  {
    match s.data
    case OneD(xs) => |xs|
    case TwoD(fs, _) => |fs|
  }

  /** 1 for a one-dimensional array, otherwise the second dimension. */
  function NChannels(s: SoundData): (c: nat)
    ensures s.data.OneD? ==> c == 1
    ensures s.data.TwoD? ==> c == s.data.width
  {
    if s.data.OneD? then 1 else s.data.width
  }

  /** The duration in seconds; a sample rate of 0 is a division by zero. */
  function Duration(s: SoundData): (r: Result<real>)
    ensures r.Err? <==> s.samplerate == 0
    ensures r.Ok? ==> r.value * s.samplerate as real == NSamples(s) as real
  {
    if s.samplerate == 0 then Err("division by zero")
    else Ok(NSamples(s) as real / s.samplerate as real)
  }

  /** The part boundaries [0, i₁, …, iₖ] paired with [i₁, …, iₖ, n]. */
  function Bounds(indices: seq<int>, n: nat): (b: seq<int>)
    ensures |b| == |indices| + 2 && b[0] == 0 && b[|b| - 1] == n
    ensures forall k :: 0 <= k < |indices| ==> b[k + 1] == indices[k]
  {
    [0] + indices + [n]
  }

  /** The slices between consecutive boundaries, with Python's slice
      semantics on each bound. */
  function PartsBy<T>(data: seq<T>, b: seq<int>): (r: seq<seq<T>>)
    requires |b| > 0
    ensures |r| == |b| - 1 && forall k :: 0 <= k < |r| ==> r[k] == Slice(data, b[k], b[k + 1])
  {
    seq(|b| - 1, k requires 0 <= k < |b| - 1 => Slice(data, b[k], b[k + 1]))
  }

  /** The parts `data[b_k:b_{k+1}]` of a sequence. */
  function SplitSeq<T>(data: seq<T>, indices: seq<int>): (r: seq<seq<T>>)
    ensures |r| == |indices| + 1
    ensures forall k :: 0 <= k < |r| ==>
              r[k] == Slice(data, Bounds(indices, |data|)[k], Bounds(indices, |data|)[k + 1])
  {
    PartsBy(data, Bounds(indices, |data|))
  }

  /** split_at_indices: len(indices) + 1 sounds, each with the original
      sample rate and the samples between consecutive boundaries. */
  function SplitAtIndices(s: SoundData, indices: seq<int>): (r: seq<SoundData>)
    ensures |r| == |indices| + 1
    ensures forall k :: 0 <= k < |r| ==> r[k].samplerate == s.samplerate
    ensures s.data.OneD? ==> forall k :: 0 <= k < |r| ==>
              r[k].data == OneD(SplitSeq(s.data.samples, indices)[k])
    ensures s.data.TwoD? ==> forall k :: 0 <= k < |r| ==>
              r[k].data == TwoD(SplitSeq(s.data.frames, indices)[k], s.data.width)
  {
    match s.data
    case OneD(xs) =>
      var parts := SplitSeq(xs, indices);
      seq(|parts|, k requires 0 <= k < |parts| => SoundData(s.samplerate, OneD(parts[k])))
    case TwoD(fs, w) =>
      var parts := SplitSeq(fs, indices);
      seq(|parts|, k requires 0 <= k < |parts| => SoundData(s.samplerate, TwoD(parts[k], w)))
  }

  function Concat<T>(parts: seq<seq<T>>): seq<T> {
    if |parts| == 0 then [] else parts[0] + Concat(parts[1..])
  }

  /** Boundaries in order and inside the data. */
  predicate Ordered(b: seq<int>, n: nat) {
    (forall k :: 0 <= k < |b| ==> 0 <= b[k] <= n)
    && (forall i, j :: 0 <= i < j < |b| ==> b[i] <= b[j])
  }

  /** The first slice, then the slices from the second boundary on. */
  lemma PartsStep<T>(data: seq<T>, b: seq<int>)
    requires |b| > 1 && 0 <= b[0] <= b[1] <= |data|
    ensures PartsBy(data, b) == [data[b[0]..b[1]]] + PartsBy(data, b[1..])
  {
    var parts := PartsBy(data, b);
    assert parts[0] == data[b[0]..b[1]];
    assert parts[1..] == PartsBy(data, b[1..]);
  }

  /** The slices between ordered boundaries put back together give the
      data between the first and the last boundary. */
  lemma {:induction false} ConcatParts<T>(data: seq<T>, b: seq<int>)
    requires |b| > 0 && Ordered(b, |data|)
    ensures Concat(PartsBy(data, b)) == data[b[0]..b[|b| - 1]]
  {
    if |b| > 1 {
      var tail := b[1..];
      var lo, mid, hi := b[0], b[1], b[|b| - 1];
      assert tail[0] == mid && tail[|tail| - 1] == hi;
      assert 0 <= lo <= mid <= hi <= |data|;
      assert Ordered(tail, |data|);
      ConcatParts(data, tail);
      PartsStep(data, b);
      assert Concat(PartsBy(data, b)) == data[lo..mid] + Concat(PartsBy(data, tail));
      assert data[lo..hi] == data[lo..mid] + data[mid..hi];
    }
  }

  /** For ordered indices inside the data the parts put back together give
      the data. */
  lemma SplitConcat<T>(data: seq<T>, indices: seq<int>)
    requires Ordered(indices, |data|)
    ensures Concat(SplitSeq(data, indices)) == data
  {
    var b := Bounds(indices, |data|);
    assert Ordered(b, |data|) by {
      forall i, j | 0 <= i < j < |b| ensures b[i] <= b[j] {
        if 0 < i && j < |b| - 1 {
          assert b[i] == indices[i - 1] && b[j] == indices[j - 1];
        } else if 0 < i {
          assert b[i] == indices[i - 1];
        } else if j < |b| - 1 {
          assert b[j] == indices[j - 1];
        }
      }
    }
    ConcatParts(data, b);
    assert data[0..|data|] == data;
  }
}

=== FILE: stringfunctions.dfy ===
/** Normalisation of one G-code line and the two scanners that cut a
    letter group and a number off the front of a prepared line
    (gcanalyser/stringfunctions.py). Letters are ASCII letters. */
module StringFunctions {
  import opened Wrappers

  predicate IsAlpha(c: char) {
    'A' <= c <= 'Z' || 'a' <= c <= 'z'
  }

  /** Characters of a command name: letters and '_'. */
  predicate IsNameChar(c: char) {
    IsAlpha(c) || c == '_'
  }

  /** The valid characters of a number: "0123456789+-.". */
  predicate IsNumberChar(c: char) {
    '0' <= c <= '9' || c == '+' || c == '-' || c == '.'
  }

  function UpperChar(c: char): char {
    if 'a' <= c <= 'z' then ((c as int) - 32) as char else c
  }

  function Upper(s: string): string {
    seq(|s|, i requires 0 <= i < |s| => UpperChar(s[i]))
  }

  /** Number of occurrences of `c` in `s`. */
  function Count(s: string, c: char): (n: nat)
    ensures c !in s ==> n == 0
  {
    if |s| == 0 then 0 else (if s[0] == c then 1 else 0) + Count(s[1..], c)
  }

  lemma {:induction false} CountAppend(s: string, d: char, c: char)
    ensures Count(s + [d], c) == Count(s, c) + (if d == c then 1 else 0)
  {
    if |s| > 0 {
      assert (s + [d])[1..] == s[1..] + [d];
      CountAppend(s[1..], d, c);
    }
  }

  /** `s.replace(c, "")`. */
  function Without(s: string, c: char): (r: string)
    ensures c !in r
    ensures c !in s ==> r == s
    ensures forall x :: x in r ==> x in s
    ensures |r| + Count(s, c) == |s|
  {
    if |s| == 0 then "" else (if s[0] == c then "" else [s[0]]) + Without(s[1..], c)
  }

  /** Removing a character distributes over concatenation, so the other
      characters keep their order: together with the one-character case
      this determines `Without` completely. */
  lemma {:induction false} WithoutAppend(a: string, b: string, c: char)
    ensures Without(a + b, c) == Without(a, c) + Without(b, c)
    ensures |a| == 1 ==> Without(a, c) == (if a[0] == c then "" else a)
    decreases |a|
  {
    if |a| > 0 {
      assert (a + b)[0] == a[0] && (a + b)[1..] == a[1..] + b;
      WithoutAppend(a[1..], b, c);
      var h := if a[0] == c then "" else [a[0]];
      assert Without(a + b, c) == h + (Without(a[1..], c) + Without(b, c));
    } else {
      assert a + b == b;
    }
  }

  /** Drops every leading '\n'. */
  function StripLeading(s: string): (r: string)
    ensures |r| <= |s| && r == s[|s| - |r|..]
    ensures forall i :: 0 <= i < |s| - |r| ==> s[i] == '\n'
    ensures |r| > 0 ==> r[0] != '\n'
  {
    if |s| > 0 && s[0] == '\n' then StripLeading(s[1..]) else s
  }

  /** Drops every trailing '\n'. */
  function StripTrailing(s: string): (r: string)
    ensures |r| <= |s| && r == s[..|r|]
    ensures forall i :: |r| <= i < |s| ==> s[i] == '\n'
    ensures |r| > 0 ==> r[|r| - 1] != '\n'
  {
    if |s| > 0 && s[|s| - 1] == '\n' then StripTrailing(s[..|s| - 1]) else s
  }

  /** `s.strip("\n")`: the infix left after removing the '\n' at both ends. */
  function StripNewlines(s: string): (r: string)
    ensures exists a, b :: 0 <= a <= b <= |s| && r == s[a..b]
                           && (forall i :: 0 <= i < a ==> s[i] == '\n')
                           && (forall i :: b <= i < |s| ==> s[i] == '\n')
    ensures |r| > 0 ==> r[0] != '\n' && r[|r| - 1] != '\n'
  {
    var t := StripTrailing(s);
    var r := StripLeading(t);
    var a := |t| - |r|;
    assert r == s[a..|t|];
    r
  }

  /** `s.split(";")[0]`: everything before the first ';'. */
  function BeforeSemicolon(s: string): (r: string)
    ensures ';' !in r
    ensures |r| <= |s| && r == s[..|r|]
    ensures |r| < |s| ==> s[|r|] == ';'
  {
    if |s| == 0 || s[0] == ';' then "" else [s[0]] + BeforeSemicolon(s[1..])
  }

  /** The left-to-right scan of remove_comments_in_brackets: the characters
      kept so far and the current comment level. */
  function BracketScan(s: string): (string, int)
  {
    if |s| == 0 then ("", 0)
    else
      var (kept, level) := BracketScan(s[..|s| - 1]);
      var c := s[|s| - 1];
      if c == '(' then (kept, level + 1)
      else if c == ')' then (kept, level - 1)
      else if level == 0 then (kept + [c], level)
      else (kept, level)
  }

  lemma {:induction false} BracketScanFacts(s: string)
    ensures BracketScan(s).1 == Count(s, '(') - Count(s, ')')
    ensures '(' !in BracketScan(s).0 && ')' !in BracketScan(s).0
    ensures '(' !in s && ')' !in s ==> BracketScan(s).0 == s
    ensures forall x :: x in BracketScan(s).0 ==> x in s
  {
    if |s| > 0 {
      var p := s[..|s| - 1];
      assert s == p + [s[|s| - 1]];
      assert forall x :: x in p ==> x in s;
      BracketScanFacts(p);
      CountAppend(p, s[|s| - 1], '(');
      CountAppend(p, s[|s| - 1], ')');
    }
  }

  /** The characters of `s` that are not brackets and are preceded by as
      many '(' as ')', in order: the text outside every comment, defined by
      counting rather than by a running level. */
  function Level0(s: string): string {
    if |s| == 0 then ""
    else
      var p, c := s[..|s| - 1], s[|s| - 1];
      Level0(p) + (if c != '(' && c != ')' && Count(p, '(') == Count(p, ')') then [c] else [])
  }

  /** The scan keeps exactly the level-0 characters. */
  lemma {:induction false} BracketScanIsLevel0(s: string)
    ensures BracketScan(s).0 == Level0(s)
  {
    if |s| > 0 {
      var p := s[..|s| - 1];
      BracketScanIsLevel0(p);
      BracketScanFacts(p);
    }
  }

  /** remove_comments_in_brackets: keeps the characters at comment level 0,
      drops every parenthesis and fails when the final level is not 0. */
  function RemoveCommentsInBrackets(s: string): (r: Result<string>)
    ensures r.Err? <==> Count(s, '(') != Count(s, ')')
    ensures r.Ok? ==> r.value == Level0(s)
    ensures r.Ok? ==> '(' !in r.value && ')' !in r.value
    ensures r.Ok? && '(' !in s && ')' !in s ==> r.value == s
    ensures r.Ok? ==> forall x :: x in r.value ==> x in s
  {
    BracketScanFacts(s);
    BracketScanIsLevel0(s);
    var (kept, level) := BracketScan(s);
    if level != 0 then Err("Brackets in line not properly used") else Ok(kept)
  }

  /** A leading ')' makes the level negative, so a later '(' balances it and
      nothing at all is kept. */
  lemma ClosingFirstKeepsNothing()
    ensures RemoveCommentsInBrackets(")x(") == Ok("")
  {
    assert ")x("[..2] == ")x" && ")x"[..1] == ")" && ")"[..0] == "";
    assert BracketScan(")") == ("", -1);
    assert BracketScan(")x") == ("", -1);
    assert BracketScan(")x(") == ("", 0);
  }

  /** A prepared line holds no space, '=', bracket or ';' and no lower-case letter. */
  predicate IsPrepared(s: string) {
    forall i :: 0 <= i < |s| ==>
      s[i] != ' ' && s[i] != '=' && s[i] != '(' && s[i] != ')' && s[i] != ';' && !('a' <= s[i] <= 'z')
  }

  /** The line after stripping newlines and deleting spaces and '='. */
  function Cleaned(line: string): string {
    Without(Without(StripNewlines(line), ' '), '=')
  }

  /** prepare_line. */
  function PrepareLine(line: string): (r: Result<string>)
    ensures var c := Cleaned(line);
            |c| > 0 && c[0] == '/' ==> r == Ok("")
    ensures var c := Cleaned(line);
            r.Err? <==> !(|c| > 0 && c[0] == '/')
                        && Count(BeforeSemicolon(c), '(') != Count(BeforeSemicolon(c), ')')
    ensures var c := Cleaned(line);
            r.Ok? && !(|c| > 0 && c[0] == '/') ==> r.value == Upper(Level0(BeforeSemicolon(c)))
    ensures r.Ok? ==> IsPrepared(r.value)
  {
    var c := Cleaned(line);
    if |c| > 0 && c[0] == '/' then Ok("")
    else
      var b := BeforeSemicolon(c);
      var rc := RemoveCommentsInBrackets(b);
      if rc.Err? then Err(rc.msg)
      else
        assert ' ' !in c && '=' !in c;
        UpperOfClean(c, rc.value);
        Ok(Upper(rc.value))
  }

  lemma UpperOfClean(c: string, kept: string)
    requires ' ' !in c && '=' !in c
    requires '(' !in kept && ')' !in kept
    requires forall x :: x in kept ==> x in BeforeSemicolon(c)
    ensures IsPrepared(Upper(kept))
  {
    var b := BeforeSemicolon(c);
    assert forall x :: x in b ==> x in c;
    forall i | 0 <= i < |kept|
      ensures var u := Upper(kept)[i];
              u != ' ' && u != '=' && u != '(' && u != ')' && u != ';' && !('a' <= u <= 'z')
    {
      assert kept[i] in b;
    }
  }

  /** Length of the longest prefix of `s` whose characters satisfy `p`. */
  function Run(s: string, p: char -> bool): (k: nat)
    ensures k <= |s|
    ensures forall i :: 0 <= i < k ==> p(s[i])
    ensures k < |s| ==> !p(s[k])
  {
    if |s| == 0 || !p(s[0]) then 0 else 1 + Run(s[1..], p)
  }

  /** find_alpha_combo: splits a line into its leading command name and the
      rest; fails on an empty line or one not starting with a letter. */
  function FindAlphaCombo(line: string): (r: Result<(string, string)>)
    ensures r.Err? <==> |line| == 0 || !IsAlpha(line[0])
    ensures r.Ok? ==> r.value.0 + r.value.1 == line
    ensures r.Ok? ==> |r.value.0| > 0 && forall i :: 0 <= i < |r.value.0| ==> IsNameChar(r.value.0[i])
    ensures r.Ok? ==> |r.value.1| == 0 || !IsNameChar(r.value.1[0])
  {
    if |line| == 0 then Err("Line is empty")
    else if !IsAlpha(line[0]) then Err("Line does not start with an alpha")
    else
      var k := Run(line, IsNameChar);
      assert line[..k] + line[k..] == line;
      Ok((line[..k], line[k..]))
  }

  /** find_number: splits a line into its leading number and the rest; fails
      on an empty line or one not starting with a number character. */
  function FindNumber(line: string): (r: Result<(string, string)>)
    ensures r.Err? <==> |line| == 0 || !IsNumberChar(line[0])
    ensures r.Ok? ==> r.value.0 + r.value.1 == line
    ensures r.Ok? ==> |r.value.0| > 0 && forall i :: 0 <= i < |r.value.0| ==> IsNumberChar(r.value.0[i])
    ensures r.Ok? ==> |r.value.1| == 0 || !IsNumberChar(r.value.1[0])
  {
    if |line| == 0 then Err("Line is empty")
    else if !IsNumberChar(line[0]) then Err("Line does not start with a number")
    else
      var k := Run(line, IsNumberChar);
      assert line[..k] + line[k..] == line;
      Ok((line[..k], line[k..]))
  }
}

=== FILE: syncinfomanager.dfy ===
/** The synchronisation information of a program
    (gcanalyser/syncinfomanager.py): spindle-frequency segments, pauses,
    tool changes and snapshot starts, indexed by program line and, after
    `update`, placed on the expected timeline. Spindle status 0 is off, 3
    clockwise, 4 counter-clockwise. */
module SyncInfoManager {
  import opened Wrappers
  import opened PyNum
  import opened CncParameter
  import opened Snapshot

  /** A frequency segment: program lines `start` to `end`, its place on the
      timeline in ms, the frequency in Hz and the spindle status. */
  datatype FrequencyInfo = FrequencyInfo(
    start: int, end: int, timeStart: real, duration: real, frequency: int, spindleStatus: int)

  /** A pause: the program line, its kind (4 for a dwell), the time stamp of
      the line (set by `update`), the pause time in ms (−1 unknown), and
      whether the record is an integer array. A pause record is built from
      integers only, so numpy makes it int64; a dwell record holds the float
      dwell time, so it is float64. */
  datatype PauseInfo = PauseInfo(line: int, kind: int, timeStamp: real, time: real, integral: bool)

  datatype Sync = Sync(
    snapshot: seq<string>,
    snapshotFrequency: Option<int>,
    snapshotStarts: seq<int>,
    toolChanges: seq<int>,
    frequencies: seq<FrequencyInfo>,
    pauses: seq<PauseInfo>,
    lastSpindleStatus: int,
    f: int,
    currentLine: int)

  /** The open segment always carries the spindle's current state: its
      status, and frequency 0 while off or `f` while turning. */
  predicate Valid(s: Sync) {
    |s.frequencies| > 0
    && s.frequencies[|s.frequencies| - 1].spindleStatus == s.lastSpindleStatus
    && s.frequencies[|s.frequencies| - 1].frequency == (if s.lastSpindleStatus == 0 then 0 else s.f)
  }

  /** The constructor: the snapshot is read and its frequency derived as in
      the snapshot manager; the spindle is off at 0 Hz and one all-zero
      segment is open. */
  method New(lines: seq<string>, p: Params) returns (r: Result<Sync>)
    ensures r.Err? <==> SnapshotFrequency(Filter(NormalizeAll(lines)), p).Err?
    ensures r.Ok? ==> Valid(r.value)
    ensures r.Ok? ==> r.value.snapshot == Filter(NormalizeAll(lines))
                      && Ok(r.value.snapshotFrequency) == SnapshotFrequency(r.value.snapshot, p)
    ensures r.Ok? ==> r.value.frequencies == [FrequencyInfo(0, 0, 0.0, 0.0, 0, 0)]
                      && r.value.lastSpindleStatus == 0 && r.value.f == 0 && r.value.currentLine == 0
                      && r.value.pauses == [] && r.value.toolChanges == [] && r.value.snapshotStarts == []
  {
    var snapshot := GetSnapshot(lines);
    var f := SnapshotFrequency(snapshot, p);
    if f.Err? {
      return Err(f.msg);
    }
    return Ok(Sync(snapshot, f.value, [], [], [FrequencyInfo(0, 0, 0.0, 0.0, 0, 0)], [], 0, 0, 0));
  }

  /** check_start_of_snapshot, as in the snapshot manager. */
  function CheckStartOfSnapshot(s: Sync, line: int, program: seq<string>): (r: Result<(Sync, bool)>)
    ensures r.Err? <==> StartsSnapshot(s.snapshot, program).Err?
    ensures r.Ok? ==> r.value.1 == (StartsSnapshot(s.snapshot, program) == Ok(true))
    ensures r.Ok? && r.value.1 ==> r.value.0 == s.(snapshotStarts := s.snapshotStarts + [line])
    ensures r.Ok? && !r.value.1 ==> r.value.0 == s
  {
    var m := StartsSnapshot(s.snapshot, program);
    if m.Err? then Err(m.msg)
    else if m.value then Ok((s.(snapshotStarts := s.snapshotStarts + [line]), true))
    else Ok((s, false))
  }

  /** new_Tool: the line is appended to the tool changes. */
  function NewTool(s: Sync, line: int): (r: Sync)
    ensures r == s.(toolChanges := s.toolChanges + [line])
  {
    s.(toolChanges := s.toolChanges + [line])
  }

  /** new_S: the new frequency is the speed in rpm over 60, truncated.
      With the spindle turning and a new frequency, a new line closes the
      open segment at `line − 1` and opens one at `line`, the same line only
      overwrites the open segment's frequency. The frequency and the line
      are remembered in every case. */
  function NewS(s: Sync, line: int, speed: real): (r: Sync)
    requires Valid(s)
    ensures Valid(r)
    ensures speed >= 0.0 ==> r.f as real * 60.0 <= speed < r.f as real * 60.0 + 60.0
    ensures r.currentLine == line && r.lastSpindleStatus == s.lastSpindleStatus
    ensures r == s.(frequencies := r.frequencies, f := r.f, currentLine := line)
    ensures s.lastSpindleStatus == 0 || r.f == s.f ==> r.frequencies == s.frequencies
    ensures s.lastSpindleStatus != 0 && r.f != s.f && s.currentLine != line ==>
              var n := |s.frequencies|;
              r.frequencies == s.frequencies[..n - 1] + [s.frequencies[n - 1].(end := line - 1),
                                                         FrequencyInfo(line, line, 0.0, 0.0, r.f, s.lastSpindleStatus)]
    ensures s.lastSpindleStatus != 0 && r.f != s.f && s.currentLine == line ==>
              var n := |s.frequencies|;
              r.frequencies == s.frequencies[..n - 1] + [s.frequencies[n - 1].(frequency := r.f)]
  {
    var f := Trunc(speed / 60.0);
    var n := |s.frequencies|;
    var fs :=
      if s.lastSpindleStatus != 0 && f != s.f then
        if s.currentLine != line then
          s.frequencies[..n - 1] + [s.frequencies[n - 1].(end := line - 1),
                                    FrequencyInfo(line, line, 0.0, 0.0, f, s.lastSpindleStatus)]
        else s.frequencies[..n - 1] + [s.frequencies[n - 1].(frequency := f)]
      else s.frequencies;
    s.(frequencies := fs, f := f, currentLine := line)
  }

  /** The status a spindle command stands for; an unknown command counts
      as "off". */
  function StatusOf(command: string): (r: int)
    ensures r == 3 <==> command == "CW"
    ensures r == 4 <==> command == "CCW"
    ensures r == 0 <==> command != "CW" && command != "CCW"
  {
    match command
    case "off" => 0
    case "CW" => 3
    case "CCW" => 4
    case _ => 0
  }

  /** new_Spindle_Operation: an unchanged status changes nothing; otherwise
      the open segment is closed at `line − 1` and a segment with frequency
      0 (off) or `f` (on, or turning the other way) is opened. */
  function NewSpindleOperation(s: Sync, line: int, command: string): (r: Sync)
    requires Valid(s)
    ensures Valid(r) && r.f == s.f
    ensures StatusOf(command) == s.lastSpindleStatus ==> r == s
    ensures StatusOf(command) != s.lastSpindleStatus ==>
              var n := |s.frequencies|; var st := StatusOf(command);
              r == s.(frequencies := r.frequencies, lastSpindleStatus := st, currentLine := line)
              && r.frequencies == s.frequencies[..n - 1]
                                  + [s.frequencies[n - 1].(end := line - 1),
                                     FrequencyInfo(line, line, 0.0, 0.0, if st == 0 then 0 else s.f, st)]
  {
    var st := StatusOf(command);
    if s.lastSpindleStatus == st then s
    else
      var n := |s.frequencies|;
      var next := if st == 0 then FrequencyInfo(line, line, 0.0, 0.0, 0, st)
                  else if s.lastSpindleStatus == 0 then FrequencyInfo(line, line, 0.0, 0.0, s.f, st)
                  else FrequencyInfo(line, line, 0.0, 0.0, s.f, st);
      s.(frequencies := s.frequencies[..n - 1] + [s.frequencies[n - 1].(end := line - 1), next],
         lastSpindleStatus := st, currentLine := line)
  }

  /** new_dwell: a pause of kind 4 with the dwell time. */
  function NewDwell(s: Sync, line: int, time: real): (r: Sync)
    ensures r == s.(pauses := s.pauses + [PauseInfo(line, 4, 0.0, time, false)])
  {
    s.(pauses := s.pauses + [PauseInfo(line, 4, 0.0, time, false)])
  }

  /** new_pause: a pause of the given kind and unknown time. */
  function NewPause(s: Sync, line: int, kind: int): (r: Sync)
    ensures r == s.(pauses := s.pauses + [PauseInfo(line, kind, 0.0, -1.0, true)])
  {
    s.(pauses := s.pauses + [PauseInfo(line, kind, 0.0, -1.0, true)])
  }

  // ---------------------------------------------------------------- update

  /** The time-stamp search of `update`: the first stamp at or after `from`
      whose program line is at least `target`; when there is none the
      cursor stays at `from`. */
  function Seek(stamps: seq<(int, real)>, from: nat, target: int): (r: nat)
    requires from < |stamps|
    ensures from <= r < |stamps|
    ensures forall k :: from <= k < r ==> stamps[k].0 < target
    ensures r == from || stamps[r].0 >= target
    ensures stamps[r].0 < target ==> r == from && forall k :: from <= k < |stamps| ==> stamps[k].0 < target
    decreases |stamps| - from
  {
    if stamps[from].0 >= target then from
    else if from + 1 == |stamps| then from
    else
      var r := Seek(stamps, from + 1, target);
      if stamps[r].0 >= target then r else from
  }

  /** One segment placed on the timeline: it starts at the stamp found
      from the cursor for its first line and lasts until the stamp found
      from there for its last line. */
  function PlaceSegment(seg: FrequencyInfo, stamps: seq<(int, real)>, cursor: nat): (r: (FrequencyInfo, nat))
    requires cursor < |stamps|
    ensures cursor <= r.1 < |stamps|
    ensures var a := Seek(stamps, cursor, seg.start);
            r.0 == seg.(timeStart := stamps[a].1, duration := stamps[r.1].1 - stamps[a].1)
            && r.1 == Seek(stamps, a, seg.end)
  {
    var a := Seek(stamps, cursor, seg.start);
    var b := Seek(stamps, a, seg.end);
    (seg.(timeStart := stamps[a].1, duration := stamps[b].1 - stamps[a].1), b)
  }

  /** The frequency loop of `update`: the cursor is carried from segment to
      segment and never moves backwards. */
  function PlaceSegments(fs: seq<FrequencyInfo>, stamps: seq<(int, real)>, cursor: nat): (r: (seq<FrequencyInfo>, nat))
    requires cursor < |stamps|
    ensures |r.0| == |fs| && cursor <= r.1 < |stamps|
    ensures forall k :: 0 <= k < |fs| ==>
              r.0[k] == fs[k].(timeStart := r.0[k].timeStart, duration := r.0[k].duration)
    decreases |fs|
  {
    if |fs| == 0 then ([], cursor)
    else
      var (seg, c) := PlaceSegment(fs[0], stamps, cursor);
      var (rest, c2) := PlaceSegments(fs[1..], stamps, c);
      assert forall k :: 1 <= k < |fs| ==> fs[1..][k - 1] == fs[k];
      ([seg] + rest, c2)
  }

  /** Segment `k` is placed from the cursor the first `k` segments leave
      behind: the loop carries nothing else from one segment to the next. */
  lemma {:induction false} PlaceSegmentsAt(fs: seq<FrequencyInfo>, stamps: seq<(int, real)>, cursor: nat, k: nat)
    requires cursor < |stamps| && k < |fs|
    ensures PlaceSegments(fs[..k], stamps, cursor).1 < |stamps|
    ensures PlaceSegments(fs, stamps, cursor).0[k]
            == PlaceSegment(fs[k], stamps, PlaceSegments(fs[..k], stamps, cursor).1).0
    decreases k
  {
    if k == 0 {
      assert fs[..0] == [];
    } else {
      var c := PlaceSegment(fs[0], stamps, cursor).1;
      PlaceSegmentsAt(fs[1..], stamps, c, k - 1);
      assert fs[..k][0] == fs[0] && fs[..k][1..] == fs[1..][..k - 1];
      assert fs[1..][k - 1] == fs[k];
    }
  }

  /** `pause[2] = x`: a float stored into an int64 record is truncated
      toward zero; a float64 record keeps it. */
  function Stored(integral: bool, x: real): (r: real)
    ensures integral ==> r == r.Floor as real
                         && (x >= 0.0 ==> 0.0 <= r <= x < r + 1.0)
                         && (x < 0.0 ==> r - 1.0 < x <= r <= 0.0)
    ensures !integral ==> r == x
  {
    if integral then Trunc(x) as real else x
  }

  /** The pause loop of `update`: each pause gets the stamp of the first
      line at or after its own, searched from the first stamp (the first
      stamp when every line comes before it), stored in the record's type. */
  function PlacePause(p: PauseInfo, stamps: seq<(int, real)>): (r: PauseInfo)
    requires |stamps| > 0
    ensures r == p.(timeStamp := r.timeStamp)
    ensures forall j :: 0 <= j < |stamps| && stamps[j].0 >= p.line
                          && (forall k :: 0 <= k < j ==> stamps[k].0 < p.line) ==>
              r.timeStamp == Stored(p.integral, stamps[j].1)
    ensures (forall k :: 0 <= k < |stamps| ==> stamps[k].0 < p.line) ==>
              r.timeStamp == Stored(p.integral, stamps[0].1)
  {
    var j := Seek(stamps, 0, p.line);
    p.(timeStamp := Stored(p.integral, stamps[j].1))
  }

  /** A pause of kind 0 on a line stamped at 0.5 ms is placed at 0, its
      int64 record dropping the fraction; a dwell there keeps 0.5. */
  lemma PauseStampTruncated()
    ensures PlacePause(PauseInfo(7, 0, 0.0, -1.0, true), [(7, 0.5)]).timeStamp == 0.0
    ensures PlacePause(PauseInfo(7, 4, 0.0, 1000.0, false), [(7, 0.5)]).timeStamp == 0.5
  {
    assert Trunc(0.5) == 0;
  }

  /** update: places the frequency segments and the pauses on the
      timeline given by the time stamps [line, start time] of the program
      lines. Without any stamp, the first segment or pause looked up is an
      index error. */
  function Update(s: Sync, stamps: seq<(int, real)>): (r: Result<Sync>)
    ensures r.Err? <==> |stamps| == 0 && (|s.frequencies| > 0 || |s.pauses| > 0)
    ensures r.Ok? ==> |r.value.frequencies| == |s.frequencies| && |r.value.pauses| == |s.pauses|
    ensures r.Ok? ==> r.value == s.(frequencies := r.value.frequencies, pauses := r.value.pauses)
    ensures r.Ok? && |stamps| > 0 ==> forall k :: 0 <= k < |s.pauses| ==> r.value.pauses[k] == PlacePause(s.pauses[k], stamps)
    ensures r.Ok? && |stamps| > 0 ==> r.value.frequencies == PlaceSegments(s.frequencies, stamps, 0).0
  {
    if |stamps| == 0 then
      if |s.frequencies| > 0 || |s.pauses| > 0 then Err("list index out of range") else Ok(s)
    else
      var fs := PlaceSegments(s.frequencies, stamps, 0).0;
      var ps := seq(|s.pauses|, k requires 0 <= k < |s.pauses| => PlacePause(s.pauses[k], stamps));
      Ok(s.(frequencies := fs, pauses := ps))
  }

  /** Time stamps in program order: lines and start times both
      non-decreasing. */
  predicate StampsSorted(stamps: seq<(int, real)>) {
    forall i, j :: 0 <= i < j < |stamps| ==> stamps[i].0 <= stamps[j].0 && stamps[i].1 <= stamps[j].1
  }

  /** With sorted time stamps, every placed segment has a non-negative
      duration and starts no earlier than the stamp at the cursor it was
      searched from. */
  lemma {:induction false} PlacedDurationsNonNegative(fs: seq<FrequencyInfo>, stamps: seq<(int, real)>, cursor: nat)
    requires cursor < |stamps| && StampsSorted(stamps)
    ensures forall k :: 0 <= k < |fs| ==> PlaceSegments(fs, stamps, cursor).0[k].duration >= 0.0
    ensures forall k :: 0 <= k < |fs| ==> PlaceSegments(fs, stamps, cursor).0[k].timeStart >= stamps[cursor].1
    decreases |fs|
  {
    if |fs| > 0 {
      var (seg, c) := PlaceSegment(fs[0], stamps, cursor);
      PlacedDurationsNonNegative(fs[1..], stamps, c);
      var r := PlaceSegments(fs, stamps, cursor).0;
      var rest := PlaceSegments(fs[1..], stamps, c).0;
      assert r == [seg] + rest;
      assert stamps[cursor].1 <= stamps[c].1;
      forall k | 0 < k < |fs|
        ensures r[k].duration >= 0.0 && r[k].timeStart >= stamps[cursor].1
      {
        assert r[k] == rest[k - 1];
        assert rest[k - 1].duration >= 0.0;
        assert rest[k - 1].timeStart >= stamps[c].1;
      }
    }
  }
}

=== FILE: util.dfy ===
/** Conversion of a physical value to a bin index
    (audioanalyser/util.py). */
module Util {
  import opened Wrappers

  /** convert_to_idx: floor division of `x` by the bin width x_max / n_x;
      a zero bin width or n_x = 0 is a division by zero. */
  function ConvertToIdx(x: real, xMax: real, n: int): (r: Result<int>)
    ensures r.Err? <==> n == 0 || xMax == 0.0
  {
    if n == 0 || xMax == 0.0 then Err("float floor division by zero")
    else Ok((x / (xMax / n as real)).Floor)
  }

  /** For a positive bin width the index is the bin holding x:
      index·width ≤ x < (index + 1)·width. */
  lemma ConvertBracket(x: real, xMax: real, n: int)
    requires n != 0 && xMax / n as real > 0.0
    ensures var w := xMax / n as real;
            var i := ConvertToIdx(x, xMax, n).value;
            i as real * w <= x < (i as real + 1.0) * w
  {
    FloorBracket(x, xMax / n as real);
  }

  /** Multiplying a bracket a ≤ q < b by a positive width. */
  lemma Scale(a: real, q: real, b: real, w: real)
    requires w > 0.0 && a <= q < b
    ensures a * w <= q * w < b * w
  {
  }

  /** Dividing a strict inequality by a positive width. */
  lemma Unscale(a: real, b: real, w: real)
    requires w > 0.0 && a * w < b * w
    ensures a < b
  {
    assert (b - a) * w > 0.0;
  }

  /** The floor of x / w brackets x between multiples of w. */
  lemma FloorBracket(x: real, w: real)
    requires w > 0.0
    ensures var q := (x / w).Floor; q as real * w <= x < (q as real + 1.0) * w
  {
    var q := (x / w).Floor;
    Scale(q as real, x / w, q as real + 1.0, w);
    assert (x / w) * w == x;
    assert q as real * w <= x;
    assert x < (q as real + 1.0) * w;
  }

  /** The array form: the conversion applied to every element. The bin
      width x_max / n_x is computed before numpy sees the array, so n_x = 0
      fails even for an empty array; a zero x_max makes numpy produce
      undefined integers, modelled as a failure. */
  function ConvertAllToIdx(xs: seq<real>, xMax: real, n: int): (r: Result<seq<int>>)
    ensures r.Err? <==> n == 0 || (|xs| > 0 && xMax == 0.0)
    ensures r.Ok? ==> |r.value| == |xs|
                      && forall k :: 0 <= k < |xs| ==> ConvertToIdx(xs[k], xMax, n) == Ok(r.value[k])
  {
    if n == 0 then Err("float division by zero")
    else if |xs| == 0 then Ok([])
    else if xMax == 0.0 then Err("float floor division by zero")
    else Ok(seq(|xs|, k requires 0 <= k < |xs| => ConvertToIdx(xs[k], xMax, n).value))
  }

  /** For positive x_max and n_x the index grows with the value. */
  lemma ConvertMonotone(x: real, y: real, xMax: real, n: int)
    requires xMax > 0.0 && n > 0 && x <= y
    ensures ConvertToIdx(x, xMax, n).value <= ConvertToIdx(y, xMax, n).value
  {
    var w := xMax / n as real;
    assert w > 0.0;
    var i, j := ConvertToIdx(x, xMax, n).value, ConvertToIdx(y, xMax, n).value;
    ConvertBracket(x, xMax, n);
    ConvertBracket(y, xMax, n);
    assert i as real * w <= x && y < (j as real + 1.0) * w;
    Unscale(i as real, j as real + 1.0, w);
  }

  /** 0 is the first bin and x_max the end of the last one; a negative
      value has a negative index. */
  lemma ConvertEnds(xMax: real, n: int, x: real)
    requires xMax > 0.0 && n > 0
    ensures ConvertToIdx(0.0, xMax, n) == Ok(0)
    ensures ConvertToIdx(xMax, xMax, n) == Ok(n)
    ensures x < 0.0 ==> ConvertToIdx(x, xMax, n).value < 0
  {
    var w := xMax / n as real;
    assert xMax / w == n as real;
    if x < 0.0 {
      ConvertBracket(x, xMax, n);
    }
  }
}

=== FILE: wrappers.dfy ===
/** Failure-compatible wrappers shared by every module of the model.
    `Err` stands for a Python exception raised by the modelled code; the
    message names the condition, not the exact Python text. */
module Wrappers {

  datatype Option<+T> = None | Some(value: T)

  datatype Result<+T> = Ok(value: T) | Err(msg: string) {

    predicate IsFailure() {
      Err?
    }

    function PropagateFailure<U>(): Result<U>
      requires Err?
    {
      Err(msg)
    }

    function Extract(): T
      requires Ok?
    {
      value
    }
  }

  /** Turns an absent value into an error with the given message. */
  function Need<T>(o: Option<T>, msg: string): (r: Result<T>)
    ensures o.Some? <==> r.Ok?
    ensures o.Some? ==> r.value == o.value
  {
    match o
    case Some(v) => Ok(v)
    case None => Err(msg)
  }
}
